=== FILE: README.md ===
# BuzzBoard, modelled in Dafny

BuzzBoard is a college club and event board. It has an Express/MongoDB server
and a React client. This project models the sequential logic under the views
and the database plumbing. Every server handler is a pure transition over
immutable records that returns `Ok(new state)` or `Err(status, message)`. The
statuses are 400, 401, 403, 404 and 500, and the messages are the handler's own.
The client's decisions are pure functions of the server's answers.

The project covers:

- **Accounts and tokens.** `register`, `login` and `updateProfile`, with the
  whitelist and role gate of `updateProfile`. The `authRequired` and `adminOnly`
  middleware, with bearer-header parsing.
- **Club membership.** `createClub`, which promotes the creator to admin with
  a complete profile. `joinClub`, `approveJoinRequest`, the owner-only
  listings, `myJoinRequests` and the filter `listClubs` builds. A membership
  invariant is kept by every modelled write (`createClub`, `joinClub`,
  `approveJoinRequest`, `updateProfile` and `register`): members are listed once, the owner is a
  member, a user is never both member and pending, there is at most one
  pending request per user, no request is ever rejected, and a member's
  account lists the club.
- **The onboarding gate on the client.** The `PrivateRoute` and
  `OnboardingRoute` guards and the route table. The navigation-bar rule. The
  admin's join-request panel. Role selection, and the profile-completion form
  with its interests parsing. Lemmas run each client payload through the
  server's `updateProfile`.
- **The Clubs page.** The per-club `{isMember, isRequest, joinReqId}` status by
  first-match scan, the search filter, and the card's button. Lemmas say what
  each button gets from the server.
- **Events.** The ordered checks of `createEvent`. The creator-or-owner rule of
  `updateEvent` and `deleteEvent`. The upcoming listing of `listEvents` and the
  query it builds.
- **Keyed stores.** RSVPs and volunteer applications are maps keyed by
  (user, event) with overwrite semantics. Galleries are a map keyed by event
  with append semantics.
- **Comments, notifications and the image upload route.** Comment emptiness,
  ordering and delete rights. Notification listing and `markRead`. Parsing of
  the upload route's `dataUrl` by `^data:(.*?);base64,(.*)$`, with the choice
  of file extension.

Files, one module each: `common.dfy` (ids, results, JavaScript values, fresh
ids), `text.dfy` (trim, lower case, search, split), `seqs.dfy` (filter, sort,
top-k), `users.dfy`, `auth.dfy`, `notifications.dfy`, `clubs.dfy`,
`membership.dfy`, `clubspage.dfy`, `onboarding.dfy`, `events.dfy`, `rsvp.dfy`,
`volunteers.dfy`, `comments.dfy`, `gallery.dfy`, `upload.dfy`.

Modelling conventions:

- **Ids** are naturals. A new document takes `Common.FreshId` of the ids in use
  together with a `referenced` set: the ids of that kind other documents still
  carry (club members for a new account; comments, RSVPs, applications and
  galleries for a new event). An ObjectId is never issued twice, so a new id
  must also avoid ids that were deleted but are still referenced. An id that
  was deleted and is referenced nowhere may come back; nothing can observe it.
- **Uncaught throws.** A handler without a `catch` whose database call or
  `new RegExp` throws leaves Express 4 with an unhandled rejection, and the
  request goes unanswered. The model answers 500 with a message of its own
  (`Events.Authorize`, `Clubs.ListClubsFilter`).
- **Coordinates** are integers. The `2dsphere` indexes refuse a point whose
  longitude is outside [-180, 180] or whose latitude is outside [-90, 90]
  (`Common.LngLatValid`); the insert or update then fails.
- **Crypto** is a parameter. `jwt.verify` is a function `string -> Option<payload>`,
  bcrypt's hash is `string -> string`, and its comparison is `(string, string) -> bool`.
- **Clocks** are parameters: the current time is an `int`, and so is each timestamp.
- **Best-effort writes** have a `delivered` flag: the notification appends in the
  club workflow, inside `try {} catch {}`.
- **Writes the database may refuse** have a `stored` or `written` flag: the
  upserts of RSVP, volunteer and gallery, and the upload's file write. When the
  flag is false the handler answers its catch-branch error.
- **`$set` drops undefined keys.** A field absent from an update body keeps its
  stored value, which is Mongoose's behaviour since version 6. This decides the
  volunteer `role` and `status` updates.
- **Unvalidated updates.** `findOneAndUpdate` and `findByIdAndUpdate` run no
  validators unless asked. The RSVP and volunteer statuses are therefore free
  strings; only `updateProfile` validates its enumerations.

Where the code departs from what its UI or schema suggests, the model follows the code:

- `approveJoinRequest` never reads the body's `status`. Every successful PATCH
  approves, including the admin panel's Reject and the requester's Cancel. No
  code path writes `rejected` (`Clubs.ApproveIgnoresDecision`,
  `Onboarding.PanelDecisionApproves`, `Membership.ClubInv`).
- Cancel Request on the Clubs page gets 403, since the requester is never the
  owner (`ClubsPage.CancelRequestIsForbidden`).
- `PrivateRoute` sends every INCOMPLETE user to `/onboarding/role`, whatever
  the role. `OnboardingRoute` lets a completed account back in, and the role
  payload there changes the role and resets the profile to INCOMPLETE
  (`Onboarding.CompletedAccountCanChangeRole`).
- `register` refuses every body without a valid point. The array path
  `location.coordinates` of the User schema defaults to an empty array, so a
  document built without a location carries `location: {coordinates: []}`;
  the sparse `2dsphere` index does not skip it and cannot read it as a point
  (`Users.NewPointIndexed`). The sign-up form sends no location, so it gets
  500 "Registration failed".
- The Clubs page's inline create form sends only a name and a description.
  The server always refuses it, because college name and address are required
  (`ClubsPage.InlineCreateAlwaysRefused`).
- With the event's club gone, `updateEvent` and `deleteEvent` throw for any
  caller but the creator, instead of answering 403. The model answers 500.

## Model

| member | source | states |
|---|---|---|
| Users.ParseRole | server/src/models/User.js:26 | the role validator accepts exactly "user" and "admin", and reads each back as itself |
| Users.ParseStatus | server/src/models/User.js:25 | the profile status validator accepts exactly INCOMPLETE and COMPLETE |
| Users.ParseGender | server/src/models/User.js:16 | the gender validator accepts exactly the four listed values |
| Users.EnumRoundTrips | server/src/models/User.js:16-26 | every stored role, status and gender passes its validator as itself |
| Users.PointOf | server/src/controllers/auth.controller.js:20-29 | the sanitiser keeps a location only when it is an object of type 'Point' whose coordinates are an array of exactly two numbers, read as (longitude, latitude) |
| Users.PointRoundTrip | server/src/controllers/auth.controller.js:20-29 | a 'Point' with two numeric coordinates survives register's sanitising unchanged |
| Users.PointRejects | server/src/controllers/auth.controller.js:20-29 | a non-object, a type other than 'Point', non-array coordinates, a length other than two, or a non-number coordinate each drop the location |
| Users.IfGiven | server/src/controllers/auth.controller.js:32-33 | an optional URL is kept exactly when it is truthy |
| Users.NewAccount | server/src/controllers/auth.controller.js:31-37 | the account built for a registration holds exactly what `CreatedFrom` lists for that body |
| Users.CreatedFrom | server/src/controllers/auth.controller.js:14-37 | the stored account for a registration: the name, bio and sanitised location sent, the lower-cased e-mail, the hashed password, each URL exactly when truthy and then as sent, the documents sent (none when absent), role user, status INCOMPLETE, no clubs, and every other profile field empty |
| Users.PointStorable | server/src/models/User.js:44 | no point, or one whose longitude and latitude the geo index accepts |
| Users.NewPointIndexed | server/src/models/User.js:28-44 | the geo index accepts a new account's location only when it is a point in range; without one the document carries the array default `coordinates: []`, which the index refuses |
| Users.RegisterValid | server/src/models/User.js:6-44 | the insert passes: name, e-mail and password given and non-empty, and a sanitised point in range (a body without one is refused by the geo index) |
| Users.InsertAccount | server/src/controllers/auth.controller.js:37 | the insert adds exactly one account, under an id neither in use nor still referenced, holding what `CreatedFrom` lists, and changes no other account |
| Users.Register | server/src/controllers/auth.controller.js:12-45 | a taken e-mail gives 400 "Email already in use" and adds no user; missing required fields, or a location the geo index refuses (including none at all), give 500 "Registration failed"; otherwise exactly one new account is added under an id neither in use nor still referenced, holding the name, bio and point sent, the e-mail lower-cased, the password hashed, each URL exactly when truthy and then as sent, the documents sent, role user, status INCOMPLETE, no clubs and no other profile field; all other accounts are unchanged |
| Users.NoPointNoAccount | server/src/controllers/auth.controller.js:19-37 | a registration whose location the sanitiser drops, as the sign-up form's always is, creates no account |
| Users.AddAccountKeepsEmails | server/src/models/User.js:7 | an account added under a fresh id with an unused lower-case address keeps stored e-mails unique and lower case |
| Users.RegisterKeepsEmailsUnique | server/src/models/User.js:7 | registration keeps stored e-mails unique and lower case |
| Users.FindByEmail | server/src/controllers/auth.controller.js:50 | the lookup finds an account exactly when one is registered under the lower-cased address |
| Users.Login | server/src/controllers/auth.controller.js:47-61 | success exactly when the account exists and the password matches its hash; an unknown e-mail gives 400 "Invalid credentials"; every failure is that 400 or 500 "Login failed" |
| Users.LoginHidesWhichCredentialFailed | server/src/controllers/auth.controller.js:50-53 | an unknown e-mail and a wrong password get the same answer |
| Users.RoleGateOpen | server/src/controllers/auth.controller.js:79-81 | the role is written only when the body carries one and its profileStatus is exactly INCOMPLETE |
| Users.UpdateValid | server/src/models/User.js:6-26 | the update validators `runValidators` turns on pass: a written name is non-empty (`required`), and a written gender, status and (through the gate) role hold a listed value |
| Users.ApplyProfile | server/src/controllers/auth.controller.js:75-90 | the `$set` of the whitelist: every whitelisted field given is written and every absent one kept, the role only through the gate, and id, e-mail, password hash and joined clubs never change |
| Users.UpdateProfile | server/src/controllers/auth.controller.js:68-96 | a validator failure is 500 "Update failed" with no write, for any caller; an unknown caller then gets null with no write; for a stored caller a point the geo index refuses is 500 with no write; otherwise the stored caller is replaced by its whitelisted update, field by field: each of name, bio, location, phone, gender, college, course, year, interests, resumeUrl, address, profileStatus, avatarUrl, logoUrl and vendorDocuments is written when given and kept when absent, the role changes only when given with a body status of INCOMPLETE, and id, e-mail, password hash and joined clubs never change; no other account changes |
| Users.UpdateProfileKeepsEmails | server/src/controllers/auth.controller.js:71-77 | a profile update keeps e-mails unique and lower case |
| Auth.SignPayload | server/src/controllers/auth.controller.js:4-10 | the token claims carry the user's id and the role and status names the validators read back |
| Auth.BearerToken | server/src/middleware/auth.js:5-6 | there is a token exactly when the header starts with "Bearer ", and the header is that prefix followed by the token |
| Auth.BearerRoundTrip | server/src/middleware/auth.js:5-6 | "Bearer " followed by a token yields that token |
| Auth.AuthRequired | server/src/middleware/auth.js:4-17 | a missing or empty token is 401 "Unauthorized"; a failed verification is 401 "Invalid token"; otherwise the identity is the payload's user id and role |
| Auth.SignedTokenAuthenticates | server/src/middleware/auth.js:4-17 | a token signed for a user and sent as a bearer header authenticates that user with that user's role |
| Auth.AdminOnly | server/src/middleware/auth.js:19-22 | passes exactly when the role is "admin"; otherwise 403 "Forbidden" |
| Auth.SignedRoleGate | server/src/middleware/auth.js:19-22 | a token signed for an account passes `adminOnly` exactly when the account's role is admin |
| Notifications.Post | server/src/models/Notification.js:5-9 | a delivered notification is appended unread under a fresh id with the given user, type, message and meta; an undelivered one leaves the log as it was |
| Notifications.ListMine | server/src/controllers/notification.controller.js:3-6 | only the caller's notifications, newest first, and the first 100 of them in that order |
| Notifications.FindOwned | server/src/controllers/notification.controller.js:10 | finds the first notification with that id owned by the caller, and finds none exactly when there is none |
| Notifications.MarkRead | server/src/controllers/notification.controller.js:8-15 | 404 "Not found" exactly when no notification with that id belongs to the caller; otherwise that one is marked read and no other changes |
| Notifications.MarkReadIdempotent | server/src/controllers/notification.controller.js:12-14 | marking a notification read twice equals marking it once |
| Notifications.FindOwnedSameKeys | server/src/controllers/notification.controller.js:10 | the ownership lookup depends only on the ids and owners |
| Clubs.MemberIds | server/src/models/Club.js:11-16 | exactly the user ids some stored club lists as a member |
| Clubs.CreateClub | server/src/controllers/club.controller.js:52-78 | fails with 400 exactly when a required field is missing or the name is taken; otherwise a new club owned by the caller with members [caller], no requests, and the name, description, college name, address and logo sent; the creator's account becomes exactly its promotion; other clubs and users are unchanged |
| Clubs.Promote | server/src/controllers/club.controller.js:68-71 | the creator gains the club among its joined clubs, role admin and a complete profile, and every other field is kept |
| Clubs.CreatorPassesAdminOnly | server/src/controllers/club.controller.js:68-71 | after `createClub`, a token signed for the creator passes `adminOnly` |
| Clubs.JoinClub | server/src/controllers/club.controller.js:80-104 | 404 for an unknown club; 400 "Request already pending" is checked before 400 "Already a member"; success appends exactly one pending request of the caller under a fresh id, dated now, changes neither members nor other clubs, and posts the owner's join-request note (when delivery succeeds) |
| Clubs.JoinOutcomeIgnoresNotification | server/src/controllers/club.controller.js:95-102 | whether the owner's notification is written never changes the outcome or the clubs |
| Clubs.FindRequest | server/src/controllers/club.controller.js:112 | the first embedded request with that id, or none exactly when no request has it |
| Clubs.Approvable | server/src/controllers/club.controller.js:112-115 | a request is approvable exactly when the club holds one with that id and it is still pending |
| Clubs.Approve | server/src/controllers/club.controller.js:106-130 | 404 for an unknown club; 403 exactly when the caller is not the owner; 404 for a request that is unknown or not pending; success marks the first request with that id approved, appends its user to members, adds the club to that user's joined clubs and posts that user's join-approved note naming the club (when delivery succeeds) |
| Clubs.ApproveIgnoresDecision | server/src/controllers/club.controller.js:106-130 | the body's status never changes the result |
| Clubs.SecondApprovalFails | server/src/controllers/club.controller.js:112-115 | approving the same request a second time answers 404 |
| Clubs.FindRequestSameIds | server/src/controllers/club.controller.js:112 | the request lookup depends only on the request ids |
| Clubs.ListMembers | server/src/controllers/club.controller.js:132-139 | 404 for an unknown club, 403 exactly for a non-owner, otherwise the member list |
| Clubs.ApproveThenListedAsMember | server/src/controllers/club.controller.js:119-139 | after the owner approves a request, the owner's member listing is the old members followed by the request's user |
| Clubs.ListJoinRequests | server/src/controllers/club.controller.js:141-148 | 404 for an unknown club, 403 exactly for a non-owner, otherwise every request whatever its status |
| Clubs.JoinThenListedForOwner | server/src/controllers/club.controller.js:141-148 | after a successful join, the owner's request listing succeeds, keeps the earlier requests in order, and holds a pending request of the caller |
| Clubs.ViewsIn | server/src/controllers/club.controller.js:151-160 | the views of exactly the caller's requests in one club |
| Clubs.QueryByRequester | server/src/controllers/club.controller.js:152 | exactly the stored clubs holding a request of the caller, of any status |
| Clubs.CollectViews | server/src/controllers/club.controller.js:153-158 | a view for exactly each request of the caller in each club given, with that club |
| Clubs.MyJoinRequests | server/src/controllers/club.controller.js:151-160 | over the whole store, a view for exactly each request of the caller in any club, whatever its status, with that club |
| Clubs.JoinThenListedForCaller | server/src/controllers/club.controller.js:151-160 | after a successful join, the caller's own listing holds a pending request for that club |
| Clubs.OptionalCaller | server/src/controllers/club.controller.js:23-31 | the public listing knows a caller exactly when the bearer token authenticates |
| Clubs.PatternOf | server/src/controllers/club.controller.js:12-19 | a pattern exactly when the value is given and its trim is non-empty, and then that trim |
| Clubs.ListClubsFilter | server/src/controllers/club.controller.js:7-50 | exactly when a present text or city pattern does not compile as a regular expression the handler fails (answered 500); otherwise the text and city patterns are present exactly when the trimmed value is non-empty; owner=me means the caller only with a valid token; joined=me filters on membership only with a valid token |
| Clubs.FilterSelects | server/src/controllers/club.controller.js:12-46 | a club is returned when the text pattern matches its name, description, college name or address, the city pattern its address, the owner filter its owner and the member filter one of its members |
| Clubs.NoQueryListsAll | server/src/controllers/club.controller.js:7-50 | a listing without query parameters returns every club |
| Clubs.JoinedMeListsMemberClubs | server/src/controllers/club.controller.js:41-43 | joined=me with a valid token returns exactly the clubs the caller is a member of |
| Clubs.TextListsMatchingClubs | server/src/controllers/club.controller.js:12-15 | a search text that compiles returns exactly the clubs whose name, description, college name or address match its trim |
| Membership.EmptyWorldInv | server/src/models/Club.js:11-16 | the empty database satisfies the membership invariant |
| Membership.NewClubInv | server/src/controllers/club.controller.js:57-65 | a club whose only member is its owner and that has no requests satisfies the invariant |
| Membership.AddClubKeepsClubInvs | server/src/controllers/club.controller.js:57-65 | adding or replacing a club that satisfies the invariant, under its own id, keeps it for the collection |
| Membership.NewClubKeepsBackReferences | server/src/controllers/club.controller.js:68-71 | recording a new club on its creator keeps every member's joined clubs complete |
| Membership.CreateClubKeepsInv | server/src/controllers/club.controller.js:52-78 | createClub keeps the membership invariant |
| Membership.AppendRequestKeepsClubInv | server/src/controllers/club.controller.js:84-92 | appending a fresh pending request of a non-member with no pending request keeps the club's invariant |
| Membership.ApproveRequestKeepsClubInv | server/src/controllers/club.controller.js:116-117 | approving a pending request and appending its user to the members keeps the club's invariant |
| Membership.SameMembersKeepBackReferences | server/src/controllers/club.controller.js:92 | replacing a club by one with the same members keeps every member's joined clubs complete |
| Membership.NewMemberKeepsBackReferences | server/src/controllers/club.controller.js:117-119 | adding a member to a club together with the club on that member's account keeps every member's joined clubs complete |
| Membership.JoinClubKeepsInv | server/src/controllers/club.controller.js:85-92 | joinClub keeps the invariant: no second pending request, never both member and pending, request ids distinct |
| Membership.ApproveKeepsInv | server/src/controllers/club.controller.js:116-119 | approval keeps the invariant: members stay duplicate-free and every member's account lists the club |
| Membership.UpdateProfileKeepsInv | server/src/controllers/auth.controller.js:71-77 | a profile update keeps the membership invariant |
| Membership.RegisterKeepsInv | server/src/controllers/auth.controller.js:12-45 | registering an account under an id no club lists as a member keeps the membership invariant |
| Membership.ApprovedUserIsMemberOnce | server/src/controllers/club.controller.js:116-117 | an approved requester was not a member before and is a member listed exactly once after |
| ClubsPage.FirstPendingAt | client/src/pages/Clubs.jsx:30-39 | the position of the first pending request of the user: no earlier request is a pending one of theirs, and none exactly when they have no pending request |
| ClubsPage.FirstPending | client/src/pages/Clubs.jsx:28-39 | the id of the first pending request of the user, and none exactly when there is no pending request |
| ClubsPage.DeriveStatus | client/src/pages/Clubs.jsx:24-40 | isMember exactly when the user is a member; isRequest exactly when a pending request exists, and exactly when joinReqId is set |
| ClubsPage.StatusMap | client/src/pages/Clubs.jsx:20-45 | the map is empty without a signed-in user, and otherwise has one entry per listed club id |
| ClubsPage.StatusMapEntry | client/src/pages/Clubs.jsx:22-40 | a club's entry is the status derived from the last club listed under its id |
| ClubsPage.ClubIds | client/src/pages/Clubs.jsx:40 | exactly the ids of the listed clubs |
| ClubsPage.ControlFor | client/src/pages/Clubs.jsx:117-129 | nothing exactly when signed out; Joined exactly for a member; Cancel Request for a non-member with a pending request, carrying its request id; Join otherwise |
| ClubsPage.CardMatchesServer | client/src/pages/Clubs.jsx:16-47 | the card shows Joined, Cancel or Join exactly as the server's member and pending state says |
| ClubsPage.JoinButtonIsAccepted | client/src/pages/Clubs.jsx:62 | pressing Join on a card drawn from the current club state succeeds on the server |
| ClubsPage.CancelRequestIsForbidden | client/src/pages/Clubs.jsx:64-67 | Cancel Request is answered 403 by the approval route |
| ClubsPage.FilterClubs | client/src/pages/Clubs.jsx:51-55 | a blank search returns every club; otherwise the clubs whose lower-cased name and description contain the lower-cased trimmed query, in list order |
| ClubsPage.SearchIgnoresCase | client/src/pages/Clubs.jsx:52-54 | lower-casing the search text does not change the result |
| ClubsPage.NameMatchShown | client/src/pages/Clubs.jsx:54 | a club whose lower-cased name contains the query is shown |
| ClubsPage.InlineCreateAlwaysRefused | client/src/pages/Clubs.jsx:57-61 | the page's name-and-description create request always gets 400 |
| Onboarding.PrivateRoute | client/src/App.jsx:19-33 | signed out goes to /login; INCOMPLETE goes to /onboarding/role unless already there, whatever the role; otherwise the page renders |
| Onboarding.OnboardingRoute | client/src/App.jsx:133-139 | renders exactly when signed in, otherwise goes to /login |
| Onboarding.StripTrailingSlashes | client/src/App.jsx:150-165 | the path without its trailing slashes: a prefix of it that does not end with a slash, followed in the path only by slashes |
| Onboarding.RouteOf | client/src/App.jsx:151-165 | compared without regard to case, only /login is unguarded; the three onboarding paths are exactly the onboarding-guarded ones; every private page sits behind PrivateRoute and no other route does |
| Onboarding.Resolve | client/src/App.jsx:150-165 | after trailing slashes are dropped, an empty path is / : Landing when signed out and the guarded Dashboard when signed in |
| Onboarding.TrailingSlashIgnored | client/src/App.jsx:150-165 | a path with a trailing slash reaches the same screen as the path without it |
| Onboarding.RouteSameCase | client/src/App.jsx:151-165 | two paths that differ only in letter case reach the same route |
| Onboarding.CaseIgnored | client/src/App.jsx:150-165 | two paths that differ only in letter case reach the same screen |
| Onboarding.IncompleteNeverSeesPrivatePage | client/src/App.jsx:28-30 | an INCOMPLETE account never sees a private page, and is only ever sent to role selection |
| Onboarding.RoleSelectionAlwaysRenders | client/src/App.jsx:154 | the role page renders for any signed-in user, so the redirect cannot loop |
| Onboarding.CompleteNeverRedirected | client/src/App.jsx:32 | a completed account is never redirected |
| Onboarding.CompleteSeesDashboard | client/src/App.jsx:150 | a completed account sees the Dashboard at / |
| Onboarding.SignedOutSeesOnlyPublicPages | client/src/App.jsx:23-25 | signed out, only Landing and Login show and every guard sends to /login |
| Onboarding.NavHidden | client/src/App.jsx:70-77 | the navigation is hidden exactly on /onboarding paths, on /login, and on / when signed out |
| Onboarding.NavShownOnPrivatePages | client/src/App.jsx:69-77 | the navigation bar shows on every path that renders a private page |
| Onboarding.NavHiddenOnOnboardingPages | client/src/App.jsx:69-77 | each onboarding page renders for a signed-in user with the navigation bar hidden |
| Onboarding.PendingRows | client/src/App.jsx:51-53 | the panel rows of exactly the club's pending requests |
| Onboarding.PendingPanel | client/src/App.jsx:41-63 | a row for exactly each pending request of each listed club the admin owns |
| Onboarding.HandleRequest | client/src/App.jsx:64-67 | once answered, the decided request id leaves the list whatever the decision, and every other row stays |
| Onboarding.PanelDecisionApproves | client/src/App.jsx:64-65 | both Accept and Reject approve the request and make its user a member |
| Onboarding.Answer | client/src/pages/RoleSelection.jsx:13 | the client sees the updated account on success and the error otherwise |
| Onboarding.RolePayload | client/src/pages/RoleSelection.jsx:13 | the role body always carries profile status INCOMPLETE and so opens the server's role gate |
| Onboarding.SelectRole | client/src/pages/RoleSelection.jsx:10-23 | failure only alerts; success stores the answer and goes to the user form for "user" and the club form for "admin" |
| Onboarding.RoleSelectionSetsRole | client/src/pages/RoleSelection.jsx:10-19 | either button sets the role on the server, keeps the profile INCOMPLETE, and moves to a page that renders |
| Onboarding.CompletedAccountCanChangeRole | client/src/App.jsx:133-139 | a completed account can reopen role selection and change its role, which resets its profile to INCOMPLETE |
| Onboarding.TrimAll | client/src/pages/UserProfileForm.jsx:35 | each piece is trimmed and none is dropped |
| Onboarding.TrimAllConcat | client/src/pages/UserProfileForm.jsx:35 | trimming distributes over concatenation |
| Onboarding.ParseInterests | client/src/pages/UserProfileForm.jsx:35 | no interest is empty, untrimmed or contains a comma; every interest is a trimmed comma piece, and every non-blank piece is kept |
| Onboarding.InterestsOfOnePiece | client/src/pages/UserProfileForm.jsx:35 | a text without a comma gives its trim as the one interest, or none when it is blank |
| Onboarding.TrimmedPieceClean | client/src/pages/UserProfileForm.jsx:35 | a trimmed piece of a comma split is its own trim and has no comma |
| Onboarding.InterestsConcat | client/src/pages/UserProfileForm.jsx:35 | the two sides of a comma are parsed independently and in order |
| Onboarding.ProfilePayload | client/src/pages/UserProfileForm.jsx:10-37 | the body carries COMPLETE, the parsed interests, the phone, gender, college, course, year, resume URL and address as typed, and no role, name, bio, location, URLs, documents, e-mail, password or clubs |
| Onboarding.SubmitProfile | client/src/pages/UserProfileForm.jsx:38-47 | success stores the answer and goes to /; failure keeps the session and shows the error |
| Onboarding.CompletingBodyCompletes | server/src/controllers/auth.controller.js:68-96 | any update body that asks for COMPLETE, names no role and carries a valid gender, a non-empty name if any and a point the geo index accepts, if any, is accepted for a signed-in account, completes it, keeps its role and stores the given interests |
| Onboarding.ProfileUpdateCompletes | client/src/pages/UserProfileForm.jsx:33-38 | the form's body is accepted, completes the profile and leaves the role unchanged |
| Onboarding.ProfileFormCompletes | client/src/pages/UserProfileForm.jsx:38-43 | after a successful submission, / shows the Dashboard and no route redirects |
| Onboarding.InitialFormListed | client/src/pages/UserProfileForm.jsx:12 | the form's default gender is a listed value |
| Text.Trim | client/src/pages/Clubs.jsx:52 | the trimmed text neither starts nor ends with white space, and is empty exactly for an all-space text |
| Text.IsSpace | client/src/pages/Clubs.jsx:52 | the white space `String.prototype.trim` strips: the ECMAScript WhiteSpace and LineTerminator characters |
| Text.ToLower | client/src/pages/Clubs.jsx:52-54 | same length, each character mapped by ASCII lower-casing |
| Text.TrimKeepsChars | client/src/pages/UserProfileForm.jsx:35 | every character of the trimmed text occurs in the text |
| Text.TrimIdempotent | client/src/pages/UserProfileForm.jsx:35 | trimming twice equals trimming once |
| Text.LowerTrim | client/src/pages/Clubs.jsx:52 | trimming and lower-casing commute |
| Text.LowerTrimStart | client/src/pages/Clubs.jsx:52 | stripping leading space commutes with lower-casing |
| Text.LowerTrimEnd | client/src/pages/Clubs.jsx:52 | stripping trailing space commutes with lower-casing |
| Text.Contains | client/src/pages/Clubs.jsx:54 | true exactly when the query occurs at some position |
| Text.IndexOf | server/src/routes/upload.routes.js:16 | -1 exactly when the query does not occur; otherwise its first occurrence |
| Text.Split | client/src/pages/UserProfileForm.jsx:35 | at least one piece, none containing the separator |
| Text.JoinSplit | client/src/pages/UserProfileForm.jsx:35 | joining the pieces with the separator gives back the text |
| Text.SplitConcat | client/src/pages/UserProfileForm.jsx:35 | splitting around a separator is splitting each side |
| Seqs.FilterConcat | client/src/pages/Clubs.jsx:54 | filtering distributes over concatenation |
| Seqs.SortBy | server/src/controllers/comment.controller.js:19 | the result is sorted by the key and is a permutation of the input |
| Seqs.TopByKey | server/src/controllers/notification.controller.js:4 | the first k elements of a sorted permutation |
| Events.Find | server/src/controllers/event.controller.js:70 | the index of the first event with that id, or none exactly when there is none |
| Events.Numbers | server/src/models/Event.js:12 | the coordinates cast exactly when every element is a number |
| Events.LocationGiven | server/src/controllers/event.controller.js:44 | the handler's own check: a truthy location with truthy address, city, state and coordinates |
| Events.LocationOf | server/src/models/Event.js:10-16 | a cast location has type 'Point' (absent type defaults to it, any other fails), numeric coordinates, and the sent address, city and state as strings |
| Events.EventSchemaValid | server/src/models/Event.js:6-16 | the schema's required title, start time and castable location are present |
| Events.IndexAccepts | server/src/models/Event.js:25 | the geo index accepts a point of at least two coordinates whose first two are a valid longitude and latitude |
| Events.CreateEvent | server/src/controllers/event.controller.js:33-65 | in order: 404 unknown club, 403 non-owner, 400 incomplete location, 400 "Could not create event" when the schema or the geo index refuses; success exactly otherwise, appending one event under an id neither in use nor still referenced, created by the caller, holding the club, title, description, start, end, cast location, capacity and image sent, with a point the index accepts and volunteersNeeded defaulting to 0 |
| Events.CreateEventKeepsIdsDistinct | server/src/controllers/event.controller.js:48-59 | creating an event keeps ids distinct |
| Events.ModifyRight | server/src/controllers/event.controller.js:71-75 | the creator or the club's owner may change the event; the lookup fails only for a non-creator whose club is gone |
| Events.Authorize | server/src/controllers/event.controller.js:69-75 | 404 exactly for an unknown event, 403 exactly when the caller has no right, 500 when the club is missing, otherwise the event's index |
| Events.ApplyPatch | server/src/controllers/event.controller.js:77 | each of the ten patch fields (club, title, description, startAt, endAt, location, capacity, volunteersNeeded, imageUrl, createdBy) is written when given and kept when absent; the id is kept; an empty patch changes nothing |
| Events.UpdateEvent | server/src/controllers/event.controller.js:67-79 | fails exactly as authorization fails; otherwise the patched event replaces that one and every other event is unchanged |
| Events.DeleteEvent | server/src/controllers/event.controller.js:81-93 | fails exactly as authorization fails; otherwise exactly that event is removed |
| Events.DeleteRemovesEvent | server/src/controllers/event.controller.js:91 | after a deletion no event has that id, ids stay distinct, and one event fewer remains |
| Events.ModifyRightsAgree | server/src/controllers/event.controller.js:71-75 | update succeeds exactly for the creator or the club's owner, and exactly when delete does |
| Events.UpdateCanReassignCreator | server/src/controllers/event.controller.js:77 | without a whitelist an authorized update can hand the event to another creator |
| Events.ListEvents | server/src/controllers/event.controller.js:6-7 | only upcoming events, soonest first, the first 100 of them in that order |
| Events.FewEventsAllListed | server/src/controllers/event.controller.js:26-28 | with at most 100 upcoming events every one is listed |
| Events.BuildEventQuery | server/src/controllers/event.controller.js:9-24 | the geo filter is present exactly when lat, lng and radiusKm are all given; city and state exactly when given |
| Events.QuerySelectsUpcoming | server/src/controllers/event.controller.js:5-24 | every event a built query selects is upcoming, and without lat, lng and radiusKm all given and without city or state it selects exactly the upcoming ones |
| Events.UnfilteredQueryListsUpcoming | server/src/controllers/event.controller.js:5-28 | for a request without filters, the events the built query selects are exactly the upcoming events, in store order |
| Rsvps.StatusOr | server/src/controllers/rsvp.controller.js:8 | the status sent, or "going" when it is absent or empty |
| Rsvps.Upsert | server/src/controllers/rsvp.controller.js:3-15 | a refused write is 400 "Could not RSVP"; otherwise the key set gains at most the caller's pair, whose record gets the status and keeps its creation time, and every other record is unchanged |
| Rsvps.Cancel | server/src/controllers/rsvp.controller.js:22-26 | only an existing record of the caller for the event becomes cancelled; no record is created and no other changes |
| Rsvps.ListMine | server/src/controllers/rsvp.controller.js:17-20 | exactly the caller's records |
| Rsvps.UpsertKeepsWellKeyed | server/src/models/RSVP.js:12 | the upsert keeps each record under its own (user, event) key |
| Rsvps.CancelKeepsWellKeyed | server/src/models/RSVP.js:12 | cancelling keeps each record under its own key |
| Rsvps.OnePerPair | server/src/models/RSVP.js:12 | two records about the same user and event are the same record |
| Rsvps.RepeatedRsvpOverwrites | server/src/controllers/rsvp.controller.js:6-10 | a second RSVP creates no record, overwrites the status and keeps the creation time |
| Rsvps.CancelThenRsvpGoes | server/src/controllers/rsvp.controller.js:8 | a cancelled RSVP renewed without a status is going again |
| Rsvps.UpsertListed | server/src/controllers/rsvp.controller.js:17-20 | the new record shows in the caller's listing and no other user's listing changes |
| Volunteers.Ids | server/src/controllers/volunteer.controller.js:28 | exactly the document ids of the stored applications |
| Volunteers.Apply | server/src/controllers/volunteer.controller.js:4-16 | a refused write is 400; otherwise the caller's application for the event is pending, keeps its id, creation time and (when no role is sent) its role, and no other application changes |
| Volunteers.List | server/src/controllers/volunteer.controller.js:18-23 | exactly the applications for the event when one is given, every one otherwise, with no ownership filter |
| Volunteers.UpdateStatus | server/src/controllers/volunteer.controller.js:25-30 | an unknown id changes nothing and returns null; otherwise exactly that application gets the status sent, whoever asks |
| Volunteers.ApplyKeepsWellFormed | server/src/models/Volunteer.js:13 | applying keeps one application per pair under distinct ids |
| Volunteers.StatusUpdateKeepsWellFormed | server/src/models/Volunteer.js:13 | a status update keeps one application per pair under distinct ids |
| Volunteers.ReapplyResetsApproval | server/src/controllers/volunteer.controller.js:9 | applying again after an approval reuses the same record and resets it to pending |
| Volunteers.AppliedIsListed | server/src/controllers/volunteer.controller.js:19-22 | a new application shows in its event's listing and in the full listing |
| Comments.Create | server/src/controllers/comment.controller.js:4-14 | 400 "Empty comment" exactly for blank content; success exactly for a non-blank string of at most 500 characters with an event; any other failure 500; success appends one comment under a fresh id by the caller |
| Comments.Blank | server/src/controllers/comment.controller.js:7 | content that is falsy, or a string of white space only; a truthy non-string is not blank and makes the later `trim` throw |
| Comments.CreateKeepsIdsDistinct | server/src/controllers/comment.controller.js:8 | creating a comment keeps ids distinct |
| Comments.List | server/src/controllers/comment.controller.js:15-24 | a permutation of the event's comments (all comments without an event), oldest first |
| Comments.CreatedIsListed | server/src/controllers/comment.controller.js:17-20 | a new comment shows in its event's listing and in the full listing |
| Comments.Find | server/src/controllers/comment.controller.js:28 | the first comment with that id, or none exactly when there is none |
| Comments.Delete | server/src/controllers/comment.controller.js:25-37 | 404 "Not found" exactly for an unknown id; 403 "No permission" exactly when the caller is neither the author nor an admin; otherwise exactly that comment is removed |
| Comments.DeleteRemovesComment | server/src/controllers/comment.controller.js:32 | after a deletion no comment has that id, ids stay distinct and every other comment remains |
| Comments.DeleteRights | server/src/controllers/comment.controller.js:30-31 | an admin may delete any comment; anyone else only their own |
| Comments.MayDelete | server/src/controllers/comment.controller.js:30-31 | the author or an admin may delete a comment |
| Galleries.Add | server/src/controllers/gallery.controller.js:3-15 | a refused write is 400; otherwise the images are appended after the existing ones, the first uploader and creation time are kept, a new gallery is credited to the caller, and no other gallery changes |
| Galleries.AddKeepsWellKeyed | server/src/controllers/gallery.controller.js:6-10 | the upsert keeps one gallery per event |
| Galleries.UploadsAccumulate | server/src/controllers/gallery.controller.js:8 | two uploads to one event give one gallery holding both image lists in order, credited to the first uploader |
| Galleries.EmptyUploadKeepsImages | server/src/controllers/gallery.controller.js:8 | an upload without images leaves the gallery's images unchanged |
| Galleries.Selected | server/src/controllers/gallery.controller.js:18-19 | the event asked for, or every event |
| Galleries.Collect | server/src/controllers/gallery.controller.js:20 | one gallery per selected event, and nothing else |
| Galleries.GetGallery | server/src/controllers/gallery.controller.js:17-22 | exactly the selected galleries, newest first; at most one when an event is given |
| Galleries.UploadThenGet | server/src/controllers/gallery.controller.js:3-22 | after an upload, fetching the event's gallery gives one gallery ending with the uploaded images |
| Upload.MatchDataUrl | server/src/routes/upload.routes.js:16 | the two groups of the pattern, or nothing |
| Upload.MatchSound | server/src/routes/upload.routes.js:16 | a found match is a match, and its first group is the shortest possible (lazy) |
| Upload.MatchComplete | server/src/routes/upload.routes.js:16-17 | whenever the pattern can match, a match is found |
| Upload.MediaTypeRoundTrip | server/src/routes/upload.routes.js:16 | a media type without ";base64," is read back whole, with the payload after it |
| Upload.FirstMarkerNotInside | server/src/routes/upload.routes.js:16 | no occurrence of the marker starts inside a media type that does not contain it |
| Upload.NoCommaNoMarker | server/src/routes/upload.routes.js:16 | a text without a comma cannot contain the marker |
| Upload.MimeOf | server/src/routes/upload.routes.js:18 | an empty first group becomes application/octet-stream; any other is kept |
| Upload.Extension | server/src/routes/upload.routes.js:20 | .png, .jpg, .gif or .bin by the first of png, jpeg, jpg, gif the media type contains |
| Upload.UploadImage | server/src/routes/upload.routes.js:10-31 | 400 exactly for a missing, non-string or non-"data:" dataUrl; 400 "Invalid dataUrl" exactly when the pattern fails; 500 exactly when the write fails; otherwise the URL is /uploads/, the stem and the extension of the media type |
| Upload.ExtensionFollowsMediaType | server/src/routes/upload.routes.js:16-25 | a well-formed data URL is stored under the extension its media type calls for |

## Left out

- JWT signing and verification, and bcrypt hashing and comparison, are function parameters. Token expiry is not modelled.
- Real time, `Date.now()` and `Math.random()`: timestamps and the upload file name's stem are parameters.
- Base64 decoding and the file-system write of the upload route are left out. Only whether the write succeeded is modelled.
- MongoDB query semantics: the case-insensitive regex matching in `listClubs`, and the `$near` geo search, city and state filters in `listEvents`. Only the filter objects the handlers build are modelled. For the same reason `Events.ListEvents` models `listEvents` without its optional filters.
- ObjectId casting: ids are abstract naturals. A malformed id that makes a handler throw is folded into the `stored` flag where a catch turns it into an answer. `cancelRSVP` and `updateVolunteerStatus` have no catch, so their cast errors are not modelled.
- Mongoose casting of values of the wrong type is not modelled: a number where a string is expected, a non-array `images`, or non-string event location fields beyond the checks in `Events.LocationOf`.
- `populate` (user names, event details) is left out: it changes the shape of responses, not the records.
- The `password` field's `select: false` and the pre-save hook's re-hash on modification are left out. No modelled handler writes the password after `register`.
- Non-atomic approval (a club save followed by a user update), concurrent requests, and the client's polling timers are left out. Each handler is one sequential step.
- `Users.UpdateProfile`: the `location` written is a parsed (longitude, latitude) point, checked only against the geo index's ranges. A malformed GeoJSON object sent on update is not modelled. The geo check applies to the stored caller only, since an update that matches no document writes nothing the index could refuse.
- `Text.ToLower`: lower-cases ASCII letters only. JavaScript's `toLowerCase`, and Mongoose's `lowercase` option that calls it, map every Unicode letter, and a few of them to more than one character. Everything built on it inherits this, as the next four lines say.
- `Users.Register`: the stored e-mail and the uniqueness check compare addresses after ASCII lower-casing only, so two addresses that differ only in the case of a non-ASCII letter count as distinct here.
- `Users.FindByEmail`: matches addresses after ASCII lower-casing only.
- `Users.Login`: finds the account after ASCII lower-casing only.
- `ClubsPage.FilterClubs`: the search ignores the case of ASCII letters only.
- `Users.Register`: a body without an e-mail finds no existing account. What `findOne({ email: undefined })` matches depends on how Mongoose casts the undefined value (as null, or as no condition at all); the second would answer 400 "Email already in use" where the model answers 500.
- `Users.Login`: a body without an e-mail finds no account and answers 400. If Mongoose dropped the undefined condition, `findOne` would return some account and the password would be compared against its hash; that reading is not modelled.
- `Events.LocationOf`: coordinates are integers, while the schema stores JavaScript doubles. Fractional coordinates and their rounding are not modelled; the geo range check is exact on integers.
- `Events.UpdateEvent`: a patched location is written without the schema's casting or the geo index's check. The index would refuse an out-of-range point, and the handler, which has no catch, would leave the request unanswered.
- `Clubs.FilterSelects`: a raw `owner` value that is not an ObjectId makes `Club.find` throw, leaving the request unanswered; here `idOf` returns none and the filter selects no club.
- `Comments.Create`: the 500-character limit counts Dafny characters, while Mongoose counts UTF-16 code units. The two differ for characters outside the Basic Multilingual Plane.
- `Comments.List` and `Galleries.GetGallery`: documents with equal timestamps may come back in either order, and the store's read failure (500 "Failed to load comments") is not modelled.
- `Galleries.GetGallery` and `Volunteers.UpdateStatus` are methods, because they choose from a map nondeterministically.
- `Events.Authorize`: `updateEvent` and `deleteEvent` have no catch, so the error thrown for a missing club is answered by the framework, not the handler. The model answers 500 with a message of its own; Express 4 would leave the request unanswered.
- The views (Dashboard, Profile, Landing, EventPage, CommentSection, Gallery page, LoginRegister, CreateClubForm, AdminDashboard), AuthContext and local storage, server bootstrap, database connection, route wiring, and the `me` handler are not part of this model.

=== FILE: auth.dfy ===
/**
 Request authentication: the `Authorization: Bearer <token>` header, the
 `authRequired` and `adminOnly` middleware, and the token payload `login` and
 `register` sign. Signature checking is a parameter `verify` standing for
 `jwt.verify` with the server secret: it yields the payload or nothing.
 */
module Auth {
  import opened Common
  import opened Text
  import Users

  const BearerPrefix: string := "Bearer "

  /** The claims a token carries. */
  datatype TokenPayload = TokenPayload(userId: UserId, role: string, profileStatus: string)

  /** What `authRequired` attaches to the request: `req.userId` and `req.userRole`. */
  datatype Identity = Identity(userId: UserId, role: string)

  /** The claims `signToken` puts into a token for `u`. */
  function SignPayload(u: Users.User): (p: TokenPayload)
    ensures p.userId == u.id
    ensures Users.ParseRole(p.role) == Some(u.role)
    ensures Users.ParseStatus(p.profileStatus) == Some(u.profileStatus)
  {
    TokenPayload(u.id, Users.RoleName(u.role), Users.StatusName(u.profileStatus))
  }

  /**
   The token of an `Authorization` header (a missing header reads as ""): the
   text after the seven characters "Bearer ", when the header starts with them.
   */
  function BearerToken(header: Option<string>): (r: Option<string>)
    ensures r.Some? <==> header.Some? && StartsWith(header.value, BearerPrefix)
    ensures r.Some? ==> header.value == BearerPrefix + r.value
  {
    var h := if header.Some? then header.value else "";
    if StartsWith(h, BearerPrefix) then
      assert h == h[..7] + h[7..];
      Some(h[7..])
    else None
  }

  /** Any token sent as "Bearer <token>" is read back exactly. */
  lemma BearerRoundTrip(token: string)
    ensures BearerToken(Some(BearerPrefix + token)) == Some(token)
  {
    var h := BearerPrefix + token;
    assert h[..7] == BearerPrefix;
    assert h[7..] == token;
  }

  /**
   `authRequired`: 401 "Unauthorized" without a non-empty bearer token, 401
   "Invalid token" when verification fails, otherwise the payload's user and
   role.
   */
  function AuthRequired(header: Option<string>, verify: string -> Option<TokenPayload>): (r: Result<Identity>)
    ensures BearerToken(header).None? || BearerToken(header) == Some("")
      <==> r == Fail(Unauthorized, "Unauthorized")
    ensures r == Fail(Unauthorized, "Invalid token")
      <==> Given(BearerToken(header)) && verify(BearerToken(header).value).None?
    ensures r.Ok? <==> Given(BearerToken(header)) && verify(BearerToken(header).value).Some?
    ensures r.Ok? ==>
      var p := verify(BearerToken(header).value).value;
      r.value.userId == p.userId && r.value.role == p.role
  {
    var token := BearerToken(header);
    if !Given(token) then Fail(Unauthorized, "Unauthorized")
    else
      match verify(token.value)
      case None => Fail(Unauthorized, "Invalid token")
      case Some(p) => Ok(Identity(p.userId, p.role))
  }

  /** A token signed for `u` and presented as a bearer header authenticates `u` with `u`'s role. */
  lemma SignedTokenAuthenticates(u: Users.User, token: string, verify: string -> Option<TokenPayload>)
    requires token != ""
    requires verify(token) == Some(SignPayload(u))
    ensures AuthRequired(Some(BearerPrefix + token), verify) == Ok(Identity(u.id, Users.RoleName(u.role)))
  {
    BearerRoundTrip(token);
  }

  /** `adminOnly`: 403 unless the token's role is exactly 'admin'. */
  function AdminOnly(role: string): (r: Result<()>)
    ensures r.Ok? <==> role == "admin"
    ensures r.Err? ==> r == Fail(Forbidden, "Forbidden")
  {
    if role != "admin" then Fail(Forbidden, "Forbidden") else Ok(())
  }

  /** A token signed for an account passes `adminOnly` exactly when the account's role is admin. */
  lemma SignedRoleGate(u: Users.User)
    ensures AdminOnly(SignPayload(u).role).Ok? <==> u.role == Users.AdminRole
  {
  }
}

=== FILE: clubs.dfy ===
/**
 The club membership workflow: the Club record with its embedded join
 requests, and the handlers `createClub`, `joinClub`, `approveJoinRequest`,
 `listMembers`, `listJoinRequests`, `myJoinRequests` and the filter `listClubs`
 builds. Every handler is one sequential step over a `World` (the user and
 club collections and the notification log).
 */
module Clubs {
  import opened Common
  import opened Text
  import opened Seqs
  import Users
  import N = Notifications
  import Auth

  datatype JoinStatus = Pending | Approved | Rejected

  function JoinStatusName(s: JoinStatus): string
  {
    match s
    case Pending => "pending"
    case Approved => "approved"
    case Rejected => "rejected"
  }

  datatype JoinRequest = JoinRequest(id: RequestId, user: UserId, status: JoinStatus, requestedAt: int)

  datatype Club = Club(
    id: ClubId,
    name: string,
    description: Option<string>,
    collegeName: string,
    address: string,
    owner: UserId,
    logoUrl: Option<string>,
    /** References to the member accounts, in the order they were added. */
    members: seq<UserId>,
    joinRequests: seq<JoinRequest>)

  type ClubStore = map<ClubId, Club>

  datatype World = World(users: Users.UserStore, clubs: ClubStore, notifications: N.Log)

  /** The caller has a pending request in the list (the duplicate check of `joinClub`). */
  predicate HasPending(reqs: seq<JoinRequest>, u: UserId)
  {
    exists i :: 0 <= i < |reqs| && reqs[i].user == u && reqs[i].status == Pending
  }

  function RequestIds(reqs: seq<JoinRequest>): set<RequestId>
  {
    set q | q in reqs :: q.id
  }

  /** Every user id the club collection carries as a member. */
  function MemberIds(clubs: ClubStore): (r: set<UserId>)
    ensures forall id, u :: id in clubs && u in clubs[id].members ==> u in r
    ensures forall u :: u in r ==> exists id :: id in clubs && u in clubs[id].members
  {
    set id, u | id in clubs && u in clubs[id].members :: u
  }

  // ---------------------------------------------------------------- createClub

  /** The fields of `POST /clubs` the handler reads. */
  datatype ClubInput = ClubInput(
    name: Option<string>,
    description: Option<string>,
    collegeName: Option<string>,
    address: Option<string>,
    logoUrl: Option<string>)

  /** The unique index on `name`. */
  predicate NameTaken(clubs: ClubStore, name: string)
  {
    exists id :: id in clubs && clubs[id].name == name
  }

  /** The schema's `required` fields are present (an empty string fails `required`). */
  predicate ClubInputValid(input: ClubInput)
  {
    Given(input.name) && Given(input.collegeName) && Given(input.address)
  }

  /** The `$addToSet`/`$set` applied to the creator: admin, profile complete, club joined. */
  function Promote(u: Users.User, clubId: ClubId): (r: Users.User)
    ensures r.role == Users.AdminRole && r.profileStatus == Users.Complete
    ensures r.joinedClubs == u.joinedClubs + {clubId}
    ensures r.(joinedClubs := u.joinedClubs, role := u.role, profileStatus := u.profileStatus) == u
  {
    u.(joinedClubs := u.joinedClubs + {clubId}, role := Users.AdminRole, profileStatus := Users.Complete)
  }

  /**
   `createClub`: any validation or unique-name failure is a 400 with nothing
   written; otherwise the caller owns a new club whose only member is the
   caller, and the caller's account (when it exists) becomes admin with a
   complete profile and the club among its joined clubs.
   */
  function CreateClub(w: World, caller: UserId, input: ClubInput): (r: Result<(World, ClubId)>)
    ensures r.Err? <==> !ClubInputValid(input) || NameTaken(w.clubs, input.name.value)
    ensures r.Err? ==> r == Fail(BadRequest, "Could not create club")
    ensures r.Ok? ==>
      var (w', id) := r.value;
      && id !in w.clubs
      && w'.clubs.Keys == w.clubs.Keys + {id}
      && (forall other :: other in w.clubs ==> w'.clubs[other] == w.clubs[other])
      && w'.clubs[id].id == id
      && w'.clubs[id].owner == caller
      && w'.clubs[id].members == [caller]
      && w'.clubs[id].joinRequests == []
      && w'.clubs[id].name == input.name.value
      && w'.clubs[id].description == input.description
      && w'.clubs[id].collegeName == input.collegeName.value
      && w'.clubs[id].address == input.address.value
      && w'.clubs[id].logoUrl == input.logoUrl
      && w'.notifications == w.notifications
      && w'.users.Keys == w.users.Keys
      && (forall u :: u in w.users && u != caller ==> w'.users[u] == w.users[u])
      && (caller in w.users ==> w'.users[caller] == Promote(w.users[caller], id))
  {
    if !ClubInputValid(input) || NameTaken(w.clubs, input.name.value) then
      Fail(BadRequest, "Could not create club")
    else
      var id := FreshId(w.clubs.Keys);
      var club := Club(id, input.name.value, input.description, input.collegeName.value,
                       input.address.value, caller, input.logoUrl, [caller], []);
      var users' := if caller in w.users then w.users[caller := Promote(w.users[caller], id)] else w.users;
      Ok((w.(clubs := w.clubs[id := club], users := users'), id))
  }

  // ---------------------------------------------------------------- joinClub

  const JoinRequestMessage := "New join request received"

  /**
   `joinClub`: 404 for an unknown club; 400 when the caller already has a
   pending request (checked first) or is already a member; otherwise one
   pending request for the caller is appended and the owner is notified on a
   best-effort basis.
   */
  function JoinClub(w: World, caller: UserId, clubId: ClubId, now: int, delivered: bool): (r: Result<World>)
    ensures clubId !in w.clubs <==> r == Fail(NotFound, "Club not found")
    ensures clubId in w.clubs && HasPending(w.clubs[clubId].joinRequests, caller)
      ==> r == Fail(BadRequest, "Request already pending")
    ensures (clubId in w.clubs && !HasPending(w.clubs[clubId].joinRequests, caller)
             && caller in w.clubs[clubId].members) ==> r == Fail(BadRequest, "Already a member")
    ensures r.Ok? <==> (clubId in w.clubs && !HasPending(w.clubs[clubId].joinRequests, caller)
                        && caller !in w.clubs[clubId].members)
    ensures r.Ok? ==> r.value.clubs.Keys == w.clubs.Keys
    ensures r.Ok? ==>
      var c, c' := w.clubs[clubId], r.value.clubs[clubId];
      && r.value.users == w.users
      && r.value.clubs == w.clubs[clubId := c']
      && c' == c.(joinRequests := c'.joinRequests)
      && |c'.joinRequests| == |c.joinRequests| + 1
      && c'.joinRequests[..|c.joinRequests|] == c.joinRequests
      && c'.joinRequests[|c.joinRequests|].user == caller
      && c'.joinRequests[|c.joinRequests|].status == Pending
      && c'.joinRequests[|c.joinRequests|].requestedAt == now
      && c'.joinRequests[|c.joinRequests|].id !in RequestIds(c.joinRequests)
    ensures r.Ok? ==>
      r.value.notifications == N.Post(w.notifications, w.clubs[clubId].owner, N.JoinRequestNote,
                                      JoinRequestMessage, N.Meta(clubId, Some(caller)), now, delivered)
  {
    if clubId !in w.clubs then Fail(NotFound, "Club not found")
    else
      var c := w.clubs[clubId];
      if HasPending(c.joinRequests, caller) then Fail(BadRequest, "Request already pending")
      else if caller in c.members then Fail(BadRequest, "Already a member")
      else
        var q := JoinRequest(FreshId(RequestIds(c.joinRequests)), caller, Pending, now);
        var c' := c.(joinRequests := c.joinRequests + [q]);
        var log := N.Post(w.notifications, c.owner, N.JoinRequestNote, JoinRequestMessage,
                          N.Meta(clubId, Some(caller)), now, delivered);
        assert (c.joinRequests + [q])[..|c.joinRequests|] == c.joinRequests;
        Ok(World(w.users, w.clubs[clubId := c'], log))
  }

  /** Whether the owner notification is written never changes the membership outcome. */
  lemma JoinOutcomeIgnoresNotification(w: World, caller: UserId, clubId: ClubId, now: int)
    ensures JoinClub(w, caller, clubId, now, true).Ok? == JoinClub(w, caller, clubId, now, false).Ok?
    ensures JoinClub(w, caller, clubId, now, true).Err? ==>
      JoinClub(w, caller, clubId, now, true) == JoinClub(w, caller, clubId, now, false)
    ensures JoinClub(w, caller, clubId, now, true).Ok? ==>
      var a, b := JoinClub(w, caller, clubId, now, true).value, JoinClub(w, caller, clubId, now, false).value;
      a.users == b.users && a.clubs == b.clubs && b.notifications == w.notifications
      && |a.notifications| == |w.notifications| + 1
  {
  }

  // ---------------------------------------------------------------- approveJoinRequest

  /** `club.joinRequests.id(reqId)`: the first embedded request with that id. */
  function FindRequest(reqs: seq<JoinRequest>, reqId: RequestId): (r: Option<nat>)
    ensures r.None? <==> forall i :: 0 <= i < |reqs| ==> reqs[i].id != reqId
    ensures r.Some? ==> r.value < |reqs| && reqs[r.value].id == reqId
    ensures r.Some? ==> forall i :: 0 <= i < r.value ==> reqs[i].id != reqId
  {
    if reqs == [] then None
    else if reqs[0].id == reqId then Some(0)
    else
      var t := FindRequest(reqs[1..], reqId);
      if t.None? then None else Some(t.value + 1)
  }

  function ApprovalMessage(clubName: string): string
  {
    "Your request to join " + clubName + " was approved"
  }

  /** The request `reqId` of the club is found and still pending. */
  predicate Approvable(c: Club, reqId: RequestId)
  {
    var k := FindRequest(c.joinRequests, reqId);
    k.Some? && c.joinRequests[k.value].status == Pending
  }

  /** The joined-clubs back-reference `$addToSet` performs for an approved user. */
  function AddJoined(users: Users.UserStore, u: UserId, clubId: ClubId): Users.UserStore
  {
    if u in users then users[u := users[u].(joinedClubs := users[u].joinedClubs + {clubId})] else users
  }

  /**
   `approveJoinRequest`: 404 for an unknown club, 403 for anyone but the
   owner, 404 when the request is unknown or no longer pending. Otherwise the
   request becomes approved, its user is appended to the members and gains
   the club among its joined clubs. The requested `decision` (the body's
   `status`) is never read.
   */
  function Approve(w: World, caller: UserId, clubId: ClubId, reqId: RequestId, decision: Option<string>,
                   now: int, delivered: bool): (r: Result<World>)
    ensures clubId !in w.clubs <==> r == Fail(NotFound, "Club not found")
    ensures clubId in w.clubs && w.clubs[clubId].owner != caller
      <==> r == Fail(Forbidden, "Only the club admin can approve joins")
    ensures clubId in w.clubs && w.clubs[clubId].owner == caller && !Approvable(w.clubs[clubId], reqId)
      ==> r == Fail(NotFound, "Join request not found")
    ensures r.Ok? <==> clubId in w.clubs && w.clubs[clubId].owner == caller && Approvable(w.clubs[clubId], reqId)
    ensures r.Ok? ==>
      var c := w.clubs[clubId];
      var k := FindRequest(c.joinRequests, reqId).value;
      && c.joinRequests[k].id == reqId
      && c.joinRequests[k].status == Pending
      && r.value.clubs == w.clubs[clubId := c.(
             joinRequests := c.joinRequests[k := c.joinRequests[k].(status := Approved)],
             members := c.members + [c.joinRequests[k].user])]
      && r.value.users == AddJoined(w.users, c.joinRequests[k].user, clubId)
      && r.value.notifications == N.Post(w.notifications, c.joinRequests[k].user, N.JoinApprovedNote,
                                         ApprovalMessage(c.name), N.Meta(clubId, None), now, delivered)
  {
    if clubId !in w.clubs then Fail(NotFound, "Club not found")
    else
      var c := w.clubs[clubId];
      if c.owner != caller then Fail(Forbidden, "Only the club admin can approve joins")
      else if !Approvable(c, reqId) then Fail(NotFound, "Join request not found")
      else
        var k := FindRequest(c.joinRequests, reqId).value;
        var q := c.joinRequests[k];
        var c' := c.(joinRequests := c.joinRequests[k := q.(status := Approved)], members := c.members + [q.user]);
        var log := N.Post(w.notifications, q.user, N.JoinApprovedNote, ApprovalMessage(c.name),
                          N.Meta(clubId, None), now, delivered);
        Ok(World(AddJoined(w.users, q.user, clubId), w.clubs[clubId := c'], log))
  }

  /** The body's `status` plays no part: "rejected" approves exactly like "approved". */
  lemma ApproveIgnoresDecision(w: World, caller: UserId, clubId: ClubId, reqId: RequestId,
                               d1: Option<string>, d2: Option<string>, now: int, delivered: bool)
    ensures Approve(w, caller, clubId, reqId, d1, now, delivered) == Approve(w, caller, clubId, reqId, d2, now, delivered)
  {
  }

  /** A second approval of the same request id fails with 404 and so changes nothing. */
  lemma {:induction false} SecondApprovalFails(w: World, caller: UserId, clubId: ClubId, reqId: RequestId,
                                               d1: Option<string>, d2: Option<string>, now: int, later: int,
                                               delivered: bool, delivered2: bool)
    requires Approve(w, caller, clubId, reqId, d1, now, delivered).Ok?
    ensures Approve(Approve(w, caller, clubId, reqId, d1, now, delivered).value, caller, clubId, reqId, d2, later, delivered2)
      == Fail(NotFound, "Join request not found")
  {
    var c := w.clubs[clubId];
    var k := FindRequest(c.joinRequests, reqId).value;
    var w' := Approve(w, caller, clubId, reqId, d1, now, delivered).value;
    var reqs' := c.joinRequests[k := c.joinRequests[k].(status := Approved)];
    assert w'.clubs[clubId].joinRequests == reqs';
    assert w'.clubs[clubId].owner == caller;
    FindRequestSameIds(c.joinRequests, reqs', reqId);
  }

  /** The lookup by id only depends on the ids of the requests. */
  lemma {:induction false} FindRequestSameIds(a: seq<JoinRequest>, b: seq<JoinRequest>, reqId: RequestId)
    requires |a| == |b|
    requires forall i :: 0 <= i < |a| ==> a[i].id == b[i].id
    ensures FindRequest(a, reqId) == FindRequest(b, reqId)
    decreases |a|
  {
    if a != [] {
      FindRequestSameIds(a[1..], b[1..], reqId);
    }
  }

  // ---------------------------------------------------------------- owner-only listings

  /** `listMembers`: the member list, for the owner only. */
  function ListMembers(w: World, caller: UserId, clubId: ClubId): (r: Result<seq<UserId>>)
    ensures clubId !in w.clubs <==> r == Fail(NotFound, "Club not found")
    ensures clubId in w.clubs && w.clubs[clubId].owner != caller <==> r == Fail(Forbidden, "Only admin can view members")
    ensures r.Ok? <==> clubId in w.clubs && w.clubs[clubId].owner == caller
    ensures r.Ok? ==> r.value == w.clubs[clubId].members
  {
    if clubId !in w.clubs then Fail(NotFound, "Club not found")
    else if w.clubs[clubId].owner != caller then Fail(Forbidden, "Only admin can view members")
    else Ok(w.clubs[clubId].members)
  }

  /** Once the owner approves a request, its user appears in the owner's member listing. */
  lemma ApproveThenListedAsMember(w: World, owner: UserId, clubId: ClubId, reqId: RequestId,
                                  d: Option<string>, now: int, delivered: bool)
    requires Approve(w, owner, clubId, reqId, d, now, delivered).Ok?
    ensures var c := w.clubs[clubId];
            var w' := Approve(w, owner, clubId, reqId, d, now, delivered).value;
            && ListMembers(w', owner, clubId).Ok?
            && ListMembers(w', owner, clubId).value == c.members + [c.joinRequests[FindRequest(c.joinRequests, reqId).value].user]
  {
  }

  /** `listJoinRequests`: every embedded request, whatever its status, for the owner only. */
  function ListJoinRequests(w: World, caller: UserId, clubId: ClubId): (r: Result<seq<JoinRequest>>)
    ensures clubId !in w.clubs <==> r == Fail(NotFound, "Club not found")
    ensures clubId in w.clubs && w.clubs[clubId].owner != caller <==> r == Fail(Forbidden, "Only admin can view requests")
    ensures r.Ok? <==> clubId in w.clubs && w.clubs[clubId].owner == caller
    ensures r.Ok? ==> r.value == w.clubs[clubId].joinRequests
  {
    if clubId !in w.clubs then Fail(NotFound, "Club not found")
    else if w.clubs[clubId].owner != caller then Fail(Forbidden, "Only admin can view requests")
    else Ok(w.clubs[clubId].joinRequests)
  }

  // ---------------------------------------------------------------- myJoinRequests

  datatype RequestView = RequestView(clubId: ClubId, clubName: string, status: JoinStatus,
                                     requestedAt: int, requestId: RequestId)

  function ViewOf(c: Club, q: JoinRequest): RequestView
  {
    RequestView(c.id, c.name, q.status, q.requestedAt, q.id)
  }

  function ViewsIn(c: Club, reqs: seq<JoinRequest>, caller: UserId): (r: seq<RequestView>)
    ensures forall v :: v in r <==> exists q :: q in reqs && q.user == caller && v == ViewOf(c, q)
  {
    if reqs == [] then []
    else
      var rest := ViewsIn(c, reqs[1..], caller);
      assert forall q :: q in reqs <==> q == reqs[0] || q in reqs[1..];
      if reqs[0].user == caller then [ViewOf(c, reqs[0])] + rest else rest
  }

  /** The views of the caller's requests over a sequence of clubs, club by club. */
  function CollectViews(found: seq<Club>, caller: UserId): (r: seq<RequestView>)
    ensures forall v :: v in r <==>
      exists c, q :: c in found && q in c.joinRequests && q.user == caller && v == ViewOf(c, q)
  {
    if found == [] then []
    else
      var rest := CollectViews(found[1..], caller);
      assert forall c :: c in found <==> c == found[0] || c in found[1..];
      ViewsIn(found[0], found[0].joinRequests, caller) + rest
  }

  /** The club holds a request of the caller, of any status (the query `{'joinRequests.user': caller}`). */
  predicate HasRequestBy(c: Club, caller: UserId)
  {
    exists q :: q in c.joinRequests && q.user == caller
  }

  /**
   The clubs `Club.find({'joinRequests.user': caller})` returns: the stored
   clubs holding a request of the caller, in the collection's order `order`.
   */
  function QueryByRequester(clubs: ClubStore, order: seq<ClubId>, caller: UserId): (r: seq<Club>)
    ensures forall id :: id in order && id in clubs && HasRequestBy(clubs[id], caller) ==> clubs[id] in r
    ensures forall c :: c in r ==> HasRequestBy(c, caller) && exists id :: id in clubs && clubs[id] == c
  {
    if order == [] then []
    else
      var rest := QueryByRequester(clubs, order[1..], caller);
      assert forall id :: id in order <==> id == order[0] || id in order[1..];
      var id := order[0];
      if id in clubs && HasRequestBy(clubs[id], caller) then [clubs[id]] + rest else rest
  }

  /**
   `myJoinRequests`: over the clubs the query returns, every embedded request
   of the caller, whatever its status, with its club. `order` is the order in
   which the collection returns its documents; it lists every stored club.
   */
  function MyJoinRequests(clubs: ClubStore, order: seq<ClubId>, caller: UserId): (r: seq<RequestView>)
    requires forall id :: id in clubs ==> id in order
    ensures forall v :: v in r <==>
      exists id, q :: id in clubs && q in clubs[id].joinRequests && q.user == caller && v == ViewOf(clubs[id], q)
  {
    var found := QueryByRequester(clubs, order, caller);
    var r := CollectViews(found, caller);
    forall v
      ensures v in r <==>
        exists id, q :: id in clubs && q in clubs[id].joinRequests && q.user == caller && v == ViewOf(clubs[id], q)
    {
      if v in r {
        var c, q :| c in found && q in c.joinRequests && q.user == caller && v == ViewOf(c, q);
        var id :| id in clubs && clubs[id] == c;
        assert q in clubs[id].joinRequests;
      }
      if exists id, q :: id in clubs && q in clubs[id].joinRequests && q.user == caller && v == ViewOf(clubs[id], q) {
        var id, q :| id in clubs && q in clubs[id].joinRequests && q.user == caller && v == ViewOf(clubs[id], q);
        assert HasRequestBy(clubs[id], caller);
        assert clubs[id] in found;
      }
    }
    r
  }

  /** After a successful join, the caller's pending request is among the club's requests the owner lists. */
  lemma JoinThenListedForOwner(w: World, caller: UserId, clubId: ClubId, now: int, delivered: bool)
    requires JoinClub(w, caller, clubId, now, delivered).Ok?
    ensures var w', owner := JoinClub(w, caller, clubId, now, delivered).value, w.clubs[clubId].owner;
      var listed := ListJoinRequests(w', owner, clubId);
      && listed.Ok?
      && listed.value[..|w.clubs[clubId].joinRequests|] == w.clubs[clubId].joinRequests
      && exists q :: q in listed.value && q.user == caller && q.status == Pending
  {
    var w' := JoinClub(w, caller, clubId, now, delivered).value;
    var n := |w.clubs[clubId].joinRequests|;
    assert w'.clubs[clubId].joinRequests[n] in w'.clubs[clubId].joinRequests;
  }

  /** After a successful join, the caller's request shows up among the caller's own requests. */
  lemma JoinThenListedForCaller(w: World, caller: UserId, clubId: ClubId, now: int, delivered: bool,
                                order: seq<ClubId>)
    requires JoinClub(w, caller, clubId, now, delivered).Ok?
    requires forall id :: id in w.clubs ==> id in order
    ensures var w' := JoinClub(w, caller, clubId, now, delivered).value;
      exists v :: v in MyJoinRequests(w'.clubs, order, caller) && v.clubId == w.clubs[clubId].id
        && v.status == Pending
  {
    var w' := JoinClub(w, caller, clubId, now, delivered).value;
    var c' := w'.clubs[clubId];
    var q := c'.joinRequests[|w.clubs[clubId].joinRequests|];
    assert q in c'.joinRequests;
    assert ViewOf(c', q) in MyJoinRequests(w'.clubs, order, caller);
  }

  /** The creator's account, signed into a new token after `createClub`, passes `adminOnly`. */
  lemma CreatorPassesAdminOnly(w: World, caller: UserId, input: ClubInput)
    requires CreateClub(w, caller, input).Ok? && caller in w.users
    ensures Auth.AdminOnly(Auth.SignPayload(CreateClub(w, caller, input).value.0.users[caller]).role).Ok?
  {
    Auth.SignedRoleGate(CreateClub(w, caller, input).value.0.users[caller]);
  }

  // ---------------------------------------------------------------- listClubs

  datatype OwnerFilter = OwnerIsCaller(id: UserId) | OwnerIsGiven(raw: string)

  /** The MongoDB filter `listClubs` builds. Text and city are matched as case-insensitive patterns. */
  datatype ClubFilter = ClubFilter(
    text: Option<string>,
    city: Option<string>,
    owner: Option<OwnerFilter>,
    member: Option<UserId>)

  /** The caller of a public route, when a valid bearer token is sent; failures are ignored. */
  function OptionalCaller(header: Option<string>, verify: string -> Option<Auth.TokenPayload>): (r: Option<UserId>)
    ensures r.Some? <==> Auth.AuthRequired(header, verify).Ok?
    ensures r.Some? ==> r.value == Auth.AuthRequired(header, verify).value.userId
  {
    match Auth.AuthRequired(header, verify)
    case Ok(identity) => Some(identity.userId)
    case Err(_) => None
  }

  /** The pattern of a query value: present when the value is given and not blank after trimming. */
  function PatternOf(v: Option<string>): (p: Option<string>)
    ensures p.Some? <==> v.Some? && Trim(v.value) != ""
    ensures p.Some? ==> p.value == Trim(v.value)
  {
    if v.Some? && Trim(v.value) != "" then Some(Trim(v.value)) else None
  }

  /**
   The filter of `GET /clubs?q&city&owner&joined`: a non-blank trimmed `q` and
   `city` become patterns; `owner=me` with a valid token filters on the
   caller, any other non-empty `owner` on the given value; `joined=me` with a
   valid token filters on membership. `compiles` says whether `new RegExp(p, 'i')`
   accepts a pattern; when it throws (for "(" or "c++", say) the handler,
   which has no catch, fails and no filter is built.
   */
  function ListClubsFilter(q: Option<string>, city: Option<string>, owner: Option<string>, joined: Option<string>,
                           header: Option<string>, verify: string -> Option<Auth.TokenPayload>,
                           compiles: string -> bool): (r: Result<ClubFilter>)
    ensures r.Err? <==> (PatternOf(q).Some? && !compiles(PatternOf(q).value))
                        || (PatternOf(city).Some? && !compiles(PatternOf(city).value))
    ensures r.Err? ==> r == Fail(ServerError, "Invalid search pattern")
    ensures r.Ok? ==>
      var f := r.value;
      && (f.text.Some? <==> q.Some? && Trim(q.value) != "")
      && (f.text.Some? ==> f.text.value == Trim(q.value) && compiles(f.text.value))
      && (f.city.Some? <==> city.Some? && Trim(city.value) != "")
      && (f.city.Some? ==> f.city.value == Trim(city.value) && compiles(f.city.value))
      && (owner == Some("me") && OptionalCaller(header, verify).Some? ==>
            f.owner == Some(OwnerIsCaller(OptionalCaller(header, verify).value)))
      && (owner == Some("me") && OptionalCaller(header, verify).None? ==> f.owner == Some(OwnerIsGiven("me")))
      && (owner != Some("me") ==> (f.owner.Some? <==> Given(owner)))
      && (owner != Some("me") && Given(owner) ==> f.owner == Some(OwnerIsGiven(owner.value)))
      && (f.member.Some? <==> joined == Some("me") && OptionalCaller(header, verify).Some?)
      && (f.member.Some? ==> f.member == OptionalCaller(header, verify))
  {
    var text, place := PatternOf(q), PatternOf(city);
    if (text.Some? && !compiles(text.value)) || (place.Some? && !compiles(place.value)) then
      Fail(ServerError, "Invalid search pattern")
    else
      var caller := OptionalCaller(header, verify);
      Ok(ClubFilter(
        text := text,
        city := place,
        owner := if owner == Some("me") && caller.Some? then Some(OwnerIsCaller(caller.value))
                 else if Given(owner) then Some(OwnerIsGiven(owner.value))
                 else None,
        member := if joined == Some("me") && caller.Some? then caller else None))
  }

  /**
   Which clubs `Club.find` returns for a filter. `matches(p, s)` stands for
   MongoDB's case-insensitive regular-expression match of pattern `p` in `s`,
   and `idOf` for the cast of a raw owner value to an ObjectId.
   */
  predicate FilterSelects(f: ClubFilter, c: Club, matches: (string, string) -> bool,
                          idOf: string -> Option<UserId>)
  {
    && (f.text.Some? ==>
          || matches(f.text.value, c.name)
          || (c.description.Some? && matches(f.text.value, c.description.value))
          || matches(f.text.value, c.collegeName)
          || matches(f.text.value, c.address))
    && (f.city.Some? ==> matches(f.city.value, c.address))
    && (f.owner.Some? ==>
          match f.owner.value
          case OwnerIsCaller(id) => c.owner == id
          case OwnerIsGiven(raw) => idOf(raw) == Some(c.owner))
    && (f.member.Some? ==> f.member.value in c.members)
  }

  /** A listing without query parameters returns every club. */
  lemma NoQueryListsAll(header: Option<string>, verify: string -> Option<Auth.TokenPayload>,
                        compiles: string -> bool, matches: (string, string) -> bool,
                        idOf: string -> Option<UserId>, c: Club)
    ensures var r := ListClubsFilter(None, None, None, None, header, verify, compiles);
      r.Ok? && FilterSelects(r.value, c, matches, idOf)
  {
  }

  /** `joined=me` with a valid token lists exactly the clubs the caller is a member of. */
  lemma JoinedMeListsMemberClubs(header: Option<string>, verify: string -> Option<Auth.TokenPayload>,
                                 compiles: string -> bool, matches: (string, string) -> bool,
                                 idOf: string -> Option<UserId>, c: Club)
    requires OptionalCaller(header, verify).Some?
    ensures var r := ListClubsFilter(None, None, None, Some("me"), header, verify, compiles);
      r.Ok? && (FilterSelects(r.value, c, matches, idOf) <==> OptionalCaller(header, verify).value in c.members)
  {
  }

  /**
   A search text that compiles lists exactly the clubs whose name,
   description, college name or address match its trim.
   */
  lemma TextListsMatchingClubs(q: string, header: Option<string>, verify: string -> Option<Auth.TokenPayload>,
                               compiles: string -> bool, matches: (string, string) -> bool,
                               idOf: string -> Option<UserId>, c: Club)
    requires Trim(q) != "" && compiles(Trim(q))
    ensures var r := ListClubsFilter(Some(q), None, None, None, header, verify, compiles);
      var p := Trim(q);
      r.Ok? && (FilterSelects(r.value, c, matches, idOf) <==>
        matches(p, c.name) || (c.description.Some? && matches(p, c.description.value))
        || matches(p, c.collegeName) || matches(p, c.address))
  {
  }
}

=== FILE: clubspage.dfy ===
/**
 The Clubs page: the per-club status it derives from the club list, the
 search box filter, the control it shows on each card, and what those
 controls do against the server.
 */
module ClubsPage {
  import opened Common
  import opened Text
  import opened Seqs
  import opened Clubs
  import Membership

  /** What the page remembers per club: `{ isMember, isRequest, joinReqId }`. */
  datatype ClubStatus = ClubStatus(isMember: bool, isRequest: bool, joinReqId: Option<RequestId>)

  /** The position of the first pending request of `u`: the scan stops at the first hit. */
  function FirstPendingAt(reqs: seq<JoinRequest>, u: UserId): (k: Option<nat>)
    ensures k.None? <==> forall i :: 0 <= i < |reqs| ==> !(reqs[i].user == u && reqs[i].status == Pending)
    ensures k.Some? ==> k.value < |reqs| && reqs[k.value].user == u && reqs[k.value].status == Pending
    ensures k.Some? ==> forall j :: 0 <= j < k.value ==> !(reqs[j].user == u && reqs[j].status == Pending)
  {
    if reqs == [] then None
    else if reqs[0].user == u && reqs[0].status == Pending then Some(0)
    else
      var t := FirstPendingAt(reqs[1..], u);
      if t.None? then None else Some(t.value + 1)
  }

  /** The id of the first pending request of `u`, scanning in order and stopping at the first hit. */
  function FirstPending(reqs: seq<JoinRequest>, u: UserId): (r: Option<RequestId>)
    ensures r.Some? <==> HasPending(reqs, u)
    ensures r.Some? ==> exists i :: (0 <= i < |reqs| && reqs[i].user == u && reqs[i].status == Pending
      && reqs[i].id == r.value
      && forall j :: 0 <= j < i ==> !(reqs[j].user == u && reqs[j].status == Pending))
  {
    var k := FirstPendingAt(reqs, u);
    if k.None? then None else Some(reqs[k.value].id)
  }

  /** The status the page derives for club `c` and the signed-in user `u`. */
  function DeriveStatus(c: Club, u: UserId): (s: ClubStatus)
    ensures s.isMember <==> u in c.members
    ensures s.isRequest <==> HasPending(c.joinRequests, u)
    ensures s.isRequest <==> s.joinReqId.Some?
  {
    var pending := FirstPending(c.joinRequests, u);
    ClubStatus(u in c.members, pending.Some?, pending)
  }

  /**
   The status map of `load()`: empty without a signed-in user; otherwise one
   entry per listed club, a later club with the same id overwriting an
   earlier one.
   */
  function StatusMap(clubs: seq<Club>, user: Option<UserId>): (r: map<ClubId, ClubStatus>)
    ensures user.None? ==> r == map[]
    ensures user.Some? ==> r.Keys == ClubIds(clubs)
  {
    if user.None? then map[]
    else LastByKey(clubs, ClubKey, StatusOf(user.value))
  }

  function ClubKey(c: Club): ClubId
  {
    c.id
  }

  function StatusOf(u: UserId): Club -> ClubStatus
  {
    c => DeriveStatus(c, u)
  }

  /** The entry of a listed club is the status derived from the last club listed under its id. */
  lemma StatusMapEntry(clubs: seq<Club>, u: UserId, i: nat)
    requires i < |clubs| && LastWithId(clubs, i)
    ensures clubs[i].id in StatusMap(clubs, Some(u))
    ensures StatusMap(clubs, Some(u))[clubs[i].id] == DeriveStatus(clubs[i], u)
  {
    LastByKeyEntry(clubs, ClubKey, StatusOf(u), i);
  }

  /** No later club in the list has the id of club `i`. */
  predicate LastWithId(clubs: seq<Club>, i: nat)
    requires i < |clubs|
  {
    forall j :: i < j < |clubs| ==> clubs[j].id != clubs[i].id
  }

  /** The ids of the listed clubs. */
  function ClubIds(clubs: seq<Club>): (r: set<ClubId>)
    ensures forall i :: 0 <= i < |clubs| ==> clubs[i].id in r
    ensures forall id :: id in r ==> exists i :: 0 <= i < |clubs| && clubs[i].id == id
  {
    if clubs == [] then {}
    else
      var n := |clubs| - 1;
      var front := ClubIds(clubs[..n]);
      assert forall i :: 0 <= i < n ==> clubs[..n][i] == clubs[i];
      front + {clubs[n].id}
  }

  /** The control at the bottom of a club card. */
  datatype Control = NoControl | JoinedBadge | CancelButton(reqId: Option<RequestId>) | JoinButton

  /**
   The card's control: nothing when signed out; else the Joined badge for a
   member, Cancel Request for a pending requester, Join otherwise (also when
   the club has no entry in the status map).
   */
  function ControlFor(user: Option<UserId>, statuses: map<ClubId, ClubStatus>, c: Club): (r: Control)
    ensures user.None? <==> r == NoControl
    ensures r == JoinedBadge <==> user.Some? && c.id in statuses && statuses[c.id].isMember
    ensures r.CancelButton? <==> (user.Some? && c.id in statuses && !statuses[c.id].isMember
                                  && statuses[c.id].isRequest)
    ensures r.CancelButton? ==> r.reqId == statuses[c.id].joinReqId
  {
    if user.None? then NoControl
    else if c.id in statuses && statuses[c.id].isMember then JoinedBadge
    else if c.id in statuses && statuses[c.id].isRequest then CancelButton(statuses[c.id].joinReqId)
    else JoinButton
  }

  /** For a listed club, the card shows exactly the server's view of the user's standing. */
  lemma CardMatchesServer(clubs: seq<Club>, u: UserId, i: nat)
    requires i < |clubs|
    requires LastWithId(clubs, i)
    ensures var r := ControlFor(Some(u), StatusMap(clubs, Some(u)), clubs[i]);
      && (r == JoinedBadge <==> u in clubs[i].members)
      && (r.CancelButton? <==> u !in clubs[i].members && HasPending(clubs[i].joinRequests, u))
      && (r == JoinButton <==> u !in clubs[i].members && !HasPending(clubs[i].joinRequests, u))
  {
    StatusMapEntry(clubs, u, i);
  }

  /** Pressing Join on a card drawn from the current state of the club succeeds on the server. */
  lemma JoinButtonIsAccepted(w: World, clubs: seq<Club>, u: UserId, i: nat, now: int, delivered: bool)
    requires i < |clubs|
    requires LastWithId(clubs, i)
    requires clubs[i].id in w.clubs && w.clubs[clubs[i].id] == clubs[i]
    requires ControlFor(Some(u), StatusMap(clubs, Some(u)), clubs[i]) == JoinButton
    ensures JoinClub(w, u, clubs[i].id, now, delivered).Ok?
  {
    CardMatchesServer(clubs, u, i);
  }

  /**
   Cancel Request sends the approval route with `status: 'rejected'`. The
   requester is never the owner, so the server answers 403 and the request
   stays pending.
   */
  lemma CancelRequestIsForbidden(w: World, clubs: seq<Club>, u: UserId, i: nat, now: int, delivered: bool)
    requires i < |clubs|
    requires LastWithId(clubs, i)
    requires clubs[i].id in w.clubs && w.clubs[clubs[i].id] == clubs[i]
    requires Membership.ClubInv(clubs[i])
    requires ControlFor(Some(u), StatusMap(clubs, Some(u)), clubs[i]).CancelButton?
    ensures var r := ControlFor(Some(u), StatusMap(clubs, Some(u)), clubs[i]);
      r.reqId.Some?
      && Approve(w, u, clubs[i].id, r.reqId.value, Some("rejected"), now, delivered)
         == Fail(Forbidden, "Only the club admin can approve joins")
  {
    var c := clubs[i];
    StatusMapEntry(clubs, u, i);
    var st := StatusMap(clubs, Some(u))[c.id];
    assert st == DeriveStatus(c, u);
    assert u !in c.members && st.joinReqId.Some?;
    assert c.owner in c.members;
    assert w.clubs[c.id].owner != u;
  }

  // ---------------------------------------------------------------- search box

  /** The text a card is searched by: the name, a space, and the description or nothing. */
  function SearchText(c: Club): string
  {
    c.name + " " + (if Given(c.description) then c.description.value else "")
  }

  predicate MatchesSearch(c: Club, query: string)
  {
    Contains(ToLower(SearchText(c)), query)
  }

  /** The `filter` callback for the query `q`. */
  function MatchesOf(q: string): Club -> bool
  {
    c => MatchesSearch(c, q)
  }

  /**
   The search filter: a blank search shows every club; otherwise the clubs
   whose lower-cased search text contains the lower-cased trimmed query, in
   list order.
   */
  function FilterClubs(clubs: seq<Club>, search: string): (r: seq<Club>)
    ensures AllSpace(search) ==> r == clubs
    ensures !AllSpace(search) ==> r == Filter(clubs, MatchesOf(ToLower(Trim(search))))
    ensures forall i :: 0 <= i < |clubs| ==> (clubs[i] in r <==> AllSpace(search) || MatchesSearch(clubs[i], ToLower(Trim(search))))
  {
    var q := ToLower(Trim(search));
    if q == [] then clubs
    else Filter(clubs, MatchesOf(q))
  }

  /** The search ignores letter case. */
  lemma SearchIgnoresCase(clubs: seq<Club>, search: string)
    ensures FilterClubs(clubs, ToLower(search)) == FilterClubs(clubs, search)
  {
    LowerTrim(search);
    LowerIdempotent(Trim(search));
    assert AllSpace(search) <==> AllSpace(ToLower(search)) by {
      assert Trim(ToLower(search)) == [] <==> Trim(search) == [];
    }
  }

  /** A club whose lower-cased name contains the query is always shown. */
  lemma NameMatchShown(clubs: seq<Club>, search: string, i: nat)
    requires i < |clubs|
    requires Contains(ToLower(clubs[i].name), ToLower(Trim(search)))
    ensures clubs[i] in FilterClubs(clubs, search)
  {
    var c := clubs[i];
    var rest := " " + (if Given(c.description) then c.description.value else "");
    assert SearchText(c) == c.name + rest;
    LowerConcat(c.name, rest);
    ContainsInPrefix(ToLower(c.name), ToLower(rest), ToLower(Trim(search)));
    assert MatchesSearch(c, ToLower(Trim(search)));
  }

  /**
   The page's own create form posts only a name and a description, which
   the server always refuses: the college name and address are required.
   */
  lemma InlineCreateAlwaysRefused(w: World, caller: UserId, name: string, description: string)
    ensures CreateClub(w, caller, ClubInput(Some(name), Some(description), None, None, None))
      == Fail(BadRequest, "Could not create club")
  {
  }
}

=== FILE: comments.dfy ===
/**
 Event comments: creation with its emptiness and length rules, the listing
 in creation order, and deletion by the author or an admin.
 */
module Comments {
  import opened Common
  import opened Text
  import opened Seqs

  /** The schema's `maxlength` on `content`. */
  const MaxLength: nat := 500

  datatype Comment = Comment(id: CommentId, event: EventId, user: UserId, content: string,
                             createdAt: int, updatedAt: int)

  /** The collection in insertion order. */
  type CommentStore = seq<Comment>

  predicate IdsDistinct(store: CommentStore)
  {
    forall i, j :: 0 <= i < j < |store| ==> store[i].id != store[j].id
  }

  function Ids(store: CommentStore): set<CommentId>
  {
    set c | c in store :: c.id
  }

  /**
   The guard `!content || !content.trim()`: content that is falsy, or a
   string of nothing but white space.
   */
  predicate Blank(content: JsValue)
  {
    !content.Truthy() || (content.Str? && AllSpace(content.s))
  }

  /**
   `createComment`. Blank content answers 400 "Empty comment". Any other
   failure answers 500 "Failed to add comment": content that is not a string
   has no `trim` to call, content longer than 500 characters fails the
   schema, and a comment without an event fails the required check. The
   stored content is the text as sent, untrimmed.
   */
  function Create(store: CommentStore, caller: UserId, event: Option<EventId>, content: JsValue, now: int)
    : (r: Result<(CommentStore, Comment)>)
    ensures r == Fail(BadRequest, "Empty comment") <==> Blank(content)
    ensures r.Ok? <==> !Blank(content) && content.Str? && |content.s| <= MaxLength && event.Some?
    ensures r.Err? && !Blank(content) ==> r == Fail(ServerError, "Failed to add comment")
    ensures r.Ok? ==> var c := r.value.1;
      && r.value.0 == store + [c]
      && c.id !in Ids(store)
      && c.user == caller && c.event == event.value && c.content == content.s
      && c.createdAt == now
      && Trim(c.content) != []
  {
    if Blank(content) then Fail(BadRequest, "Empty comment")
    else if !content.Str? || |content.s| > MaxLength || event.None? then Fail(ServerError, "Failed to add comment")
    else
      var c := Comment(FreshId(Ids(store)), event.value, caller, content.s, now, now);
      Ok((store + [c], c))
  }

  /** Creating a comment keeps the ids distinct. */
  lemma CreateKeepsIdsDistinct(store: CommentStore, caller: UserId, event: Option<EventId>, content: JsValue,
                               now: int)
    requires IdsDistinct(store)
    requires Create(store, caller, event, content, now).Ok?
    ensures IdsDistinct(Create(store, caller, event, content, now).value.0)
  {
    var c := Create(store, caller, event, content, now).value.1;
    assert forall i :: 0 <= i < |store| ==> store[i].id in Ids(store);
  }

  predicate OnEvent(c: Comment, event: Option<EventId>)
  {
    event.None? || c.event == event.value
  }

  /** The filter `eventId ? { event: eventId } : {}`. */
  function OnEventOf(event: Option<EventId>): Comment -> bool
  {
    c => OnEvent(c, event)
  }

  function CreatedKey(c: Comment): int
  {
    c.createdAt
  }

  /**
   `getComments`: the comments of the event when one is given (all of them
   otherwise), oldest first.
   */
  function List(store: CommentStore, event: Option<EventId>): (r: seq<Comment>)
    ensures multiset(r) == multiset(Filter(store, OnEventOf(event)))
    ensures forall i, j :: 0 <= i < j < |r| ==> r[i].createdAt <= r[j].createdAt
    ensures forall c :: c in r <==> c in store && OnEvent(c, event)
  {
    var on := Filter(store, OnEventOf(event));
    var r := SortBy(on, CreatedKey);
    SortByMembers(on, CreatedKey);
    r
  }

  /** A new comment shows in its event's listing and in the full listing. */
  lemma CreatedIsListed(store: CommentStore, caller: UserId, event: Option<EventId>, content: JsValue, now: int)
    requires Create(store, caller, event, content, now).Ok?
    ensures var r := Create(store, caller, event, content, now).value;
      r.1 in List(r.0, event) && r.1 in List(r.0, None)
  {
    var r := Create(store, caller, event, content, now).value;
    assert r.0[|store|] == r.1;
  }

  /** `findById`: the index of the comment with that id. */
  function Find(store: CommentStore, id: CommentId): (r: Option<nat>)
    ensures r.None? <==> id !in Ids(store)
    ensures r.Some? ==> r.value < |store| && store[r.value].id == id
    ensures r.Some? ==> forall i :: 0 <= i < r.value ==> store[i].id != id
  {
    if store == [] then None
    else if store[0].id == id then Some(0)
    else
      var t := Find(store[1..], id);
      assert Ids(store) == Ids(store[1..]) + {store[0].id} by {
        assert forall c :: c in store <==> c == store[0] || c in store[1..];
      }
      if t.None? then None else Some(t.value + 1)
  }

  /** The author may delete a comment, and so may a caller whose token role is `admin`. */
  predicate MayDelete(c: Comment, caller: UserId, role: string)
  {
    c.user == caller || role == "admin"
  }

  /**
   `deleteComment`: 404 "Not found" without such a comment, 403 "No
   permission" for anyone but its author or an admin, otherwise the comment
   is removed.
   */
  function Delete(store: CommentStore, caller: UserId, role: string, id: CommentId): (r: Result<CommentStore>)
    ensures r == Fail(NotFound, "Not found") <==> id !in Ids(store)
    ensures r == Fail(Forbidden, "No permission") <==>
      id in Ids(store) && !MayDelete(store[Find(store, id).value], caller, role)
    ensures r.Ok? <==> id in Ids(store) && MayDelete(store[Find(store, id).value], caller, role)
    ensures r.Ok? ==> var k := Find(store, id).value;
      r.value == store[..k] + store[k + 1..]
  {
    match Find(store, id)
    case None => Fail(NotFound, "Not found")
    case Some(k) =>
      if !MayDelete(store[k], caller, role) then Fail(Forbidden, "No permission")
      else Ok(store[..k] + store[k + 1..])
  }

  /**
   With distinct ids, a deletion removes exactly the named comment: it is
   gone, every other comment stays, and the ids stay distinct.
   */
  lemma DeleteRemovesComment(store: CommentStore, caller: UserId, role: string, id: CommentId)
    requires IdsDistinct(store)
    requires Delete(store, caller, role, id).Ok?
    ensures var rest := Delete(store, caller, role, id).value;
      && id !in Ids(rest)
      && IdsDistinct(rest)
      && (forall c :: c in store && c.id != id ==> c in rest)
  {
    var k := Find(store, id).value;
    RemoveAtKeyed(store, k, CommentKey);
  }

  function CommentKey(c: Comment): CommentId
  {
    c.id
  }

  /** An admin token may delete any existing comment; a non-admin only the caller's own. */
  lemma DeleteRights(store: CommentStore, caller: UserId, role: string, id: CommentId)
    requires id in Ids(store)
    ensures role == "admin" ==> Delete(store, caller, role, id).Ok?
    ensures role != "admin" ==>
      (Delete(store, caller, role, id).Ok? <==> store[Find(store, id).value].user == caller)
  {
  }
}

=== FILE: common.dfy ===
/**
 Shared vocabulary of the BuzzBoard model: identifiers, the HTTP outcome of a
 handler, a small JavaScript value type for request bodies that the handlers
 inspect dynamically, and fresh-identifier allocation.
 */
module Common {

  /** Document identifiers. MongoDB ObjectIds are modelled as abstract naturals. */
  type UserId = nat
  type ClubId = nat
  type RequestId = nat
  type EventId = nat
  type CommentId = nat
  type NotificationId = nat
  type VolunteerId = nat

  datatype Option<+T> = None | Some(value: T)

  /** The status codes the handlers answer with when they do not succeed. */
  datatype Status = BadRequest | Unauthorized | Forbidden | NotFound | ServerError
  {
    function Code(): nat
    {
      match this
      case BadRequest => 400
      case Unauthorized => 401
      case Forbidden => 403
      case NotFound => 404
      case ServerError => 500
    }
  }

  /** A failed response: its status and the `message` field of its JSON body. */
  datatype Error = Error(status: Status, message: string)

  /** The outcome of a handler: the new state (or response) or an error response. */
  datatype Result<+T> = Ok(value: T) | Err(error: Error)
  {
    predicate IsFailure() { Err? }

    function PropagateFailure<U>(): Result<U>
      requires Err?
    {
      Err(error)
    }

    function Extract(): T
      requires Ok?
    {
      value
    }

    /** True when this is an error with the given status. */
    predicate FailedWith(s: Status)
    {
      Err? && error.status == s
    }
  }

  function Fail<T>(s: Status, message: string): (r: Result<T>)
    ensures r.Err? && r.error.status == s && r.error.message == message
  {
    Err(Error(s, message))
  }

  /**
   The JavaScript values a handler receives in a JSON body where it inspects
   their runtime type (`typeof`, `Array.isArray`). Numbers are abstracted to
   integers: only their type matters to the code that inspects them.
   */
  datatype JsValue =
    | Undefined
    | Null
    | Bool(b: bool)
    | Num(n: int)
    | Str(s: string)
    | Arr(items: seq<JsValue>)
    | Obj(fields: map<string, JsValue>)
  {
    /** JavaScript truthiness (NaN is not modelled; 0 is falsy). */
    predicate Truthy()
    {
      match this
      case Undefined => false
      case Null => false
      case Bool(b) => b
      case Num(n) => n != 0
      case Str(s) => s != ""
      case Arr(_) => true
      case Obj(_) => true
    }

    /** Property access `v.key`: `undefined` when absent or when `v` is not an object. */
    function Get(key: string): (r: JsValue)
      ensures Obj? && key in fields ==> r == fields[key]
      ensures !(Obj? && key in fields) ==> r == Undefined
    {
      if Obj? && key in fields then fields[key] else Undefined
    }
  }

  /** Truthiness of an optional string field: present and non-empty. */
  predicate Given(s: Option<string>)
  {
    s.Some? && s.value != ""
  }

  function Keep<T>(given: Option<T>, stored: T): (r: T)
    ensures SetField(given, stored, r)
  {
    if given.Some? then given.value else stored
  }

  function KeepOpt<T>(given: Option<T>, stored: Option<T>): (r: Option<T>)
    ensures SetOptField(given, stored, r)
  {
    if given.Some? then given else stored
  }

  /** A `$set` of one field: the given value is written, an absent one keeps what is stored. */
  predicate SetField<T(==)>(given: Option<T>, stored: T, now: T)
  {
    (given.None? ==> now == stored) && (given.Some? ==> now == given.value)
  }

  /** The same for an optional field, whose written value is the given one. */
  predicate SetOptField<T(==)>(given: Option<T>, stored: Option<T>, now: Option<T>)
  {
    (given.None? ==> now == stored) && (given.Some? ==> now == given)
  }

  /**
   A position the `2dsphere` indexes accept: the longitude within
   [-180, 180] and the latitude within [-90, 90].
   */
  predicate LngLatValid(lng: int, lat: int)
  {
    -180 <= lng <= 180 && -90 <= lat <= 90
  }

  /** The naturals below `n`. */
  ghost function Below(n: nat): (r: set<nat>)
    ensures |r| == n
    ensures forall i: nat :: i in r <==> i < n
  {
    if n == 0 then {} else Below(n - 1) + {n - 1}
  }

  lemma SubsetSize<T>(a: set<T>, b: set<T>)
    requires a <= b
    ensures |a| <= |b|
  {
    assert b == a + (b - a);
  }

  function FreshFrom(used: set<nat>, k: nat): (r: nat)
    requires Below(k) <= used
    requires k <= |used|
    ensures r !in used
    ensures k <= r <= |used|
    decreases |used| - k
  {
    if k !in used then k
    else
      assert Below(k + 1) == Below(k) + {k};
      SubsetSize(Below(k + 1), used);
      FreshFrom(used, k + 1)
  }

  /**
   A new identifier that no existing document carries, as MongoDB's ObjectId
   generation guarantees. The smallest unused natural is chosen.
   */
  function FreshId(used: set<nat>): (r: nat)
    ensures r !in used
    ensures r <= |used|
  {
    assert Below(0) == {};
    FreshFrom(used, 0)
  }
}

=== FILE: events.dfy ===
/**
 Events: the Event record, `createEvent` with its ordered checks, the
 creator-or-owner rule of `updateEvent` and `deleteEvent`, and the upcoming
 listing of `listEvents` with the query it builds. The collection is a
 sequence in natural order; ids are distinct.
 */
module Events {
  import opened Common
  import opened Seqs
  import Clubs

  datatype Location = Location(kind: string, coordinates: seq<int>, address: string, city: string, state: string)

  datatype Event = Event(
    id: EventId,
    club: ClubId,
    title: string,
    description: Option<string>,
    startAt: int,
    endAt: Option<int>,
    location: Location,
    capacity: Option<int>,
    volunteersNeeded: int,
    imageUrl: Option<string>,
    createdBy: UserId)

  type EventStore = seq<Event>

  predicate IdsDistinct(events: EventStore)
  {
    forall i, j :: 0 <= i < j < |events| ==> events[i].id != events[j].id
  }

  function EventIds(events: EventStore): set<EventId>
  {
    set e | e in events :: e.id
  }

  /** `findById`: the index of the event with that id. */
  function Find(events: EventStore, id: EventId): (r: Option<nat>)
    ensures r.None? <==> forall i :: 0 <= i < |events| ==> events[i].id != id
    ensures r.Some? ==> r.value < |events| && events[r.value].id == id
    ensures r.Some? ==> forall i :: 0 <= i < r.value ==> events[i].id != id
  {
    if events == [] then None
    else if events[0].id == id then Some(0)
    else
      var t := Find(events[1..], id);
      if t.None? then None else Some(t.value + 1)
  }

  // ---------------------------------------------------------------- createEvent

  /** The body of `POST /events`. */
  datatype EventInput = EventInput(
    clubId: Option<ClubId>,
    title: Option<string>,
    description: Option<string>,
    startAt: Option<int>,
    endAt: Option<int>,
    location: JsValue,
    capacity: Option<int>,
    volunteersNeeded: Option<int>,
    imageUrl: Option<string>)

  /** The handler's own check: a truthy location with truthy address, city, state and coordinates. */
  predicate LocationGiven(loc: JsValue)
  {
    && loc.Truthy()
    && loc.Get("address").Truthy()
    && loc.Get("city").Truthy()
    && loc.Get("state").Truthy()
    && loc.Get("coordinates").Truthy()
  }

  /** The numbers of an array of numbers. */
  function Numbers(items: seq<JsValue>): (r: Option<seq<int>>)
    ensures r.Some? <==> forall i :: 0 <= i < |items| ==> items[i].Num?
    ensures r.Some? ==> |r.value| == |items| && forall i :: 0 <= i < |items| ==> r.value[i] == items[i].n
  {
    if items == [] then Some([])
    else
      var rest := Numbers(items[1..]);
      if items[0].Num? && rest.Some? then Some([items[0].n] + rest.value)
      else
        assert !items[0].Num? ==> !(forall i :: 0 <= i < |items| ==> items[i].Num?);
        assert rest.None? ==> !(forall i :: 0 <= i < |items| ==> items[i].Num?) by {
          if rest.None? {
            var i :| 0 <= i < |items[1..]| && !items[1..][i].Num?;
            assert !items[i + 1].Num?;
          }
        }
        None
  }

  /**
   The location sub-document as the schema casts it: `type` defaults to
   'Point' and admits nothing else, `coordinates` must be numbers, and the
   three text fields must be strings.
   */
  function LocationOf(loc: JsValue): (r: Option<Location>)
    ensures r.Some? ==> r.value.kind == "Point"
    ensures r.Some? ==> loc.Get("type") == Undefined || loc.Get("type") == Str("Point")
    ensures r.Some? ==> (loc.Get("address") == Str(r.value.address) && loc.Get("city") == Str(r.value.city)
                         && loc.Get("state") == Str(r.value.state))
  {
    var kind := loc.Get("type");
    var coords := loc.Get("coordinates");
    if (kind == Undefined || kind == Str("Point")) && coords.Arr? && Numbers(coords.items).Some?
       && loc.Get("address").Str? && loc.Get("city").Str? && loc.Get("state").Str?
    then Some(Location("Point", Numbers(coords.items).value, loc.Get("address").s, loc.Get("city").s,
                       loc.Get("state").s))
    else None
  }

  /** The schema's required fields: title, start time and a castable location. */
  predicate EventSchemaValid(input: EventInput)
  {
    Given(input.title) && input.startAt.Some? && LocationOf(input.location).Some?
  }

  /**
   The `2dsphere` index on `location` refuses a document whose point is not
   a GeoJSON position: at least two numbers (a third, the altitude, is
   ignored) whose first two are a valid longitude and latitude.
   */
  predicate IndexAccepts(l: Location)
  {
    |l.coordinates| >= 2 && LngLatValid(l.coordinates[0], l.coordinates[1])
  }

  /** The insert succeeds: the schema accepts the document and the geo index accepts its point. */
  predicate Storable(input: EventInput)
  {
    EventSchemaValid(input) && IndexAccepts(LocationOf(input.location).value)
  }

  predicate ClubFound(clubs: Clubs.ClubStore, clubId: Option<ClubId>)
  {
    clubId.Some? && clubId.value in clubs
  }

  predicate OwnsClub(clubs: Clubs.ClubStore, clubId: Option<ClubId>, caller: UserId)
  {
    ClubFound(clubs, clubId) && clubs[clubId.value].owner == caller
  }

  /**
   `createEvent`, checks in order: 404 unknown club, 403 unless the caller
   owns it, 400 for a location without address, city, state or coordinates,
   400 when the schema or the geo index refuses the document. Otherwise the
   event is appended with the caller as creator and `volunteersNeeded`
   defaulting to 0. `referenced` holds the event ids other documents still
   carry (comments, RSVPs, applications, galleries); an ObjectId is never
   issued twice, so the new id is none of them.
   */
  function CreateEvent(events: EventStore, clubs: Clubs.ClubStore, caller: UserId, input: EventInput,
                       referenced: set<EventId>)
    : (r: Result<(EventStore, Event)>)
    ensures !ClubFound(clubs, input.clubId) ==> r == Fail(NotFound, "Club not found")
    ensures ClubFound(clubs, input.clubId) && !OwnsClub(clubs, input.clubId, caller)
      ==> r == Fail(Forbidden, "Only the club owner can create events for this club")
    ensures OwnsClub(clubs, input.clubId, caller) && !LocationGiven(input.location)
      ==> r == Fail(BadRequest, "Location requires address, city, state, and coordinates.")
    ensures OwnsClub(clubs, input.clubId, caller) && LocationGiven(input.location) && !Storable(input)
      ==> r == Fail(BadRequest, "Could not create event")
    ensures r.Ok? <==> OwnsClub(clubs, input.clubId, caller) && LocationGiven(input.location) && Storable(input)
    ensures r.Ok? ==>
      var (events', e) := r.value;
      && events' == events + [e]
      && e.id !in EventIds(events) && e.id !in referenced
      && e.createdBy == caller
      && e.club == input.clubId.value
      && clubs[e.club].owner == caller
      && e.title == input.title.value
      && e.startAt == input.startAt.value
      && e.volunteersNeeded == (if input.volunteersNeeded.Some? then input.volunteersNeeded.value else 0)
      && e.description == input.description && e.endAt == input.endAt
      && e.capacity == input.capacity && e.imageUrl == input.imageUrl
      && e.location == LocationOf(input.location).value
      && e.location.kind == "Point"
      && e.location.address != "" && e.location.city != "" && e.location.state != ""
      && IndexAccepts(e.location)
  {
    if !ClubFound(clubs, input.clubId) then Fail(NotFound, "Club not found")
    else if !OwnsClub(clubs, input.clubId, caller) then
      Fail(Forbidden, "Only the club owner can create events for this club")
    else if !LocationGiven(input.location) then
      Fail(BadRequest, "Location requires address, city, state, and coordinates.")
    else if !Storable(input) then Fail(BadRequest, "Could not create event")
    else
      var e := Event(FreshId(EventIds(events) + referenced), input.clubId.value, input.title.value, input.description,
                     input.startAt.value, input.endAt, LocationOf(input.location).value, input.capacity,
                     if input.volunteersNeeded.Some? then input.volunteersNeeded.value else 0,
                     input.imageUrl, caller);
      Ok((events + [e], e))
  }

  /** Creation keeps event ids distinct. */
  lemma CreateEventKeepsIdsDistinct(events: EventStore, clubs: Clubs.ClubStore, caller: UserId, input: EventInput,
                                    referenced: set<EventId>)
    requires IdsDistinct(events)
    requires CreateEvent(events, clubs, caller, input, referenced).Ok?
    ensures IdsDistinct(CreateEvent(events, clubs, caller, input, referenced).value.0)
  {
    var (events', e) := CreateEvent(events, clubs, caller, input, referenced).value;
    forall i | 0 <= i < |events|
      ensures events'[i].id != e.id
    {
      assert events[i] in events;
    }
  }

  // ---------------------------------------------------------------- update and delete

  /**
   Who may change an event: its creator, or the owner of its club. The club
   is only consulted when the caller is not the creator; if it no longer
   exists that lookup throws, which is `None` here.
   */
  function ModifyRight(e: Event, clubs: Clubs.ClubStore, caller: UserId): (r: Option<bool>)
    ensures r.None? <==> e.createdBy != caller && e.club !in clubs
    ensures r == Some(true) <==> e.createdBy == caller || (e.club in clubs && clubs[e.club].owner == caller)
  {
    if e.createdBy == caller then Some(true)
    else if e.club !in clubs then None
    else Some(clubs[e.club].owner == caller)
  }

  /** The authorization shared by update and delete: 404, 403, or the index of the event. */
  function Authorize(events: EventStore, clubs: Clubs.ClubStore, caller: UserId, id: EventId): (r: Result<nat>)
    ensures Find(events, id).None? <==> r == Fail(NotFound, "Event not found")
    ensures Find(events, id).Some? && ModifyRight(events[Find(events, id).value], clubs, caller) == Some(false)
      <==> r == Fail(Forbidden, "Forbidden")
    ensures Find(events, id).Some? && ModifyRight(events[Find(events, id).value], clubs, caller).None?
      <==> r.Err? && r.error.status == ServerError
    ensures r.Ok? <==> Find(events, id).Some? && ModifyRight(events[Find(events, id).value], clubs, caller) == Some(true)
    ensures r.Ok? ==> r.value == Find(events, id).value
  {
    match Find(events, id)
    case None => Fail(NotFound, "Event not found")
    case Some(k) =>
      match ModifyRight(events[k], clubs, caller)
      case None => Fail(ServerError, "Club of the event is missing")
      case Some(false) => Fail(Forbidden, "Forbidden")
      case Some(true) => Ok(k)
  }

  /** The body of `PATCH /events/:id`, applied as is: every field may be given, including the creator. */
  datatype EventPatch = EventPatch(
    club: Option<ClubId>,
    title: Option<string>,
    description: Option<string>,
    startAt: Option<int>,
    endAt: Option<int>,
    location: Option<Location>,
    capacity: Option<int>,
    volunteersNeeded: Option<int>,
    imageUrl: Option<string>,
    createdBy: Option<UserId>)

  /** `$set` of the body, without validation. */
  function ApplyPatch(e: Event, p: EventPatch): (r: Event)
    ensures r.id == e.id
    ensures SetField(p.club, e.club, r.club)
    ensures SetField(p.title, e.title, r.title)
    ensures SetOptField(p.description, e.description, r.description)
    ensures SetField(p.startAt, e.startAt, r.startAt)
    ensures SetOptField(p.endAt, e.endAt, r.endAt)
    ensures SetField(p.location, e.location, r.location)
    ensures SetOptField(p.capacity, e.capacity, r.capacity)
    ensures SetField(p.volunteersNeeded, e.volunteersNeeded, r.volunteersNeeded)
    ensures SetOptField(p.imageUrl, e.imageUrl, r.imageUrl)
    ensures SetField(p.createdBy, e.createdBy, r.createdBy)
    ensures p == EventPatch(None, None, None, None, None, None, None, None, None, None) ==> r == e
  {
    Event(e.id, Keep(p.club, e.club), Keep(p.title, e.title), KeepOpt(p.description, e.description),
          Keep(p.startAt, e.startAt), KeepOpt(p.endAt, e.endAt), Keep(p.location, e.location),
          KeepOpt(p.capacity, e.capacity), Keep(p.volunteersNeeded, e.volunteersNeeded),
          KeepOpt(p.imageUrl, e.imageUrl), Keep(p.createdBy, e.createdBy))
  }

  /** `updateEvent`: authorized callers get the patched event; every other event is unchanged. */
  function UpdateEvent(events: EventStore, clubs: Clubs.ClubStore, caller: UserId, id: EventId, patch: EventPatch)
    : (r: Result<(EventStore, Event)>)
    ensures r.Err? <==> Authorize(events, clubs, caller, id).Err?
    ensures r.Err? ==> r.error == Authorize(events, clubs, caller, id).error
    ensures r.Ok? ==>
      var k := Find(events, id).value;
      && |r.value.0| == |events|
      && r.value.1 == ApplyPatch(events[k], patch)
      && r.value.0[k] == r.value.1
      && (forall i :: 0 <= i < |events| && i != k ==> r.value.0[i] == events[i])
  {
    match Authorize(events, clubs, caller, id)
    case Err(e) => Err(e)
    case Ok(k) =>
      var e' := ApplyPatch(events[k], patch);
      Ok((events[k := e'], e'))
  }

  /** `deleteEvent`: authorized callers remove exactly that event. */
  function DeleteEvent(events: EventStore, clubs: Clubs.ClubStore, caller: UserId, id: EventId): (r: Result<EventStore>)
    ensures r.Err? <==> Authorize(events, clubs, caller, id).Err?
    ensures r.Err? ==> r.error == Authorize(events, clubs, caller, id).error
    ensures r.Ok? ==>
      var k := Find(events, id).value;
      r.value == events[..k] + events[k + 1..]
  {
    match Authorize(events, clubs, caller, id)
    case Err(e) => Err(e)
    case Ok(k) => Ok(events[..k] + events[k + 1..])
  }

  /** Deleting an event leaves no event with that id when ids are distinct, and keeps ids distinct. */
  lemma DeleteRemovesEvent(events: EventStore, clubs: Clubs.ClubStore, caller: UserId, id: EventId)
    requires IdsDistinct(events)
    requires DeleteEvent(events, clubs, caller, id).Ok?
    ensures id !in EventIds(DeleteEvent(events, clubs, caller, id).value)
    ensures IdsDistinct(DeleteEvent(events, clubs, caller, id).value)
    ensures |DeleteEvent(events, clubs, caller, id).value| == |events| - 1
  {
    var k := Find(events, id).value;
    RemoveAtKeyed(events, k, EventKey);
  }

  function EventKey(e: Event): EventId
  {
    e.id
  }

  /** The creator and the club's owner may always change an event; nobody else ever may. */
  lemma ModifyRightsAgree(events: EventStore, clubs: Clubs.ClubStore, caller: UserId, id: EventId, patch: EventPatch)
    requires Find(events, id).Some?
    ensures var e := events[Find(events, id).value];
      && (e.createdBy == caller || (e.club in clubs && clubs[e.club].owner == caller)
          <==> UpdateEvent(events, clubs, caller, id, patch).Ok?)
      && (UpdateEvent(events, clubs, caller, id, patch).Ok? <==> DeleteEvent(events, clubs, caller, id).Ok?)
  {
  }

  /** With no whitelist, an authorized update can hand the event to another creator. */
  lemma UpdateCanReassignCreator(events: EventStore, clubs: Clubs.ClubStore, caller: UserId, id: EventId, other: UserId)
    requires Authorize(events, clubs, caller, id).Ok?
    ensures var patch := EventPatch(None, None, None, None, None, None, None, None, None, Some(other));
      UpdateEvent(events, clubs, caller, id, patch).value.1.createdBy == other
  {
  }

  // ---------------------------------------------------------------- listEvents

  predicate Upcoming(e: Event, now: int)
  {
    e.startAt >= now
  }

  /** The filter `{ startAt: { $gte: now } }`. */
  function UpcomingAt(now: int): Event -> bool
  {
    e => Upcoming(e, now)
  }

  function StartKey(e: Event): int
  {
    e.startAt
  }

  /** `listEvents` without filters: the upcoming events, soonest first, at most 100. */
  function ListEvents(events: EventStore, now: int): (r: seq<Event>)
    ensures forall i :: 0 <= i < |r| ==> r[i] in events && r[i].startAt >= now
    ensures forall i, j :: 0 <= i < j < |r| ==> r[i].startAt <= r[j].startAt
    ensures TopBy(Filter(events, UpcomingAt(now)), StartKey, 100, r)
  {
    var upcoming := Filter(events, UpcomingAt(now));
    var r := TopByKey(upcoming, StartKey, 100);
    TopByMembers(upcoming, StartKey, 100, r);
    assert forall i, j :: 0 <= i < j < |r| ==> StartKey(r[i]) <= StartKey(r[j]);
    r
  }

  /** With at most 100 upcoming events, every one of them is listed. */
  lemma FewEventsAllListed(events: EventStore, now: int, e: Event)
    requires |Filter(events, UpcomingAt(now))| <= 100
    requires e in events && e.startAt >= now
    ensures e in ListEvents(events, now)
  {
    var upcoming := Filter(events, UpcomingAt(now));
    var r := ListEvents(events, now);
    var i :| 0 <= i < |events| && events[i] == e;
    assert e in upcoming;
    assert |r| == |upcoming|;
    assert multiset(r) == multiset(upcoming) by {
      MultisetSubsetSameSize(r, upcoming);
    }
    assert e in multiset(r);
  }

  lemma MultisetSubsetSameSize<T>(a: seq<T>, b: seq<T>)
    requires multiset(a) <= multiset(b) && |a| == |b|
    ensures multiset(a) == multiset(b)
  {
    var d := multiset(b) - multiset(a);
    assert multiset(b) == multiset(a) + d;
    assert |multiset(b)| == |multiset(a)| + |d|;
  }

  /** The query `listEvents` builds from its query string. */
  datatype NearFilter = NearFilter(lng: string, lat: string, radiusKm: string)
  datatype EventQuery = EventQuery(startsFrom: int, near: Option<NearFilter>, city: Option<string>, state: Option<string>)

  /** The geo filter appears only when `lat`, `lng` and `radiusKm` are all given. */
  function BuildEventQuery(lat: Option<string>, lng: Option<string>, radiusKm: Option<string>,
                           city: Option<string>, state: Option<string>, now: int): (q: EventQuery)
    ensures q.startsFrom == now
    ensures q.near.Some? <==> Given(lat) && Given(lng) && Given(radiusKm)
    ensures q.near.Some? ==> q.near.value == NearFilter(lng.value, lat.value, radiusKm.value)
    ensures q.city.Some? <==> Given(city)
    ensures q.city.Some? ==> q.city == city
    ensures q.state.Some? <==> Given(state)
    ensures q.state.Some? ==> q.state == state
  {
    EventQuery(now,
               if Given(lat) && Given(lng) && Given(radiusKm) then Some(NearFilter(lng.value, lat.value, radiusKm.value)) else None,
               if Given(city) then city else None,
               if Given(state) then state else None)
  }

  /**
   What a query selects: events starting at or after its start time that the
   geo, city and state parts accept. Those parts are answered by MongoDB's
   `$near` and `$regex`, whose semantics `extra` stands for; a query without
   them places no further condition.
   */
  predicate Selects(q: EventQuery, extra: (EventQuery, Event) -> bool, e: Event)
  {
    e.startAt >= q.startsFrom && ((q.near.None? && q.city.None? && q.state.None?) || extra(q, e))
  }

  function SelectedBy(q: EventQuery, extra: (EventQuery, Event) -> bool): Event -> bool
  {
    e => Selects(q, extra, e)
  }

  /** Every event a built query selects is upcoming; without usable filters it selects exactly the upcoming ones. */
  lemma QuerySelectsUpcoming(lat: Option<string>, lng: Option<string>, radiusKm: Option<string>,
                             city: Option<string>, state: Option<string>, now: int,
                             extra: (EventQuery, Event) -> bool, e: Event)
    ensures Selects(BuildEventQuery(lat, lng, radiusKm, city, state, now), extra, e) ==> Upcoming(e, now)
    ensures !(Given(lat) && Given(lng) && Given(radiusKm)) && !Given(city) && !Given(state)
      ==> (Selects(BuildEventQuery(lat, lng, radiusKm, city, state, now), extra, e) <==> Upcoming(e, now))
  {
  }

  /** The listing `listEvents` answers for a request without filters is the one its query selects. */
  lemma UnfilteredQueryListsUpcoming(events: EventStore, now: int, extra: (EventQuery, Event) -> bool)
    ensures var q := BuildEventQuery(None, None, None, None, None, now);
      Filter(events, SelectedBy(q, extra)) == Filter(events, UpcomingAt(now))
  {
    var q := BuildEventQuery(None, None, None, None, None, now);
    forall i | 0 <= i < |events|
      ensures SelectedBy(q, extra)(events[i]) == UpcomingAt(now)(events[i])
    {
      QuerySelectsUpcoming(None, None, None, None, None, now, extra, events[i]);
    }
    FilterSame(events, SelectedBy(q, extra), UpcomingAt(now));
  }
}

=== FILE: gallery.dfy ===
/**
 Event galleries: at most one per event, grown by an upsert that appends
 images and records the first uploader, and listed newest first.
 */
module Galleries {
  import opened Common
  import opened Seqs

  datatype Image = Image(url: Option<string>, caption: Option<string>)

  datatype Gallery = Gallery(event: EventId, images: seq<Image>, uploadedBy: UserId, createdAt: int, updatedAt: int)

  /** The collection, keyed by event: the upsert filters on `{ event }`. */
  type GalleryStore = map<EventId, Gallery>

  predicate WellKeyed(store: GalleryStore)
  {
    forall e :: e in store ==> store[e].event == e
  }

  /**
   `addGallery`: push the images sent (none when `images` is absent or
   falsy, the `images || []` default) onto the event's gallery, creating it
   when missing. `uploadedBy` and `event` are written only on insert.
   `stored` is false when the database refuses the write, which answers 400.
   */
  function Add(store: GalleryStore, caller: UserId, event: EventId, images: Option<seq<Image>>, now: int,
               stored: bool): (r: Result<(GalleryStore, Gallery)>)
    ensures !stored <==> r.Err?
    ensures r.Err? ==> r == Fail(BadRequest, "Could not upload gallery")
    ensures r.Ok? ==> r.value.0.Keys == store.Keys + {event}
    ensures r.Ok? ==> r.value.0[event] == r.value.1 && r.value.1.event == event && r.value.1.updatedAt == now
    ensures r.Ok? && event in store ==>
      var prior := store[event];
      && r.value.1.images == prior.images + (if images.Some? then images.value else [])
      && r.value.1.uploadedBy == prior.uploadedBy
      && r.value.1.createdAt == prior.createdAt
    ensures r.Ok? && event !in store ==>
      && r.value.1.images == (if images.Some? then images.value else [])
      && r.value.1.uploadedBy == caller
      && r.value.1.createdAt == now
    ensures r.Ok? ==> forall e :: e in store && e != event ==> r.value.0[e] == store[e]
  {
    if !stored then Fail(BadRequest, "Could not upload gallery")
    else
      var added := if images.Some? then images.value else [];
      var g :=
        if event in store then
          var prior := store[event];
          Gallery(event, prior.images + added, prior.uploadedBy, prior.createdAt, now)
        else Gallery(event, added, caller, now, now);
      Ok((store[event := g], g))
  }

  /** The upsert keeps every gallery under its own event. */
  lemma AddKeepsWellKeyed(store: GalleryStore, caller: UserId, event: EventId, images: Option<seq<Image>>,
                          now: int)
    requires WellKeyed(store)
    ensures WellKeyed(Add(store, caller, event, images, now, true).value.0)
  {
  }

  /**
   Two uploads to the same event land in one gallery: the images of both, in
   order, credited to whoever uploaded first.
   */
  lemma UploadsAccumulate(store: GalleryStore, event: EventId, u1: UserId, u2: UserId,
                          a: seq<Image>, b: seq<Image>, t1: int, t2: int)
    requires event !in store
    ensures var first := Add(store, u1, event, Some(a), t1, true).value;
      var second := Add(first.0, u2, event, Some(b), t2, true).value;
      && second.0.Keys == store.Keys + {event}
      && second.1.images == a + b
      && second.1.uploadedBy == u1
  {
  }

  /** An upload without images leaves an existing gallery's images as they were. */
  lemma EmptyUploadKeepsImages(store: GalleryStore, caller: UserId, event: EventId, now: int)
    requires event in store
    ensures Add(store, caller, event, None, now, true).value.1.images == store[event].images
  {
  }

  /** The events whose gallery `getGallery` returns: the one asked for, or all. */
  function Selected(store: GalleryStore, event: Option<EventId>): (r: set<EventId>)
    ensures forall e :: e in r <==> e in store && (event.None? || e == event.value)
    ensures event.Some? ==> r <= {event.value}
  {
    set e | e in store && (event.None? || e == event.value)
  }

  function NewestKey(g: Gallery): int
  {
    -g.createdAt
  }

  /**
   The galleries stored under `keys`, one per key, gathered one key at a
   time in whatever order the store yields them.
   */
  method Collect(store: GalleryStore, keys: set<EventId>) returns (found: seq<Gallery>)
    requires keys <= store.Keys
    ensures |found| == |keys|
    ensures forall g :: g in found <==> exists e :: e in keys && store[e] == g
  {
    var todo := keys;
    found := [];
    ghost var done: set<EventId> := {};
    while todo != {}
      invariant done !! todo && done + todo == keys
      invariant |found| == |done|
      invariant forall g :: g in found <==> exists e :: e in done && store[e] == g
      decreases |todo|
    {
      var e :| e in todo;
      found := found + [store[e]];
      done := done + {e};
      todo := todo - {e};
    }
    assert done == keys;
  }

  /**
   `getGallery`: the galleries of the selected events, newest first.
   */
  method GetGallery(store: GalleryStore, event: Option<EventId>) returns (r: seq<Gallery>)
    ensures forall i, j :: 0 <= i < j < |r| ==> r[i].createdAt >= r[j].createdAt
    ensures forall g :: g in r <==> exists e :: e in Selected(store, event) && store[e] == g
    ensures |r| == |Selected(store, event)|
    ensures event.Some? ==> |r| <= 1
  {
    var found := Collect(store, Selected(store, event));
    r := SortBy(found, NewestKey);
    SortByMembers(found, NewestKey);
    assert forall i, j :: 0 <= i < j < |r| ==> NewestKey(r[i]) <= NewestKey(r[j]);
    if event.Some? {
      SubsetSize(Selected(store, event), {event.value});
    }
  }

  /** After an upload, the event's gallery is the one `getGallery` returns for it. */
  method UploadThenGet(store: GalleryStore, caller: UserId, event: EventId, images: seq<Image>, now: int)
    returns (r: seq<Gallery>)
    ensures |r| == 1
    ensures r[0].event == event
    ensures |r[0].images| >= |images|
    ensures r[0].images[|r[0].images| - |images|..] == images
  {
    var added := Add(store, caller, event, Some(images), now, true).value;
    r := GetGallery(added.0, Some(event));
    assert Selected(added.0, Some(event)) == {event};
    assert r[0] in r;
    assert r[0] == added.1;
  }
}

=== FILE: membership.dfy ===
/**
 The membership invariant the club workflow keeps: members are listed once,
 the owner is a member, a user has at most one pending request per club and
 never one while a member, every approved request's user is a member, no
 request is ever rejected, request ids are distinct within a club, and a
 member's account lists the club among its joined clubs.
 */
module Membership {
  import opened Common
  import opened Seqs
  import Users
  import N = Notifications
  import opened Clubs

  ghost predicate ClubInv(c: Club)
  {
    var reqs := c.joinRequests;
    && NoDup(c.members)
    && c.owner in c.members
    && (forall i :: 0 <= i < |reqs| && reqs[i].status == Pending ==> reqs[i].user !in c.members)
    && (forall i, j :: 0 <= i < j < |reqs| && reqs[i].status == Pending && reqs[j].status == Pending ==>
          reqs[i].user != reqs[j].user)
    && (forall i :: 0 <= i < |reqs| && reqs[i].status == Approved ==> reqs[i].user in c.members)
    && (forall i :: 0 <= i < |reqs| ==> reqs[i].status != Rejected)
    && (forall i, j :: 0 <= i < j < |reqs| ==> reqs[i].id != reqs[j].id)
  }

  /** Every member of a club whose account exists lists that club among its joined clubs. */
  ghost predicate BackReferences(users: Users.UserStore, clubs: ClubStore)
  {
    forall id, u :: id in clubs && u in clubs[id].members && u in users ==> id in users[u].joinedClubs
  }

  ghost predicate WorldInv(w: World)
  {
    && ClubsInv(w.clubs)
    && BackReferences(w.users, w.clubs)
  }

  /** The empty database satisfies the invariant. */
  lemma EmptyWorldInv(log: N.Log)
    ensures WorldInv(World(map[], map[], log))
  {
  }

  lemma {:induction false} CreateClubKeepsInv(w: World, caller: UserId, input: ClubInput)
    requires WorldInv(w)
    requires CreateClub(w, caller, input).Ok?
    ensures WorldInv(CreateClub(w, caller, input).value.0)
  {
    var id := FreshId(w.clubs.Keys);
    var club := Club(id, input.name.value, input.description, input.collegeName.value,
                     input.address.value, caller, input.logoUrl, [caller], []);
    var users' := if caller in w.users then w.users[caller := Promote(w.users[caller], id)] else w.users;
    var w' := w.(clubs := w.clubs[id := club], users := users');
    assert CreateClub(w, caller, input).value.0 == w';
    NewClubKeepsBackReferences(w.users, w.clubs, caller, club, users');
    NewClubInv(club);
    AddClubKeepsClubInvs(w.clubs, club);
  }

  /** A club with its owner as only member and no requests satisfies the invariant. */
  lemma NewClubInv(c: Club)
    requires c.members == [c.owner] && c.joinRequests == []
    ensures ClubInv(c)
  {
  }

  ghost predicate ClubsInv(clubs: ClubStore)
  {
    forall id :: id in clubs ==> clubs[id].id == id && ClubInv(clubs[id])
  }

  /** Adding or replacing a club that keeps its own invariant, under its own id, keeps the store's. */
  lemma AddClubKeepsClubInvs(clubs: ClubStore, club: Club)
    requires ClubsInv(clubs) && ClubInv(club)
    ensures ClubsInv(clubs[club.id := club])
  {
  }

  /** Adding a club whose only member is its creator, and recording it on the creator's account. */
  lemma NewClubKeepsBackReferences(users: Users.UserStore, clubs: ClubStore, caller: UserId, club: Club,
                                   users': Users.UserStore)
    requires BackReferences(users, clubs)
    requires club.id !in clubs && club.members == [caller]
    requires users'.Keys == users.Keys
    requires forall u :: u in users && u != caller ==> users'[u] == users[u]
    requires caller in users ==> users'[caller].joinedClubs == users[caller].joinedClubs + {club.id}
    ensures BackReferences(users', clubs[club.id := club])
  {
  }

  /**
   `register` keeps the invariant when the new id avoids every member id,
   as an ObjectId never repeats one: the new account is nobody's member.
   */
  lemma RegisterKeepsInv(w: World, body: Users.RegisterBody, hash: string -> string, referenced: set<UserId>)
    requires WorldInv(w)
    requires MemberIds(w.clubs) <= referenced
    ensures var r := Users.Register(w.users, body, hash, referenced);
      r.Ok? ==> WorldInv(w.(users := r.value.0))
  {
  }

  /** Appending a fresh pending request of a non-member without one keeps a club's invariant. */
  lemma AppendRequestKeepsClubInv(c: Club, q: JoinRequest)
    requires ClubInv(c)
    requires q.status == Pending && q.user !in c.members && !HasPending(c.joinRequests, q.user)
    requires q.id !in RequestIds(c.joinRequests)
    ensures ClubInv(c.(joinRequests := c.joinRequests + [q]))
  {
    var reqs, n := c.joinRequests, |c.joinRequests|;
    var reqs' := reqs + [q];
    assert forall i :: 0 <= i < n ==> reqs'[i] == reqs[i];
    assert reqs'[n] == q;
    forall i, j | 0 <= i < j < |reqs'|
      ensures reqs'[i].id != reqs'[j].id
      ensures reqs'[i].status == Pending && reqs'[j].status == Pending ==> reqs'[i].user != reqs'[j].user
    {
      if j == n {
        assert reqs[i] in reqs;
      }
    }
  }

  /** Approving a pending request: its user is appended to the members, and the invariant holds. */
  lemma ApproveRequestKeepsClubInv(c: Club, k: nat)
    requires ClubInv(c)
    requires k < |c.joinRequests| && c.joinRequests[k].status == Pending
    ensures var q := c.joinRequests[k];
      ClubInv(c.(joinRequests := c.joinRequests[k := q.(status := Approved)], members := c.members + [q.user]))
  {
    var q := c.joinRequests[k];
    var reqs' := c.joinRequests[k := q.(status := Approved)];
    var members' := c.members + [q.user];
    assert q.user !in c.members;
    NoDupAppend(c.members, q.user);
    forall i | 0 <= i < |reqs'| && reqs'[i].status == Pending
      ensures reqs'[i].user !in members'
    {
      assert i != k;
      assert c.joinRequests[i].status == Pending;
    }
  }

  /** Replacing a club by one with the same members keeps the back-references. */
  lemma SameMembersKeepBackReferences(users: Users.UserStore, clubs: ClubStore, c: Club)
    requires BackReferences(users, clubs)
    requires c.id in clubs && clubs[c.id].members == c.members
    ensures BackReferences(users, clubs[c.id := c])
  {
  }

  /** Adding a member to a club and the club to that member's account keeps the back-references. */
  lemma NewMemberKeepsBackReferences(users: Users.UserStore, clubs: ClubStore, c: Club, u: UserId)
    requires BackReferences(users, clubs)
    requires c.id in clubs && c.members == clubs[c.id].members + [u]
    ensures BackReferences(AddJoined(users, u, c.id), clubs[c.id := c])
  {
    var users' := AddJoined(users, u, c.id);
    var clubs' := clubs[c.id := c];
    forall cid, v | cid in clubs' && v in clubs'[cid].members && v in users'
      ensures cid in users'[v].joinedClubs
    {
      assert v in users;
      if cid != c.id || v != u {
        if cid == c.id {
          assert v in clubs[c.id].members;
        }
        assert cid in users[v].joinedClubs;
      }
    }
  }

  lemma {:induction false} JoinClubKeepsInv(w: World, caller: UserId, clubId: ClubId, now: int, delivered: bool)
    requires WorldInv(w)
    requires JoinClub(w, caller, clubId, now, delivered).Ok?
    ensures WorldInv(JoinClub(w, caller, clubId, now, delivered).value)
  {
    var w' := JoinClub(w, caller, clubId, now, delivered).value;
    var c, c' := w.clubs[clubId], w'.clubs[clubId];
    var n := |c.joinRequests|;
    var q := c'.joinRequests[n];
    assert c'.joinRequests == c.joinRequests + [q] by {
      assert c'.joinRequests == c'.joinRequests[..n] + [q];
    }
    AppendRequestKeepsClubInv(c, q);
    AddClubKeepsClubInvs(w.clubs, c');
    SameMembersKeepBackReferences(w.users, w.clubs, c');
  }

  lemma {:induction false} ApproveKeepsInv(w: World, caller: UserId, clubId: ClubId, reqId: RequestId,
                                           decision: Option<string>, now: int, delivered: bool)
    requires WorldInv(w)
    requires Approve(w, caller, clubId, reqId, decision, now, delivered).Ok?
    ensures WorldInv(Approve(w, caller, clubId, reqId, decision, now, delivered).value)
  {
    var w' := Approve(w, caller, clubId, reqId, decision, now, delivered).value;
    var c := w.clubs[clubId];
    var k := FindRequest(c.joinRequests, reqId).value;
    var q := c.joinRequests[k];
    var c' := c.(joinRequests := c.joinRequests[k := q.(status := Approved)], members := c.members + [q.user]);
    assert w'.clubs == w.clubs[clubId := c'] && w'.users == AddJoined(w.users, q.user, clubId);
    ApproveRequestKeepsClubInv(c, k);
    AddClubKeepsClubInvs(w.clubs, c');
    NewMemberKeepsBackReferences(w.users, w.clubs, c', q.user);
  }

  /** A profile update never touches clubs or the joined-club lists. */
  lemma {:induction false} UpdateProfileKeepsInv(w: World, caller: UserId, body: Users.ProfileBody)
    requires WorldInv(w)
    requires Users.UpdateProfile(w.users, caller, body).Ok?
    ensures WorldInv(w.(users := Users.UpdateProfile(w.users, caller, body).value.0))
  {
    var users' := Users.UpdateProfile(w.users, caller, body).value.0;
    forall cid, u | cid in w.clubs && u in w.clubs[cid].members && u in users'
      ensures cid in users'[u].joinedClubs
    {
      assert u in w.users;
      assert cid in w.users[u].joinedClubs;
    }
  }

  /**
   Under the invariant, a pending request belongs to a non-member, and its
   approval makes that user a member listed exactly once.
   */
  lemma ApprovedUserIsMemberOnce(w: World, caller: UserId, clubId: ClubId, reqId: RequestId,
                                 decision: Option<string>, now: int, delivered: bool)
    requires WorldInv(w)
    requires Approve(w, caller, clubId, reqId, decision, now, delivered).Ok?
    ensures var w' := Approve(w, caller, clubId, reqId, decision, now, delivered).value;
      var k := FindRequest(w.clubs[clubId].joinRequests, reqId).value;
      var u := w.clubs[clubId].joinRequests[k].user;
      && u !in w.clubs[clubId].members
      && u in w'.clubs[clubId].members
      && NoDup(w'.clubs[clubId].members)
  {
    ApproveKeepsInv(w, caller, clubId, reqId, decision, now, delivered);
  }
}

=== FILE: notifications.dfy ===
/**
 The notification collection: the record, the best-effort append the club
 workflow performs, the caller's newest-first listing and `markRead`.
 */
module Notifications {
  import opened Common
  import opened Seqs

  datatype Kind = JoinRequestNote | JoinApprovedNote

  function KindName(k: Kind): string
  {
    match k
    case JoinRequestNote => "join_request"
    case JoinApprovedNote => "join_approved"
  }

  /** The free-form `meta` object, with the keys the club workflow writes. */
  datatype Meta = Meta(clubId: ClubId, requesterId: Option<UserId>)

  datatype Notification = Notification(
    id: NotificationId,
    user: UserId,
    kind: Kind,
    message: string,
    meta: Meta,
    read: bool,
    createdAt: int)

  /** The collection in insertion order. */
  type Log = seq<Notification>

  function Ids(log: Log): set<NotificationId>
  {
    set n | n in log :: n.id
  }

  /**
   `Notification.create` inside `try { } catch {}`: when the write goes
   through (`delivered`) one unread notification is appended under a fresh
   id; when it fails nothing is written and the caller carries on.
   */
  function Post(log: Log, user: UserId, kind: Kind, message: string, meta: Meta,
                now: int, delivered: bool): (r: Log)
    ensures !delivered ==> r == log
    ensures delivered ==> |r| == |log| + 1 && r[..|log|] == log
    ensures delivered ==> var n := r[|log|];
      n.id !in Ids(log) && n.user == user && n.kind == kind && n.message == message
      && n.meta == meta && !n.read && n.createdAt == now
  {
    if delivered then log + [Notification(FreshId(Ids(log)), user, kind, message, meta, false, now)]
    else log
  }

  predicate Mine(n: Notification, caller: UserId)
  {
    n.user == caller
  }

  /** The filter `{ user: caller }`. */
  function MineOf(caller: UserId): Notification -> bool
  {
    n => Mine(n, caller)
  }

  function NewestFirst(n: Notification): int
  {
    -n.createdAt
  }

  /**
   `listMyNotifications`: the caller's notifications, newest first, at most
   100 of them.
   */
  function ListMine(log: Log, caller: UserId): (r: seq<Notification>)
    ensures forall i :: 0 <= i < |r| ==> r[i] in log && r[i].user == caller
    ensures TopBy(Filter(log, MineOf(caller)), NewestFirst, 100, r)
    ensures forall i, j :: 0 <= i < j < |r| ==> r[i].createdAt >= r[j].createdAt
  {
    var mine := Filter(log, MineOf(caller));
    var r := TopByKey(mine, NewestFirst, 100);
    TopByMembers(mine, NewestFirst, 100, r);
    assert forall i, j :: 0 <= i < j < |r| ==> NewestFirst(r[i]) <= NewestFirst(r[j]);
    r
  }

  /** Index of the first notification with id `id` that belongs to `caller`. */
  function FindOwned(log: Log, caller: UserId, id: NotificationId): (r: Option<nat>)
    ensures r.None? <==> forall i :: 0 <= i < |log| ==> !(log[i].id == id && log[i].user == caller)
    ensures r.Some? ==> r.value < |log| && log[r.value].id == id && log[r.value].user == caller
    ensures r.Some? ==> forall i :: 0 <= i < r.value ==> !(log[i].id == id && log[i].user == caller)
  {
    if log == [] then None
    else if log[0].id == id && log[0].user == caller then Some(0)
    else
      var t := FindOwned(log[1..], caller, id);
      if t.None? then None else Some(t.value + 1)
  }

  /**
   `markRead`: 404 unless a notification with that id belongs to the caller;
   otherwise that notification is marked read and no other changes.
   */
  function MarkRead(log: Log, caller: UserId, id: NotificationId): (r: Result<Log>)
    ensures r.Err? <==> forall i :: 0 <= i < |log| ==> !(log[i].id == id && log[i].user == caller)
    ensures r.Err? ==> r == Fail(NotFound, "Not found")
    ensures r.Ok? ==> |r.value| == |log|
    ensures r.Ok? ==> exists k :: (0 <= k < |log| && log[k].id == id && log[k].user == caller
      && r.value[k] == log[k].(read := true)
      && forall i :: 0 <= i < |log| && i != k ==> r.value[i] == log[i])
  {
    match FindOwned(log, caller, id)
    case None => Fail(NotFound, "Not found")
    case Some(k) => Ok(log[k := log[k].(read := true)])
  }

  /** Marking a notification read twice is the same as marking it once. */
  lemma MarkReadIdempotent(log: Log, caller: UserId, id: NotificationId)
    requires MarkRead(log, caller, id).Ok?
    ensures MarkRead(MarkRead(log, caller, id).value, caller, id) == MarkRead(log, caller, id)
  {
    var k := FindOwned(log, caller, id).value;
    var log' := log[k := log[k].(read := true)];
    assert forall i :: 0 <= i < |log| ==> (log'[i].id == log[i].id && log'[i].user == log[i].user);
    assert FindOwned(log', caller, id) == Some(k) by {
      FindOwnedSameKeys(log, log', caller, id);
    }
    assert log'[k := log'[k].(read := true)] == log';
  }

  /** The lookup only depends on the ids and owners of the notifications. */
  lemma {:induction false} FindOwnedSameKeys(a: Log, b: Log, caller: UserId, id: NotificationId)
    requires |a| == |b|
    requires forall i :: 0 <= i < |a| ==> a[i].id == b[i].id && a[i].user == b[i].user
    ensures FindOwned(a, caller, id) == FindOwned(b, caller, id)
    decreases |a|
  {
    if a != [] {
      FindOwnedSameKeys(a[1..], b[1..], caller, id);
    }
  }
}

=== FILE: onboarding.dfy ===
/**
 The onboarding gate on the client: the route guards and the route table of
 the application shell, the navigation bar rule, the admin's join-request
 panel, role selection and the profile-completion form. The client steps take
 the server's answer to their request as a parameter; the lemmas connect them
 to the server's `updateProfile`.
 */
module Onboarding {
  import opened Common
  import opened Text
  import opened Seqs
  import opened Users
  import opened Clubs
  import Membership

  const RootPath := "/"
  const LoginPath := "/login"
  const RolePath := "/onboarding/role"
  const UserProfilePath := "/onboarding/user-profile"
  const CreateClubPath := "/onboarding/create-club"

  /** What a guard decides: render its page, or navigate elsewhere. */
  datatype Decision = Render | Redirect(to: string)

  /**
   `PrivateRoute`: signed-out visitors go to the login page; a signed-in user
   whose profile is INCOMPLETE goes to role selection unless already there,
   whatever the role; everyone else sees the page.
   */
  function PrivateRoute(user: Option<User>, path: string): (d: Decision)
    ensures user.None? <==> d == Redirect(LoginPath)
    ensures d == Redirect(RolePath) <==> user.Some? && user.value.profileStatus == Incomplete && path != RolePath
    ensures d == Render <==> user.Some? && (user.value.profileStatus != Incomplete || path == RolePath)
  {
    if user.None? then Redirect(LoginPath)
    else if user.value.profileStatus == Incomplete && path != RolePath then Redirect(RolePath)
    else Render
  }

  /** `OnboardingRoute`: only a signed-in user is required, whatever the profile status. */
  function OnboardingRoute(user: Option<User>): (d: Decision)
    ensures d == Render <==> user.Some?
    ensures d.Redirect? ==> d.to == LoginPath
  {
    if user.None? then Redirect(LoginPath) else Render
  }

  datatype Page =
    | LandingPage | DashboardPage | LoginPage
    | RoleSelectionPage | UserProfileFormPage | CreateClubFormPage
    | ClubsPage | EventPage | AdminPage | ProfilePage | GalleryPage

  /** The pages only a completed account may see. */
  predicate IsPrivatePage(p: Page)
  {
    p in {DashboardPage, ClubsPage, EventPage, AdminPage, ProfilePage, GalleryPage}
  }

  datatype Guard = Unguarded | OnboardingGuard | PrivateGuard

  /** One non-empty path segment, as `:id` matches it. */
  predicate IsSegment(s: string)
  {
    s != [] && '/' !in s
  }

  const EventsPrefix := "/events/"
  const GallerySuffix := "/gallery"

  /**
   The route table apart from `/`, whose element depends on the user. The
   path is compared without case, as React Router compiles its patterns.
   */
  function RouteOf(path: string): (r: Option<(Guard, Page)>)
    ensures r.Some? && r.value.0 == Unguarded ==> SameIgnoringCase(path, LoginPath) && r.value.1 == LoginPage
    ensures r.Some? && r.value.0 == OnboardingGuard <==>
      (SameIgnoringCase(path, RolePath) || SameIgnoringCase(path, UserProfilePath)
       || SameIgnoringCase(path, CreateClubPath))
    ensures r.Some? && r.value.0 == PrivateGuard ==> IsPrivatePage(r.value.1)
    ensures r.Some? && r.value.0 != PrivateGuard ==> !IsPrivatePage(r.value.1)
  {
    if SameIgnoringCase(path, LoginPath) then Some((Unguarded, LoginPage))
    else if SameIgnoringCase(path, RolePath) then Some((OnboardingGuard, RoleSelectionPage))
    else if SameIgnoringCase(path, UserProfilePath) then Some((OnboardingGuard, UserProfileFormPage))
    else if SameIgnoringCase(path, CreateClubPath) then Some((OnboardingGuard, CreateClubFormPage))
    else if SameIgnoringCase(path, "/dashboard") then Some((PrivateGuard, DashboardPage))
    else if SameIgnoringCase(path, "/clubs") then Some((PrivateGuard, ClubsPage))
    else if SameIgnoringCase(path, "/admin") then Some((PrivateGuard, AdminPage))
    else if SameIgnoringCase(path, "/profile") then Some((PrivateGuard, ProfilePage))
    else if EventPath(path) then Some((PrivateGuard, EventPage))
    else if GalleryPath(path) then Some((PrivateGuard, GalleryPage))
    else None
  }

  /** The path matches `/events/:id`. */
  predicate EventPath(path: string)
  {
    var e := |EventsPrefix|;
    |path| >= e && SameIgnoringCase(path[..e], EventsPrefix) && IsSegment(path[e..])
  }

  /** The path matches `/events/:id/gallery`. */
  predicate GalleryPath(path: string)
  {
    var n, e, g := |path|, |EventsPrefix|, |GallerySuffix|;
    n > e + g && SameIgnoringCase(path[..e], EventsPrefix) && SameIgnoringCase(path[n - g..], GallerySuffix)
    && IsSegment(path[e..n - g])
  }

  /** The path without its trailing slashes. */
  function StripTrailingSlashes(path: string): (r: string)
    ensures |r| <= |path| && r == path[..|r|]
    ensures r == [] || r[|r| - 1] != '/'
    ensures forall i :: |r| <= i < |path| ==> path[i] == '/'
  {
    if path == [] || path[|path| - 1] != '/' then path else StripTrailingSlashes(path[..|path| - 1])
  }

  /** Two paths React Router does not tell apart by case: its patterns are compiled with the `i` flag. */
  predicate SameIgnoringCase(a: string, b: string)
  {
    |a| == |b| && forall i :: 0 <= i < |a| ==> LowerChar(a[i]) == LowerChar(b[i])
  }

  /** What the shell shows at a path: a page, a navigation, or nothing (no route matches). */
  datatype Screen = Show(page: Page) | Goto(to: string) | NoMatch

  function Guarded(d: Decision, p: Page): Screen
  {
    match d
    case Render => Show(p)
    case Redirect(to) => Goto(to)
  }

  /**
   The screen for `path`, matched without its trailing slashes: a path of
   slashes only is `/`, which is Landing when signed out and the guarded
   Dashboard otherwise. `PrivateRoute` itself compares the path as it is.
   */
  function Resolve(user: Option<User>, path: string): (s: Screen)
    ensures StripTrailingSlashes(path) == [] && user.None? ==> s == Show(LandingPage)
    ensures StripTrailingSlashes(path) == [] && user.Some? ==> s == Guarded(PrivateRoute(user, path), DashboardPage)
  {
    var p := StripTrailingSlashes(path);
    if p == [] then
      if user.None? then Show(LandingPage) else Guarded(PrivateRoute(user, path), DashboardPage)
    else
      match RouteOf(p)
      case None => NoMatch
      case Some((guard, page)) =>
        match guard
        case Unguarded => Show(page)
        case OnboardingGuard => Guarded(OnboardingRoute(user), page)
        case PrivateGuard => Guarded(PrivateRoute(user, path), page)
  }

  /** An INCOMPLETE account never sees a private page: every private route sends it to role selection. */
  lemma IncompleteNeverSeesPrivatePage(u: User, path: string)
    requires u.profileStatus == Incomplete
    ensures Resolve(Some(u), path).Show? ==> !IsPrivatePage(Resolve(Some(u), path).page)
    ensures Resolve(Some(u), path).Goto? ==> Resolve(Some(u), path).to == RolePath
  {
  }

  /** The redirect target itself renders, so the redirect cannot loop. */
  lemma RoleSelectionAlwaysRenders(u: User)
    ensures Resolve(Some(u), RolePath) == Show(RoleSelectionPage)
  {
  }

  /** A completed account is never redirected. */
  lemma CompleteNeverRedirected(u: User, path: string)
    requires u.profileStatus == Complete
    ensures !Resolve(Some(u), path).Goto?
  {
  }

  /** Signed out, only the landing and login pages are shown; every guarded route goes to login. */
  lemma SignedOutSeesOnlyPublicPages(path: string)
    ensures Resolve(None, path).Show? ==> Resolve(None, path).page in {LandingPage, LoginPage}
    ensures Resolve(None, path).Goto? ==> Resolve(None, path).to == LoginPath
  {
  }

  /** The navigation bar is hidden on onboarding pages, on the login page, and on `/` when signed out. */
  function NavHidden(user: Option<User>, path: string): (r: bool)
    ensures StartsWith(path, "/onboarding") ==> r
    ensures path == LoginPath ==> r
    ensures user.None? && path == RootPath ==> r
    ensures r ==> StartsWith(path, "/onboarding") || path == LoginPath || (user.None? && path == RootPath)
  {
    StartsWith(path, "/onboarding") || path == LoginPath || (user.None? && path == RootPath)
  }

  /** Trailing slashes are stripped from the end, never from before the last other character. */
  lemma StripKeepsPrefix(path: string, k: nat)
    requires k <= |path| && k > 0 && path[k - 1] != '/'
    ensures k <= |StripTrailingSlashes(path)|
  {
  }

  /** The navigation bar is shown on every private page the shell renders. */
  lemma NavShownOnPrivatePages(user: Option<User>, path: string)
    requires Resolve(user, path).Show? && IsPrivatePage(Resolve(user, path).page)
    ensures !NavHidden(user, path)
  {
    StripKeepsOnboarding(path);
    OnboardingPrefixNotPrivate(StripTrailingSlashes(path));
  }

  lemma StripKeepsOnboarding(path: string)
    ensures StartsWith(path, "/onboarding") ==>
      |StripTrailingSlashes(path)| >= 11 && StripTrailingSlashes(path)[1] == 'o'
  {
    if StartsWith(path, "/onboarding") {
      StripKeepsPrefix(path, 11);
    }
  }

  /** No private route begins with "/o". */
  lemma OnboardingPrefixNotPrivate(p: string)
    ensures |p| >= 2 && p[1] == 'o' ==> RouteOf(p).None? || RouteOf(p).value.0 != PrivateGuard
  {
  }

  /** The onboarding pages render for any signed-in user, without the navigation bar. */
  lemma NavHiddenOnOnboardingPages(u: User, path: string)
    requires path == RolePath || path == UserProfilePath || path == CreateClubPath
    ensures Resolve(Some(u), path).Show? && !IsPrivatePage(Resolve(Some(u), path).page)
    ensures NavHidden(Some(u), path)
  {
    assert path[..11] == "/onboarding";
  }

  /** A trailing slash reaches the same screen. */
  lemma TrailingSlashIgnored(user: Option<User>, path: string)
    ensures Resolve(user, path + "/") == Resolve(user, path)
  {
    var q := path + "/";
    assert q[..|path|] == path;
    assert StripTrailingSlashes(q) == StripTrailingSlashes(path);
    assert q != RolePath;
  }

  /** Lower-casing never makes a slash, nor removes one. */
  lemma SlashHasNoCase(c: char, d: char)
    requires LowerChar(c) == LowerChar(d)
    ensures c == '/' <==> d == '/'
  {
  }

  lemma {:induction false} StripSameCase(a: string, b: string)
    requires SameIgnoringCase(a, b)
    ensures SameIgnoringCase(StripTrailingSlashes(a), StripTrailingSlashes(b))
    decreases |a|
  {
    if a != [] {
      var n := |a|;
      SlashHasNoCase(a[n - 1], b[n - 1]);
      if a[n - 1] == '/' {
        StripSameCase(a[..n - 1], b[..n - 1]);
      }
    }
  }

  lemma SegmentSameCase(a: string, b: string)
    requires SameIgnoringCase(a, b)
    ensures IsSegment(a) <==> IsSegment(b)
  {
    forall i | 0 <= i < |a|
      ensures a[i] == '/' <==> b[i] == '/'
    {
      SlashHasNoCase(a[i], b[i]);
    }
  }

  /** Two paths that differ only in case match the same literal. */
  lemma LiteralSameCase(p: string, q: string, lit: string)
    requires SameIgnoringCase(p, q)
    ensures SameIgnoringCase(p, lit) <==> SameIgnoringCase(q, lit)
  {
  }

  /** The route table cannot tell apart two paths that differ only in case. */
  lemma RouteSameCase(p: string, q: string)
    requires SameIgnoringCase(p, q)
    ensures RouteOf(p) == RouteOf(q)
  {
    LiteralSameCase(p, q, LoginPath);
    LiteralSameCase(p, q, RolePath);
    LiteralSameCase(p, q, UserProfilePath);
    LiteralSameCase(p, q, CreateClubPath);
    LiteralSameCase(p, q, "/dashboard");
    LiteralSameCase(p, q, "/clubs");
    LiteralSameCase(p, q, "/admin");
    LiteralSameCase(p, q, "/profile");
    EventPathSameCase(p, q);
    GalleryPathSameCase(p, q);
  }

  lemma EventPathSameCase(p: string, q: string)
    requires SameIgnoringCase(p, q)
    ensures EventPath(p) <==> EventPath(q)
  {
    var e := |EventsPrefix|;
    if |p| >= e {
      SegmentSameCase(p[e..], q[e..]);
      LiteralSameCase(p[..e], q[..e], EventsPrefix);
    }
  }

  lemma GalleryPathSameCase(p: string, q: string)
    requires SameIgnoringCase(p, q)
    ensures GalleryPath(p) <==> GalleryPath(q)
  {
    var n, e, g := |p|, |EventsPrefix|, |GallerySuffix|;
    if n > e + g {
      SegmentSameCase(p[e..n - g], q[e..n - g]);
      LiteralSameCase(p[..e], q[..e], EventsPrefix);
      LiteralSameCase(p[n - g..], q[n - g..], GallerySuffix);
    }
  }

  /** A path that differs only in case reaches the same screen: "/Clubs" is the Clubs page. */
  lemma CaseIgnored(user: Option<User>, a: string, b: string)
    requires SameIgnoringCase(a, b)
    ensures Resolve(user, a) == Resolve(user, b)
  {
    StripSameCase(a, b);
    RouteSameCase(StripTrailingSlashes(a), StripTrailingSlashes(b));
  }

  // ---------------------------------------------------------------- the admin's request panel

  /** One row of the bell panel: a pending request of a club the admin owns. */
  datatype PanelEntry = PanelEntry(reqId: RequestId, user: UserId, clubId: ClubId, clubName: string)

  function PendingRows(c: Club, reqs: seq<JoinRequest>): (r: seq<PanelEntry>)
    ensures forall e :: e in r <==>
      exists q :: q in reqs && q.status == Pending && e == PanelEntry(q.id, q.user, c.id, c.name)
  {
    if reqs == [] then []
    else
      var rest := PendingRows(c, reqs[1..]);
      assert forall q :: q in reqs <==> q == reqs[0] || q in reqs[1..];
      if reqs[0].status == Pending then [PanelEntry(reqs[0].id, reqs[0].user, c.id, c.name)] + rest else rest
  }

  /** The panel `Layout` loads for `me`: the pending requests of every listed club `me` owns, club by club. */
  function PendingPanel(clubs: seq<Club>, me: UserId): (r: seq<PanelEntry>)
    ensures forall e :: e in r <==>
      exists c, q :: c in clubs && c.owner == me && q in c.joinRequests && q.status == Pending
        && e == PanelEntry(q.id, q.user, c.id, c.name)
  {
    if clubs == [] then []
    else
      var rest := PendingPanel(clubs[1..], me);
      assert forall c :: c in clubs <==> c == clubs[0] || c in clubs[1..];
      if clubs[0].owner == me then PendingRows(clubs[0], clubs[0].joinRequests) + rest else rest
  }

  /**
   `handleRequest`: once the PATCH has answered (`answered`), the decided
   request id leaves the local list whatever the decision; if the PATCH
   throws, the list stays as it was.
   */
  function HandleRequest(requests: seq<PanelEntry>, reqId: RequestId, answered: bool): (r: seq<PanelEntry>)
    ensures !answered ==> r == requests
    ensures answered ==> forall i :: 0 <= i < |r| ==> r[i].reqId != reqId && r[i] in requests
    ensures answered ==> forall i :: 0 <= i < |requests| && requests[i].reqId != reqId ==> requests[i] in r
  {
    if answered then Filter(requests, (e: PanelEntry) => e.reqId != reqId) else requests
  }

  /**
   Accept and Reject on a panel row send the same approval: either decision
   approves the request and makes its user a member.
   */
  lemma PanelDecisionApproves(w: World, clubs: seq<Club>, me: UserId, e: PanelEntry, decision: string,
                              now: int, delivered: bool)
    requires e in PendingPanel(clubs, me)
    requires forall c :: c in clubs ==> c.id in w.clubs && w.clubs[c.id] == c
    requires Membership.WorldInv(w)
    ensures Approve(w, me, e.clubId, e.reqId, Some(decision), now, delivered).Ok?
    ensures e.user in Approve(w, me, e.clubId, e.reqId, Some(decision), now, delivered).value.clubs[e.clubId].members
  {
    var c, q :| c in clubs && c.owner == me && q in c.joinRequests && q.status == Pending
      && e == PanelEntry(q.id, q.user, c.id, c.name);
    var reqs := c.joinRequests;
    var i :| 0 <= i < |reqs| && reqs[i] == q;
    assert Membership.ClubInv(w.clubs[c.id]);
    var k := FindRequest(reqs, q.id);
    assert k == Some(i) by {
      assert forall j :: 0 <= j < |reqs| && j != i ==> reqs[j].id != reqs[i].id;
    }
    assert Approvable(c, q.id);
  }

  // ---------------------------------------------------------------- role selection

  /** What a client step leaves behind: the signed-in user, a navigation, and a message shown. */
  datatype Effect = Effect(session: Option<User>, navigateTo: Option<string>, message: Option<string>)

  /** The JSON the client receives for a `PUT /auth/me`: the updated account, or the error. */
  function Answer(r: Result<(UserStore, Option<User>)>): (a: Result<Option<User>>)
    ensures a.Ok? <==> r.Ok?
    ensures a.Ok? ==> a.value == r.value.1
  {
    match r
    case Ok(v) => Ok(v.1)
    case Err(e) => Err(e)
  }

  const RoleFailedAlert := "Failed to set role. Please try again."

  /** The body `selectRole` sends: the role, with profile status INCOMPLETE. */
  function RolePayload(role: string): (b: ProfileBody)
    ensures RoleGateOpen(b) && b.role == Some(role)
    ensures b.profileStatus == Some("INCOMPLETE")
    ensures b.email.None? && b.password.None? && b.joinedClubs.None?
  {
    EmptyBody.(role := Some(role), profileStatus := Some("INCOMPLETE"))
  }

  /**
   `selectRole` given the answer to its PUT: on failure an alert and nothing
   else; on success the answer becomes the session user and the page moves
   on to the role's form.
   */
  function SelectRole(session: Option<User>, role: string, answer: Result<Option<User>>): (e: Effect)
    ensures answer.Err? ==> e == Effect(session, None, Some(RoleFailedAlert))
    ensures answer.Ok? ==> e.session == answer.value && e.message.None?
    ensures answer.Ok? && role == "user" ==> e.navigateTo == Some(UserProfilePath)
    ensures answer.Ok? && role == "admin" ==> e.navigateTo == Some(CreateClubPath)
    ensures role != "user" && role != "admin" ==> e.navigateTo.None?
  {
    match answer
    case Err(_) => Effect(session, None, Some(RoleFailedAlert))
    case Ok(data) =>
      Effect(data,
             if role == "user" then Some(UserProfilePath)
             else if role == "admin" then Some(CreateClubPath)
             else None,
             None)
  }

  /**
   Against the server, either button succeeds for an existing account: the
   role is set, the profile stays INCOMPLETE, and the next page is that
   role's onboarding form, which renders.
   */
  lemma RoleSelectionSetsRole(users: UserStore, caller: UserId, role: Role)
    requires caller in users
    ensures var r := UpdateProfile(users, caller, RolePayload(RoleName(role)));
      && r.Ok?
      && r.value.0[caller].role == role
      && r.value.0[caller].profileStatus == Incomplete
      && var e := SelectRole(Some(users[caller]), RoleName(role), Answer(r));
         && e.session == Some(r.value.0[caller])
         && e.navigateTo == Some(if role == UserRole then UserProfilePath else CreateClubPath)
         && Resolve(e.session, e.navigateTo.value).Show?
  {
    EnumRoundTrips(role, Incomplete, PreferNotToSay);
  }

  /**
   `OnboardingRoute` lets a completed account back into role selection, and
   the payload there opens the role gate: the role changes and the profile
   returns to INCOMPLETE.
   */
  lemma CompletedAccountCanChangeRole(users: UserStore, caller: UserId, role: Role)
    requires caller in users && users[caller].profileStatus == Complete
    ensures Resolve(Some(users[caller]), RolePath) == Show(RoleSelectionPage)
    ensures var r := UpdateProfile(users, caller, RolePayload(RoleName(role)));
      r.Ok? && r.value.0[caller].role == role && r.value.0[caller].profileStatus == Incomplete
  {
    EnumRoundTrips(role, Incomplete, PreferNotToSay);
  }

  // ---------------------------------------------------------------- profile completion

  /** The form's fields, all strings; the gender select starts at "Prefer not to say". */
  datatype ProfileForm = ProfileForm(
    phone: string, gender: string, college: string, course: string,
    year: string, interests: string, resumeUrl: string, address: string)

  const InitialForm := ProfileForm("", "Prefer not to say", "", "", "", "", "", "")

  /** The gender select only offers the four listed values. */
  predicate FormGenderListed(form: ProfileForm)
  {
    ParseGender(form.gender).Some?
  }

  /** `.map(s => s.trim())`. */
  function TrimAll(parts: seq<string>): (r: seq<string>)
    ensures |r| == |parts|
    ensures forall i :: 0 <= i < |parts| ==> r[i] == Trim(parts[i])
  {
    Map(parts, Trim)
  }

  lemma TrimAllConcat(a: seq<string>, b: seq<string>)
    ensures TrimAll(a + b) == TrimAll(a) + TrimAll(b)
  {
    MapConcat(a, b, Trim);
  }

  function NonEmpty(s: string): bool
  {
    s != []
  }

  /**
   The interests box: the comma-separated pieces, each trimmed, the empty
   ones dropped, in their original order.
   */
  function ParseInterests(s: string): (r: seq<string>)
    ensures forall i :: 0 <= i < |r| ==> r[i] != [] && Trim(r[i]) == r[i] && ',' !in r[i]
    ensures forall k :: 0 <= k < |Split(s, ',')| && Trim(Split(s, ',')[k]) != [] ==> Trim(Split(s, ',')[k]) in r
    ensures forall i :: 0 <= i < |r| ==> r[i] in TrimAll(Split(s, ','))
  {
    var pieces := Split(s, ',');
    var r := Filter(TrimAll(pieces), NonEmpty);
    forall i | 0 <= i < |r|
      ensures Trim(r[i]) == r[i] && ',' !in r[i]
    {
      TrimmedPieceClean(pieces, r[i]);
    }
    r
  }

  /**
   Text without a comma is one piece: its trim, or nothing when it is blank.
   With `InterestsConcat` this fixes the result and its order for any text.
   */
  lemma InterestsOfOnePiece(s: string)
    requires ',' !in s
    ensures ParseInterests(s) == (if Trim(s) == [] then [] else [Trim(s)])
  {
    SplitWithoutSeparator(s, ',');
    assert TrimAll([s]) == [Trim(s)];
  }

  /** A trimmed piece of a comma split is its own trim and holds no comma. */
  lemma TrimmedPieceClean(pieces: seq<string>, p: string)
    requires forall k :: 0 <= k < |pieces| ==> ',' !in pieces[k]
    requires p in TrimAll(pieces)
    ensures Trim(p) == p && ',' !in p
  {
    var k :| 0 <= k < |pieces| && TrimAll(pieces)[k] == p;
    TrimIdempotent(pieces[k]);
    if ',' in p {
      TrimKeepsChars(pieces[k], ',');
    }
  }

  /** A comma splits the interests: the two sides are parsed independently. */
  lemma {:induction false} InterestsConcat(a: string, b: string)
    ensures ParseInterests(a + "," + b) == ParseInterests(a) + ParseInterests(b)
  {
    assert a + "," + b == a + [','] + b;
    SplitConcat(a, b, ',');
    TrimAllConcat(Split(a, ','), Split(b, ','));
    FilterConcat(TrimAll(Split(a, ',')), TrimAll(Split(b, ',')), NonEmpty);
  }

  /**
   The body `handleSubmit` sends: every form field as typed, the parsed
   interests, profile status COMPLETE, and no role.
   */
  function ProfilePayload(form: ProfileForm): (b: ProfileBody)
    ensures b.profileStatus == Some("COMPLETE")
    ensures b.role.None? && !RoleGateOpen(b)
    ensures b.interests == Some(ParseInterests(form.interests))
    ensures b.phone == Some(form.phone) && b.gender == Some(form.gender) && b.college == Some(form.college)
    ensures b.course == Some(form.course) && b.year == Some(form.year)
    ensures b.resumeUrl == Some(form.resumeUrl) && b.address == Some(form.address)
    ensures b.name.None? && b.bio.None? && b.location.None?
    ensures b.avatarUrl.None? && b.logoUrl.None? && b.vendorDocuments.None?
    ensures b.email.None? && b.password.None? && b.joinedClubs.None?
  {
    EmptyBody.(
      phone := Some(form.phone), gender := Some(form.gender), college := Some(form.college),
      course := Some(form.course), year := Some(form.year), interests := Some(ParseInterests(form.interests)),
      resumeUrl := Some(form.resumeUrl), address := Some(form.address),
      profileStatus := Some("COMPLETE"))
  }

  const ProfileFailedMessage := "Failed to update profile. Please try again."

  /** `handleSubmit` given the answer to its PUT: success updates the session and goes to `/`. */
  function SubmitProfile(session: Option<User>, answer: Result<Option<User>>): (e: Effect)
    ensures answer.Err? ==> e == Effect(session, None, Some(ProfileFailedMessage))
    ensures answer.Ok? ==> e == Effect(answer.value, Some(RootPath), None)
  {
    match answer
    case Err(_) => Effect(session, None, Some(ProfileFailedMessage))
    case Ok(data) => Effect(data, Some(RootPath), None)
  }

  /** Against the server, the form's body is accepted and completes the profile without touching the role. */
  lemma ProfileUpdateCompletes(users: UserStore, caller: UserId, form: ProfileForm)
    requires caller in users
    requires FormGenderListed(form)
    ensures var r := UpdateProfile(users, caller, ProfilePayload(form));
      && r.Ok?
      && r.value.1 == Some(r.value.0[caller])
      && r.value.0[caller].profileStatus == Complete
      && r.value.0[caller].role == users[caller].role
      && r.value.0[caller].interests == ParseInterests(form.interests)
  {
    CompletingBodyCompletes(users, caller, ProfilePayload(form));
  }

  /** Any valid body that says COMPLETE and carries no role completes the profile and keeps the role. */
  lemma CompletingBodyCompletes(users: UserStore, caller: UserId, body: ProfileBody)
    requires caller in users
    requires body.profileStatus == Some("COMPLETE") && body.role.None?
    requires body.gender.Some? ==> ParseGender(body.gender.value).Some?
    requires PointStorable(body.location)
    requires body.name.None? || body.name.value != ""
    ensures var r := UpdateProfile(users, caller, body);
      && r.Ok?
      && r.value.1 == Some(r.value.0[caller])
      && r.value.0[caller].profileStatus == Complete
      && r.value.0[caller].role == users[caller].role
      && (body.interests.Some? ==> r.value.0[caller].interests == body.interests.value)
  {
    assert UpdateValid(body);
    var u' := UpdateProfile(users, caller, body).value.0[caller];
    assert StatusName(u'.profileStatus) == "COMPLETE";
  }

  /**
   After a successful submission the session holds the completed account,
   the page goes to `/`, which shows the Dashboard, and no route redirects.
   */
  lemma ProfileFormCompletes(users: UserStore, caller: UserId, form: ProfileForm, path: string)
    requires caller in users
    requires FormGenderListed(form)
    ensures var r := UpdateProfile(users, caller, ProfilePayload(form));
      var e := SubmitProfile(Some(users[caller]), Answer(r));
      && e.navigateTo == Some(RootPath)
      && e.session == Some(r.value.0[caller])
      && !Resolve(e.session, path).Goto?
      && Resolve(e.session, RootPath) == Show(DashboardPage)
  {
    ProfileUpdateCompletes(users, caller, form);
    var r := UpdateProfile(users, caller, ProfilePayload(form));
    var u' := r.value.0[caller];
    assert Answer(r) == Ok(Some(u'));
    CompleteNeverRedirected(u', path);
    CompleteSeesDashboard(u');
  }

  /** A completed account sees the Dashboard at `/`. */
  lemma CompleteSeesDashboard(u: User)
    requires u.profileStatus == Complete
    ensures Resolve(Some(u), RootPath) == Show(DashboardPage)
  {
    assert StripTrailingSlashes(RootPath) == [];
  }

  /** The initial form is accepted as it stands. */
  lemma InitialFormListed()
    ensures FormGenderListed(InitialForm)
  {
  }
}

=== FILE: rsvp.dfy ===
/**
 The RSVP collection: one record per (user, event) pair, guaranteed by the
 unique compound index, written by an upsert that overwrites the status,
 cancelled in place, and listed per user.
 */
module Rsvps {
  import opened Common

  /** The unique index `{ user: 1, event: 1 }`. */
  datatype Pair = Pair(user: UserId, event: EventId)

  /**
   A record. The schema lists `going` and `cancelled`, but the upsert runs no
   validators, so any string the client sends is what gets stored.
   */
  datatype Rsvp = Rsvp(user: UserId, event: EventId, status: string, createdAt: int, updatedAt: int)

  /** The collection, keyed by its unique index. */
  type RsvpStore = map<Pair, Rsvp>

  const Going: string := "going"
  const Cancelled: string := "cancelled"

  /** Every record sits under the pair it is about. */
  predicate WellKeyed(store: RsvpStore)
  {
    forall p :: p in store ==> store[p].user == p.user && store[p].event == p.event
  }

  /** The status written by an RSVP: the one sent, or `going` when it is absent or empty. */
  function StatusOr(status: Option<string>): (r: string)
    ensures Given(status) ==> r == status.value
    ensures !Given(status) ==> r == Going
  {
    if Given(status) then status.value else Going
  }

  /**
   `createOrUpdateRSVP`: insert or overwrite the caller's record for the event
   and answer with it. `stored` is false when the database refuses the write
   (an event id that does not cast, say), which answers 400.
   */
  function Upsert(store: RsvpStore, caller: UserId, event: EventId, status: Option<string>, now: int,
                  stored: bool): (r: Result<(RsvpStore, Rsvp)>)
    ensures !stored <==> r.Err?
    ensures r.Err? ==> r == Fail(BadRequest, "Could not RSVP")
    ensures r.Ok? ==> r.value.0.Keys == store.Keys + {Pair(caller, event)}
    ensures r.Ok? ==> r.value.0[Pair(caller, event)] == r.value.1
    ensures r.Ok? ==> var x := r.value.1;
      x.user == caller && x.event == event && x.status == StatusOr(status) && x.updatedAt == now
    ensures r.Ok? && Pair(caller, event) in store ==> r.value.1.createdAt == store[Pair(caller, event)].createdAt
    ensures r.Ok? && Pair(caller, event) !in store ==> r.value.1.createdAt == now
    ensures r.Ok? ==> forall p :: p in store && p != Pair(caller, event) ==> r.value.0[p] == store[p]
  {
    if !stored then Fail(BadRequest, "Could not RSVP")
    else
      var key := Pair(caller, event);
      var created := if key in store then store[key].createdAt else now;
      var x := Rsvp(caller, event, StatusOr(status), created, now);
      Ok((store[key := x], x))
  }

  /**
   `cancelRSVP`: the caller's record for the event, when there is one, is set
   to `cancelled`; no record is ever created. The answer is always `{ ok: true }`.
   */
  function Cancel(store: RsvpStore, caller: UserId, event: EventId, now: int): (r: RsvpStore)
    ensures r.Keys == store.Keys
    ensures Pair(caller, event) !in store ==> r == store
    ensures Pair(caller, event) in store ==>
      r[Pair(caller, event)] == store[Pair(caller, event)].(status := Cancelled, updatedAt := now)
    ensures forall p :: p in store && p != Pair(caller, event) ==> r[p] == store[p]
  {
    var key := Pair(caller, event);
    if key in store then store[key := store[key].(status := Cancelled, updatedAt := now)] else store
  }

  /** `listMyRSVPs`: the caller's records (the populated event is not modelled). */
  function ListMine(store: RsvpStore, caller: UserId): (r: set<Rsvp>)
    requires WellKeyed(store)
    ensures forall x :: x in r ==> x.user == caller
    ensures forall p :: p in store && p.user == caller ==> store[p] in r
    ensures forall x :: x in r ==> Pair(x.user, x.event) in store && store[Pair(x.user, x.event)] == x
  {
    set p | p in store && p.user == caller :: store[p]
  }

  /** The upsert keeps every record under its own pair. */
  lemma UpsertKeepsWellKeyed(store: RsvpStore, caller: UserId, event: EventId, status: Option<string>,
                             now: int)
    requires WellKeyed(store)
    ensures WellKeyed(Upsert(store, caller, event, status, now, true).value.0)
  {
  }

  /** Cancelling keeps every record under its own pair. */
  lemma CancelKeepsWellKeyed(store: RsvpStore, caller: UserId, event: EventId, now: int)
    requires WellKeyed(store)
    ensures WellKeyed(Cancel(store, caller, event, now))
  {
  }

  /** Under the unique index, two records about the same user and event are the same record. */
  lemma OnePerPair(store: RsvpStore, p: Pair, q: Pair)
    requires WellKeyed(store)
    requires p in store && q in store
    requires store[p].user == store[q].user && store[p].event == store[q].event
    ensures p == q
  {
  }

  /**
   RSVPing again for the same event creates no second record: the second
   answer overwrites the first one's status and keeps its creation time, and
   the number of records does not grow.
   */
  lemma RepeatedRsvpOverwrites(store: RsvpStore, caller: UserId, event: EventId, s1: Option<string>,
                               s2: Option<string>, t1: int, t2: int)
    ensures var once := Upsert(store, caller, event, s1, t1, true).value;
      var twice := Upsert(once.0, caller, event, s2, t2, true).value;
      && twice.0.Keys == once.0.Keys
      && twice.1.status == StatusOr(s2)
      && twice.1.createdAt == once.1.createdAt
      && twice.0 == once.0[Pair(caller, event) := twice.1]
  {
  }

  /** A cancelled RSVP can be renewed by RSVPing without a status. */
  lemma CancelThenRsvpGoes(store: RsvpStore, caller: UserId, event: EventId, t1: int, t2: int)
    ensures Upsert(Cancel(store, caller, event, t1), caller, event, None, t2, true).value.1.status == Going
  {
  }

  /** The caller's new record shows in the caller's listing, and no other user's does. */
  lemma UpsertListed(store: RsvpStore, caller: UserId, event: EventId, status: Option<string>, now: int,
                     other: UserId)
    requires WellKeyed(store)
    requires other != caller
    ensures WellKeyed(Upsert(store, caller, event, status, now, true).value.0)
    ensures var s' := Upsert(store, caller, event, status, now, true).value;
      && s'.1 in ListMine(s'.0, caller)
      && ListMine(s'.0, other) == ListMine(store, other)
  {
    var s' := Upsert(store, caller, event, status, now, true).value;
    UpsertKeepsWellKeyed(store, caller, event, status, now);
    assert s'.0[Pair(caller, event)] == s'.1;
  }
}

=== FILE: seqs.dfy ===
/**
 Sequence operations the handlers express through the database driver:
 filtering (`find(filter)`), sorting by a key (`sort({k: ±1})`) and limiting
 (`limit(n)`), plus duplicate-freedom of reference lists.
 */
module Seqs {

  function Filter<T(!new)>(s: seq<T>, p: T -> bool): (r: seq<T>)
    ensures |r| <= |s|
    ensures forall i :: 0 <= i < |s| ==> (s[i] in r <==> p(s[i]))
    ensures forall i :: 0 <= i < |r| ==> r[i] in s && p(r[i])
    ensures forall x :: x in r <==> x in s && p(x)
  {
    if s == [] then []
    else if p(s[0]) then [s[0]] + Filter(s[1..], p)
    else Filter(s[1..], p)
  }

  /** `s.map(f)`. */
  function Map<T, U>(s: seq<T>, f: T -> U): (r: seq<U>)
    ensures |r| == |s|
    ensures forall i :: 0 <= i < |s| ==> r[i] == f(s[i])
  {
    seq(|s|, i requires 0 <= i < |s| => f(s[i]))
  }

  /** Mapping distributes over concatenation. */
  lemma MapConcat<T, U>(a: seq<T>, b: seq<T>, f: T -> U)
    ensures Map(a + b, f) == Map(a, f) + Map(b, f)
  {
    var l, r := Map(a + b, f), Map(a, f) + Map(b, f);
    forall i | 0 <= i < |l|
      ensures l[i] == r[i]
    {
      if i < |a| {
        assert (a + b)[i] == a[i];
      } else {
        assert (a + b)[i] == b[i - |a|];
      }
    }
  }

  /** Filtering keeps the relative order: it distributes over concatenation. */
  lemma {:induction false} FilterConcat<T(!new)>(a: seq<T>, b: seq<T>, p: T -> bool)
    ensures Filter(a + b, p) == Filter(a, p) + Filter(b, p)
    decreases |a|
  {
    if a != [] {
      assert (a + b)[0] == a[0];
      assert (a + b)[1..] == a[1..] + b;
      FilterConcat(a[1..], b, p);
    } else {
      assert a + b == b;
    }
  }

  /** Two tests that agree on every element select the same subsequence. */
  lemma {:induction false} FilterSame<T(!new)>(s: seq<T>, p: T -> bool, q: T -> bool)
    requires forall i :: 0 <= i < |s| ==> p(s[i]) == q(s[i])
    ensures Filter(s, p) == Filter(s, q)
    decreases |s|
  {
    if s != [] {
      assert forall i :: 0 <= i < |s[1..]| ==> s[1..][i] == s[i + 1];
      FilterSame(s[1..], p, q);
    }
  }

  /** A filter every element passes keeps the whole sequence. */
  lemma {:induction false} FilterAll<T(!new)>(s: seq<T>, p: T -> bool)
    requires forall i :: 0 <= i < |s| ==> p(s[i])
    ensures Filter(s, p) == s
    decreases |s|
  {
    if s != [] {
      FilterAll(s[1..], p);
    }
  }

  /**
   The map built by assigning `val(x)` under `key(x)` for each element in
   order, so a later element overwrites an earlier one with the same key.
   */
  function LastByKey<T, K, V>(s: seq<T>, key: T -> K, val: T -> V): (r: map<K, V>)
    ensures forall i :: 0 <= i < |s| ==> key(s[i]) in r
    ensures forall k :: k in r ==> exists i :: 0 <= i < |s| && key(s[i]) == k
  {
    if s == [] then map[]
    else
      var n := |s| - 1;
      var front := LastByKey(s[..n], key, val);
      assert forall i :: 0 <= i < n ==> s[..n][i] == s[i];
      front[key(s[n]) := val(s[n])]
  }

  /** The entry under an element's key is that element's value when no later element shares the key. */
  lemma {:induction false} LastByKeyEntry<T, K, V>(s: seq<T>, key: T -> K, val: T -> V, i: nat)
    requires i < |s|
    requires forall j :: i < j < |s| ==> key(s[j]) != key(s[i])
    ensures key(s[i]) in LastByKey(s, key, val)
    ensures LastByKey(s, key, val)[key(s[i])] == val(s[i])
    decreases |s|
  {
    var n := |s| - 1;
    if i < n {
      var front := s[..n];
      assert front[i] == s[i];
      assert forall j :: i < j < n ==> front[j] == s[j];
      LastByKeyEntry(front, key, val, i);
    }
  }

  /**
   Removing the element at `k` from a sequence whose keys are distinct: the
   keys stay distinct, the removed key is gone, and every element under
   another key stays.
   */
  lemma RemoveAtKeyed<T, K>(s: seq<T>, k: nat, key: T -> K)
    requires k < |s|
    requires forall i, j :: 0 <= i < j < |s| ==> key(s[i]) != key(s[j])
    ensures var r := s[..k] + s[k + 1..];
      && |r| == |s| - 1
      && (forall i, j :: 0 <= i < j < |r| ==> key(r[i]) != key(r[j]))
      && (forall i :: 0 <= i < |r| ==> key(r[i]) != key(s[k]))
      && (forall x :: x in s && key(x) != key(s[k]) ==> x in r)
  {
    var r := s[..k] + s[k + 1..];
    assert forall i :: 0 <= i < |r| ==> r[i] == (if i < k then s[i] else s[i + 1]);
    forall x | x in s && key(x) != key(s[k])
      ensures x in r
    {
      var i :| 0 <= i < |s| && s[i] == x;
      if i < k {
        assert r[i] == x;
      } else {
        assert r[i - 1] == x;
      }
    }
  }

  predicate NoDup<T(==)>(s: seq<T>)
  {
    forall i, j :: 0 <= i < j < |s| ==> s[i] != s[j]
  }

  lemma NoDupAppend<T>(s: seq<T>, x: T)
    requires NoDup(s) && x !in s
    ensures NoDup(s + [x])
  {
  }

  ghost predicate SortedBy<T>(s: seq<T>, key: T -> int)
  {
    forall i, j :: 0 <= i < j < |s| ==> key(s[i]) <= key(s[j])
  }

  /** Putting an element no greater than any other in front keeps a sequence sorted. */
  lemma SortedCons<T>(x: T, t: seq<T>, key: T -> int)
    requires SortedBy(t, key)
    requires forall k :: 0 <= k < |t| ==> key(x) <= key(t[k])
    ensures SortedBy([x] + t, key)
  {
    var r := [x] + t;
    forall i, j | 0 <= i < j < |r|
      ensures key(r[i]) <= key(r[j])
    {
      assert r[j] == t[j - 1];
      if i > 0 {
        assert r[i] == t[i - 1];
      }
    }
  }

  function Insert<T>(x: T, s: seq<T>, key: T -> int): (r: seq<T>)
    requires SortedBy(s, key)
    ensures SortedBy(r, key)
    ensures multiset(r) == multiset(s) + multiset{x}
    ensures |r| == |s| + 1
    ensures forall k :: 0 <= k < |r| ==> r[k] == x || r[k] in s
  {
    if s == [] || key(x) <= key(s[0]) then
      SortedCons(x, s, key);
      [x] + s
    else
      var t := Insert(x, s[1..], key);
      assert s == [s[0]] + s[1..];
      forall k | 0 <= k < |t|
        ensures key(s[0]) <= key(t[k])
      {
        if t[k] != x {
          var j :| 0 <= j < |s[1..]| && s[1..][j] == t[k];
          assert s[j + 1] == t[k];
        }
      }
      SortedCons(s[0], t, key);
      [s[0]] + t
  }

  /** A rearrangement of `s` in ascending order of `key` (insertion sort). */
  function SortBy<T>(s: seq<T>, key: T -> int): (r: seq<T>)
    ensures SortedBy(r, key)
    ensures multiset(r) == multiset(s)
    ensures |r| == |s|
  {
    if s == [] then []
    else
      assert s == [s[0]] + s[1..];
      Insert(s[0], SortBy(s[1..], key), key)
  }

  /** Sorting neither adds nor loses an element. */
  lemma SortByMembers<T>(s: seq<T>, key: T -> int)
    ensures forall x :: x in SortBy(s, key) <==> x in s
  {
    var r := SortBy(s, key);
    forall x
      ensures x in r <==> x in s
    {
      assert x in r <==> x in multiset(r);
      assert x in s <==> x in multiset(s);
    }
  }

  function Min(a: nat, b: nat): nat
  {
    if a <= b then a else b
  }

  /**
   `r` is what `find().sort({key: 1}).limit(limit)` may return from `s`: at
   most `limit` elements of `s`, ascending, and none left out that sorts before
   one taken.
   */
  ghost predicate TopBy<T>(s: seq<T>, key: T -> int, limit: nat, r: seq<T>)
  {
    && |r| == Min(limit, |s|)
    && SortedBy(r, key)
    && multiset(r) <= multiset(s)
    && forall i, j :: 0 <= i < |r| && 0 <= j < |s| && multiset(r)[s[j]] < multiset(s)[s[j]]
         ==> key(r[i]) <= key(s[j])
  }

  function TopByKey<T>(s: seq<T>, key: T -> int, limit: nat): (r: seq<T>)
    ensures TopBy(s, key, limit, r)
  {
    var sorted := SortBy(s, key);
    var k := Min(limit, |s|);
    TopPrefix(sorted, key, k);
    TopOfPermutation(s, sorted, key, k);
    sorted[..k]
  }

  /** Everything the top-k selection returns comes from the input. */
  lemma TopByMembers<T>(s: seq<T>, key: T -> int, limit: nat, r: seq<T>)
    requires TopBy(s, key, limit, r)
    ensures forall i :: 0 <= i < |r| ==> r[i] in s
  {
    forall i | 0 <= i < |r|
      ensures r[i] in s
    {
      assert r[i] in multiset(r);
    }
  }

  lemma TopOfPermutation<T>(s: seq<T>, sorted: seq<T>, key: T -> int, k: nat)
    requires multiset(sorted) == multiset(s)
    requires k <= |sorted|
    requires forall i, j :: (0 <= i < k && 0 <= j < |sorted| && multiset(sorted[..k])[sorted[j]] < multiset(sorted)[sorted[j]]
      ==> key(sorted[i]) <= key(sorted[j]))
    ensures forall i, j :: (0 <= i < k && 0 <= j < |s| && multiset(sorted[..k])[s[j]] < multiset(s)[s[j]]
      ==> key(sorted[..k][i]) <= key(s[j]))
  {
    forall i, j | 0 <= i < k && 0 <= j < |s| && multiset(sorted[..k])[s[j]] < multiset(s)[s[j]]
      ensures key(sorted[..k][i]) <= key(s[j])
    {
      assert s[j] in multiset(sorted);
      var j' :| 0 <= j' < |sorted| && sorted[j'] == s[j];
    }
  }

  lemma TopPrefix<T>(sorted: seq<T>, key: T -> int, k: nat)
    requires SortedBy(sorted, key)
    requires k <= |sorted|
    ensures forall i, j :: (0 <= i < k && 0 <= j < |sorted| && multiset(sorted[..k])[sorted[j]] < multiset(sorted)[sorted[j]]
      ==> key(sorted[i]) <= key(sorted[j]))
    ensures multiset(sorted[..k]) <= multiset(sorted)
  {
    var r, rest := sorted[..k], sorted[k..];
    assert sorted == r + rest;
    assert multiset(sorted) == multiset(r) + multiset(rest);
    forall i, j | 0 <= i < k && 0 <= j < |sorted| && multiset(r)[sorted[j]] < multiset(sorted)[sorted[j]]
      ensures key(sorted[i]) <= key(sorted[j])
    {
      var y := sorted[j];
      assert y in multiset(rest);
      assert y in rest;
      var j' :| 0 <= j' < |rest| && rest[j'] == y;
      assert sorted[k + j'] == y;
    }
  }
}

=== FILE: text.dfy ===
/**
 The JavaScript string operations the handlers and pages rely on:
 `trim`, `toLowerCase`, `startsWith`, `includes` and `split`.
 */
module Text {

  /**
   WhiteSpace and LineTerminator, the characters JavaScript's `trim` removes:
   tab to carriage return, space, no-break space, ogham space, the en quad to
   hair space block, the line and paragraph separators, narrow no-break space,
   medium mathematical space, ideographic space and the byte order mark.
   */
  predicate IsSpace(c: char)
  {
    var n := c as int;
    (0x09 <= n <= 0x0D) || n == 0x20 || n == 0xA0 || n == 0x1680
    || (0x2000 <= n <= 0x200A) || n == 0x2028 || n == 0x2029 || n == 0x202F
    || n == 0x205F || n == 0x3000 || n == 0xFEFF
  }

  /** Characters a regular-expression `.` does not match (no `s` flag). */
  predicate IsLineTerminator(c: char)
  {
    var n := c as int;
    n == 0x0A || n == 0x0D || n == 0x2028 || n == 0x2029
  }

  predicate NoLineTerminator(s: string)
  {
    forall i :: 0 <= i < |s| ==> !IsLineTerminator(s[i])
  }

  predicate AllSpace(s: string)
  {
    forall i :: 0 <= i < |s| ==> IsSpace(s[i])
  }

  function TrimStart(s: string): (r: string)
    ensures |r| <= |s| && r == s[|s| - |r|..]
    ensures r == [] || !IsSpace(r[0])
    ensures AllSpace(s[..|s| - |r|])
  {
    if |s| > 0 && IsSpace(s[0]) then
      var r := TrimStart(s[1..]);
      assert s[..|s| - |r|] == [s[0]] + s[1..][..|s| - 1 - |r|];
      r
    else s
  }

  function TrimEnd(s: string): (r: string)
    ensures |r| <= |s| && r == s[..|r|]
    ensures r == [] || !IsSpace(r[|r| - 1])
    ensures AllSpace(s[|r|..])
  {
    if |s| > 0 && IsSpace(s[|s| - 1]) then
      var r := TrimEnd(s[..|s| - 1]);
      assert s[|r|..] == s[..|s| - 1][|r|..] + [s[|s| - 1]];
      r
    else s
  }

  /**
   `String.prototype.trim`: the longest infix of `s` that neither starts nor
   ends with a space, everything around it being spaces.
   */
  function Trim(s: string): (r: string)
    ensures r == [] || (!IsSpace(r[0]) && !IsSpace(r[|r| - 1]))
    ensures r == [] <==> AllSpace(s)
  {
    TrimEmpty(s);
    TrimEnd(TrimStart(s))
  }

  /** Nothing remains after stripping both ends exactly when the text is all spaces. */
  lemma TrimEmpty(s: string)
    ensures TrimEnd(TrimStart(s)) == [] <==> AllSpace(s)
  {
    var t := TrimStart(s);
    var i := |s| - |t|;
    assert t == s[i..];
    if TrimEnd(t) == [] {
      assert t[0..] == t;
      assert AllSpace(t);
      assert t == [];
      assert s[..i] == s;
    }
  }

  /** Trimming twice is trimming once. */
  lemma TrimIdempotent(s: string)
    ensures Trim(Trim(s)) == Trim(s)
  {
    var r := Trim(s);
    if r != [] {
      assert TrimStart(r) == r;
      assert TrimEnd(r) == r;
    }
  }

  /** Every character of the trimmed text comes from the text. */
  lemma TrimKeepsChars(s: string, c: char)
    requires c in Trim(s)
    ensures c in s
  {
    var t := TrimStart(s);
    var r := TrimEnd(t);
    assert r == t[..|r|];
    var k :| 0 <= k < |r| && r[k] == c;
    assert t[k] == c;
    assert s[|s| - |t| + k] == c;
  }

  function LowerChar(c: char): char
  {
    if 'A' <= c <= 'Z' then (c as int + 32) as char else c
  }

  /** `toLowerCase`, for the ASCII letters. */
  function ToLower(s: string): (r: string)
    ensures |r| == |s|
    ensures forall i :: 0 <= i < |s| ==> r[i] == LowerChar(s[i])
  {
    if s == [] then [] else [LowerChar(s[0])] + ToLower(s[1..])
  }

  /** Lower-casing twice is lower-casing once. */
  lemma LowerIdempotent(s: string)
    ensures ToLower(ToLower(s)) == ToLower(s)
  {
  }

  lemma LowerConcat(a: string, b: string)
    ensures ToLower(a + b) == ToLower(a) + ToLower(b)
  {
    assert forall i :: 0 <= i < |a + b| ==> ToLower(a + b)[i] == (ToLower(a) + ToLower(b))[i];
  }

  /** Lower-casing never turns a space into a non-space or back, so it commutes with `trim`. */
  lemma LowerKeepsSpace(c: char)
    ensures IsSpace(LowerChar(c)) == IsSpace(c)
  {
    if 'A' <= c <= 'Z' {
      assert 65 <= c as int <= 90;
    }
  }

  lemma {:induction false} LowerTrimStart(s: string)
    ensures TrimStart(ToLower(s)) == ToLower(TrimStart(s))
    decreases |s|
  {
    var t := ToLower(s);
    if |s| > 0 {
      LowerKeepsSpace(s[0]);
      if IsSpace(s[0]) {
        assert t[1..] == ToLower(s[1..]);
        assert TrimStart(t) == TrimStart(t[1..]);
        LowerTrimStart(s[1..]);
      }
    }
  }

  lemma {:induction false} LowerTrimEnd(s: string)
    ensures TrimEnd(ToLower(s)) == ToLower(TrimEnd(s))
    decreases |s|
  {
    var t := ToLower(s);
    if |s| > 0 {
      LowerKeepsSpace(s[|s| - 1]);
      if IsSpace(s[|s| - 1]) {
        assert t[..|s| - 1] == ToLower(s[..|s| - 1]);
        assert TrimEnd(t) == TrimEnd(t[..|t| - 1]);
        LowerTrimEnd(s[..|s| - 1]);
      }
    }
  }

  lemma LowerTrim(s: string)
    ensures Trim(ToLower(s)) == ToLower(Trim(s))
  {
    LowerTrimStart(s);
    LowerTrimEnd(TrimStart(s));
  }

  /** `s.startsWith(p)`. */
  predicate StartsWith(s: string, p: string)
  {
    |p| <= |s| && s[..|p|] == p
  }

  /** `q` occurs in `s` at position `i`. */
  ghost predicate OccursAt(s: string, q: string, i: int)
  {
    0 <= i <= |s| - |q| && s[i..i + |q|] == q
  }

  /** `s.includes(q)`. */
  function Contains(s: string, q: string): (r: bool)
    ensures r <==> exists i :: OccursAt(s, q, i)
    decreases |s|
  {
    if StartsWith(s, q) then
      assert OccursAt(s, q, 0);
      true
    else if |s| == 0 then
      assert forall i :: !OccursAt(s, q, i);
      false
    else
      var r := Contains(s[1..], q);
      assert forall i :: OccursAt(s[1..], q, i) <==> OccursAt(s, q, i + 1) by {
        forall i ensures OccursAt(s[1..], q, i) <==> OccursAt(s, q, i + 1) {
          if 0 <= i <= |s| - 1 - |q| {
            assert s[1..][i..i + |q|] == s[i + 1..i + 1 + |q|];
          }
        }
      }
      assert !OccursAt(s, q, 0);
      assert forall i :: OccursAt(s, q, i) ==> i == 0 || OccursAt(s[1..], q, i - 1);
      r
  }

  /** Dropping the first character shifts every occurrence one place left. */
  lemma OccursShift(s: string, q: string)
    requires |s| > 0
    ensures forall i :: 0 <= i ==> (OccursAt(s[1..], q, i) <==> OccursAt(s, q, i + 1))
  {
    forall i | 0 <= i ensures OccursAt(s[1..], q, i) <==> OccursAt(s, q, i + 1) {
      if 0 <= i <= |s| - 1 - |q| {
        assert s[1..][i..i + |q|] == s[i + 1..i + 1 + |q|];
      }
    }
  }

  /** `s.indexOf(q)`: the first position where `q` occurs in `s`, or -1. */
  function IndexOf(s: string, q: string): (r: int)
    ensures r == -1 <==> !Contains(s, q)
    ensures r != -1 ==> OccursAt(s, q, r) && forall i :: 0 <= i < r ==> !OccursAt(s, q, i)
    decreases |s|
  {
    if StartsWith(s, q) then
      assert OccursAt(s, q, 0);
      0
    else if |s| == 0 then -1
    else
      var t := IndexOf(s[1..], q);
      OccursShift(s, q);
      assert !OccursAt(s, q, 0);
      assert Contains(s, q) <==> Contains(s[1..], q) by {
        assert forall i :: OccursAt(s, q, i) ==> i == 0 || OccursAt(s[1..], q, i - 1);
      }
      if t == -1 then -1
      else
        assert forall i :: 0 < i < t + 1 ==> !OccursAt(s, q, i) by {
          assert forall i :: 0 < i < t + 1 ==> (OccursAt(s, q, i) ==> OccursAt(s[1..], q, i - 1));
        }
        t + 1
  }

  /** Text found in a prefix is found in the whole. */
  lemma ContainsInPrefix(a: string, b: string, q: string)
    requires Contains(a, q)
    ensures Contains(a + b, q)
  {
    var i :| OccursAt(a, q, i);
    assert (a + b)[i..i + |q|] == a[i..i + |q|];
    assert OccursAt(a + b, q, i);
  }

  /** `s.split(sep)` for a one-character separator. */
  function Split(s: string, sep: char): (r: seq<string>)
    ensures |r| >= 1
    ensures forall k :: 0 <= k < |r| ==> sep !in r[k]
  {
    if s == [] then [[]]
    else
      var rest := Split(s[1..], sep);
      if s[0] == sep then [[]] + rest
      else [[s[0]] + rest[0]] + rest[1..]
  }

  /** Text without the separator is a single piece. */
  lemma {:induction false} SplitWithoutSeparator(s: string, sep: char)
    requires sep !in s
    ensures Split(s, sep) == [s]
    decreases |s|
  {
    if s != [] {
      assert sep !in s[1..];
      SplitWithoutSeparator(s[1..], sep);
      assert [s[0]] + s[1..] == s;
    }
  }

  /** `parts.join(sep)`. */
  function Join(parts: seq<string>, sep: char): string
  {
    if parts == [] then []
    else if |parts| == 1 then parts[0]
    else parts[0] + [sep] + Join(parts[1..], sep)
  }

  /** Joining the pieces of a split gives back the original text. */
  lemma {:induction false} JoinSplit(s: string, sep: char)
    ensures Join(Split(s, sep), sep) == s
    decreases |s|
  {
    if s != [] {
      var rest := Split(s[1..], sep);
      JoinSplit(s[1..], sep);
      if s[0] == sep {
        assert Split(s, sep) == [[]] + rest;
        assert Split(s, sep)[1..] == rest;
      } else {
        var r := Split(s, sep);
        assert r == [[s[0]] + rest[0]] + rest[1..];
        if |rest| == 1 {
          assert Join(r, sep) == [s[0]] + rest[0];
        } else {
          assert r[1..] == rest[1..];
          assert Join(rest, sep) == rest[0] + [sep] + Join(rest[1..], sep);
        }
      }
    }
  }

  /** A separator in the text separates the pieces of the two sides. */
  lemma {:induction false} SplitConcat(a: string, b: string, sep: char)
    ensures Split(a + [sep] + b, sep) == Split(a, sep) + Split(b, sep)
    decreases |a|
  {
    if a == [] {
      assert a + [sep] + b == [sep] + b;
      assert ([sep] + b)[1..] == b;
    } else {
      assert (a + [sep] + b)[1..] == a[1..] + [sep] + b;
      SplitConcat(a[1..], b, sep);
    }
  }
}

=== FILE: upload.dfy ===
/**
 The image upload route: validation of the `dataUrl` field, its parsing by
 the pattern `^data:(.*?);base64,(.*)$`, the media type's default, the file
 extension chosen from it, and the URL the route answers with. Decoding the
 payload and writing the file are outside the model; the file name's
 time-and-random stem is a parameter.
 */
module Upload {
  import opened Common
  import opened Text

  const DataPrefix: string := "data:"
  const Marker: string := ";base64,"
  const DefaultMime: string := "application/octet-stream"
  const UploadsPath: string := "/uploads/"

  const MissingMessage: string := "Provide dataUrl as data:image/...;base64,<data>"
  const InvalidMessage: string := "Invalid dataUrl"
  const FailedMessage: string := "Upload failed"

  /**
   The pattern matches `s` with `m` as its first group and `d` as its second:
   `s` is "data:", `m`, ";base64,", `d`, and neither group spans a line
   terminator (no `s` flag, so `.` stops at them).
   */
  ghost predicate Splits(s: string, m: string, d: string)
  {
    && s == DataPrefix + m + Marker + d
    && NoLineTerminator(m)
    && NoLineTerminator(d)
  }

  /**
   `dataUrl.match(/^data:(.*?);base64,(.*)$/)`: the two groups, or nothing.
   Once "data:" is found, a line terminator anywhere after it defeats every
   way of matching; otherwise the lazy first group ends at the first
   ";base64,".
   */
  function MatchDataUrl(s: string): (r: Option<(string, string)>)
  {
    if !StartsWith(s, DataPrefix) then None
    else
      var rest := s[|DataPrefix|..];
      if !NoLineTerminator(rest) then None
      else
        var i := IndexOf(rest, Marker);
        if i == -1 then None
        else Some((rest[..i], rest[i + |Marker|..]))
  }

  /** A text that starts with "data:" is "data:" followed by the rest. */
  lemma AfterPrefix(s: string)
    requires StartsWith(s, DataPrefix)
    ensures s == DataPrefix + s[|DataPrefix|..]
  {
  }

  /** Assembling "data:", `m`, the marker and `d` gives a text that starts with "data:" and continues with the rest. */
  lemma Assembled(m: string, d: string)
    ensures var s := DataPrefix + m + Marker + d;
      StartsWith(s, DataPrefix) && s[|DataPrefix|..] == m + Marker + d
  {
    var s := DataPrefix + m + Marker + d;
    assert s == DataPrefix + (m + Marker + d);
  }

  /** Around an occurrence of the marker, a text is its prefix, the marker and its suffix. */
  lemma AroundMarker(rest: string, i: int)
    requires OccursAt(rest, Marker, i)
    ensures rest == rest[..i] + Marker + rest[i + |Marker|..]
  {
    assert rest[i..i + |Marker|] == Marker;
  }

  /** The marker has no line terminator, so the parts around it have none exactly when the whole has none. */
  lemma NoLineTerminatorParts(m: string, d: string)
    ensures NoLineTerminator(m + Marker + d) <==> NoLineTerminator(m) && NoLineTerminator(d)
  {
    var rest := m + Marker + d;
    assert forall i :: 0 <= i < |m| ==> rest[i] == m[i];
    assert forall i :: 0 <= i < |d| ==> rest[|m| + |Marker| + i] == d[i];
    assert forall i :: |m| <= i < |m| + |Marker| ==> rest[i] == Marker[i - |m|];
  }

  /** The marker occurs where it was put. */
  lemma MarkerAt(m: string, d: string)
    ensures OccursAt(m + Marker + d, Marker, |m|)
  {
    var rest := m + Marker + d;
    assert rest[|m|..|m| + |Marker|] == Marker;
  }

  /** A found match is a match, and its first group is the shortest one possible (the lazy `*?`). */
  lemma MatchSound(s: string)
    requires MatchDataUrl(s).Some?
    ensures var (m, d) := MatchDataUrl(s).value;
      && Splits(s, m, d)
      && forall m', d' :: Splits(s, m', d') ==> |m| <= |m'|
  {
    var rest := s[|DataPrefix|..];
    var i := IndexOf(rest, Marker);
    var (m, d) := MatchDataUrl(s).value;
    AfterPrefix(s);
    AroundMarker(rest, i);
    NoLineTerminatorParts(m, d);
    assert s == DataPrefix + m + Marker + d;
    forall m', d' | Splits(s, m', d')
      ensures |m| <= |m'|
    {
      Assembled(m', d');
      MarkerAt(m', d');
    }
  }

  /** Whenever the pattern can match, the match is found. */
  lemma MatchComplete(s: string, m: string, d: string)
    requires Splits(s, m, d)
    ensures MatchDataUrl(s).Some?
  {
    Assembled(m, d);
    NoLineTerminatorParts(m, d);
    MarkerAt(m, d);
  }

  /**
   A media type that does not itself contain ";base64," is read back whole:
   the comma ends the marker, so no earlier occurrence can overlap it.
   */
  lemma MediaTypeRoundTrip(m: string, d: string)
    requires !Contains(m, Marker)
    requires NoLineTerminator(m) && NoLineTerminator(d)
    ensures MatchDataUrl(DataPrefix + m + Marker + d) == Some((m, d))
  {
    var s := DataPrefix + m + Marker + d;
    var rest := m + Marker + d;
    Assembled(m, d);
    NoLineTerminatorParts(m, d);
    MarkerAt(m, d);
    var i := IndexOf(rest, Marker);
    assert i <= |m|;
    if i < |m| {
      FirstMarkerNotInside(m, d, i);
    }
    assert rest[..|m|] == m;
    assert rest[|m| + |Marker|..] == d;
  }

  /** The comma is the marker's last character and appears nowhere else in it. */
  lemma CommaEndsMarker()
    ensures Marker[|Marker| - 1] == ','
    ensures forall k :: 0 <= k < |Marker| - 1 ==> Marker[k] != ','
  {
    assert Marker == [';', 'b', 'a', 's', 'e', '6', '4', ','];
  }

  /** No occurrence of the marker starts inside `m` when `m` does not contain it. */
  lemma FirstMarkerNotInside(m: string, d: string, i: int)
    requires !Contains(m, Marker)
    requires 0 <= i < |m|
    ensures !OccursAt(m + Marker + d, Marker, i)
  {
    if i + |Marker| <= |m| {
      assert !OccursAt(m, Marker, i);
      InsideStaysInside(m, Marker + d, i);
      assert m + Marker + d == m + (Marker + d);
    } else {
      StraddlingMissesComma(m, d, i);
    }
  }

  /** An occurrence lying wholly inside the front part is an occurrence in the front part. */
  lemma InsideStaysInside(a: string, b: string, i: int)
    requires 0 <= i && i + |Marker| <= |a|
    ensures OccursAt(a + b, Marker, i) ==> OccursAt(a, Marker, i)
  {
    assert (a + b)[i..i + |Marker|] == a[i..i + |Marker|];
  }

  /** An occurrence starting in `m` and ending in the marker after it would need a comma too early. */
  lemma StraddlingMissesComma(m: string, d: string, i: int)
    requires 0 <= i < |m| < i + |Marker|
    ensures !OccursAt(m + Marker + d, Marker, i)
  {
    var rest := m + Marker + d;
    CommaEndsMarker();
    var k := i + |Marker| - 1;
    assert rest[k] == Marker[k - |m|];
    assert Marker[k - |m|] != ',';
  }

  /** Text without a comma cannot contain the marker. */
  lemma NoCommaNoMarker(m: string)
    requires ',' !in m
    ensures !Contains(m, Marker)
  {
    CommaEndsMarker();
  }

  /** The media type: the first group, or the default when it is empty. */
  function MimeOf(group: string): (r: string)
    ensures r != []
    ensures group != [] ==> r == group
  {
    if group == [] then DefaultMime else group
  }

  /** The file extension: the first of png, jpeg, jpg, gif the media type contains, else `.bin`. */
  function Extension(mime: string): (r: string)
    ensures r in {".png", ".jpg", ".gif", ".bin"}
    ensures r == ".png" <==> Contains(mime, "png")
    ensures r == ".jpg" <==> !Contains(mime, "png") && (Contains(mime, "jpeg") || Contains(mime, "jpg"))
    ensures r == ".gif" <==>
      !Contains(mime, "png") && !Contains(mime, "jpeg") && !Contains(mime, "jpg") && Contains(mime, "gif")
    ensures r == ".bin" <==>
      !Contains(mime, "png") && !Contains(mime, "jpeg") && !Contains(mime, "jpg") && !Contains(mime, "gif")
  {
    if Contains(mime, "png") then ".png"
    else if Contains(mime, "jpeg") then ".jpg"
    else if Contains(mime, "jpg") then ".jpg"
    else if Contains(mime, "gif") then ".gif"
    else ".bin"
  }

  /**
   `POST /upload/image`. `body` is the parsed JSON body, `stem` the
   time-and-random part of the file name, and `written` whether the file
   write succeeded. The answer is the URL of the stored file.
   */
  function UploadImage(body: JsValue, stem: string, written: bool): (r: Result<string>)
    ensures var v := body.Get("dataUrl");
      r == Fail(BadRequest, MissingMessage) <==> !(v.Str? && StartsWith(v.s, DataPrefix))
    ensures var v := body.Get("dataUrl");
      r == Fail(BadRequest, InvalidMessage) <==>
        v.Str? && StartsWith(v.s, DataPrefix) && MatchDataUrl(v.s).None?
    ensures var v := body.Get("dataUrl");
      r == Fail(ServerError, FailedMessage) <==> !written && v.Str? && MatchDataUrl(v.s).Some?
    ensures r.Ok? <==> written && body.Get("dataUrl").Str? && MatchDataUrl(body.Get("dataUrl").s).Some?
    ensures r.Ok? ==>
      var mime := MimeOf(MatchDataUrl(body.Get("dataUrl").s).value.0);
      r.value == UploadsPath + stem + Extension(mime)
  {
    var v := body.Get("dataUrl");
    if !v.Truthy() || !v.Str? || !StartsWith(v.s, DataPrefix) then Fail(BadRequest, MissingMessage)
    else
      match MatchDataUrl(v.s)
      case None => Fail(BadRequest, InvalidMessage)
      case Some((group, _)) =>
        if !written then Fail(ServerError, FailedMessage)
        else Ok(UploadsPath + stem + Extension(MimeOf(group)))
  }

  /**
   A well-formed data URL whose media type has no comma is stored under the
   extension that media type calls for, in the uploads directory.
   */
  lemma ExtensionFollowsMediaType(m: string, d: string, stem: string)
    requires m != [] && ',' !in m
    requires NoLineTerminator(m) && NoLineTerminator(d)
    ensures UploadImage(Obj(map["dataUrl" := Str(DataPrefix + m + Marker + d)]), stem, true)
      == Ok(UploadsPath + stem + Extension(m))
  {
    NoCommaNoMarker(m);
    MediaTypeRoundTrip(m, d);
    Assembled(m, d);
  }
}

=== FILE: users.dfy ===
/**
 Accounts: the User record with its enumerations and defaults, and the
 `register`, `login` and `updateProfile` handlers over the user collection.
 */
module Users {
  import opened Common
  import opened Text

  datatype Role = UserRole | AdminRole
  datatype ProfileStatus = Incomplete | Complete
  datatype Gender = Male | Female | OtherGender | PreferNotToSay

  function RoleName(r: Role): string
  {
    match r
    case UserRole => "user"
    case AdminRole => "admin"
  }

  /** The `enum` validator of `role`: only "user" and "admin" are accepted. */
  function ParseRole(s: string): (r: Option<Role>)
    ensures r.Some? <==> s == "user" || s == "admin"
    ensures r.Some? ==> RoleName(r.value) == s
  {
    if s == "user" then Some(UserRole)
    else if s == "admin" then Some(AdminRole)
    else None
  }

  function StatusName(p: ProfileStatus): string
  {
    match p
    case Incomplete => "INCOMPLETE"
    case Complete => "COMPLETE"
  }

  /** The `enum` validator of `profileStatus`. */
  function ParseStatus(s: string): (r: Option<ProfileStatus>)
    ensures r.Some? <==> s == "INCOMPLETE" || s == "COMPLETE"
    ensures r.Some? ==> StatusName(r.value) == s
  {
    if s == "INCOMPLETE" then Some(Incomplete)
    else if s == "COMPLETE" then Some(Complete)
    else None
  }

  function GenderName(g: Gender): string
  {
    match g
    case Male => "Male"
    case Female => "Female"
    case OtherGender => "Other"
    case PreferNotToSay => "Prefer not to say"
  }

  /** The `enum` validator of `gender`: the four listed values. */
  function ParseGender(s: string): (r: Option<Gender>)
    ensures r.Some? <==> s == "Male" || s == "Female" || s == "Other" || s == "Prefer not to say"
    ensures r.Some? ==> GenderName(r.value) == s
  {
    if s == "Male" then Some(Male)
    else if s == "Female" then Some(Female)
    else if s == "Other" then Some(OtherGender)
    else if s == "Prefer not to say" then Some(PreferNotToSay)
    else None
  }

  /** Every stored enumeration value is read back as itself. */
  lemma EnumRoundTrips(r: Role, p: ProfileStatus, g: Gender)
    ensures ParseRole(RoleName(r)) == Some(r)
    ensures ParseStatus(StatusName(p)) == Some(p)
    ensures ParseGender(GenderName(g)) == Some(g)
  {
  }

  /** A GeoJSON point `[lng, lat]`. */
  datatype GeoPoint = GeoPoint(lng: int, lat: int)

  datatype User = User(
    id: UserId,
    name: string,
    email: string,
    passwordHash: string,
    bio: Option<string>,
    avatarUrl: Option<string>,
    logoUrl: Option<string>,
    vendorDocuments: seq<string>,
    phone: Option<string>,
    gender: Option<Gender>,
    college: Option<string>,
    course: Option<string>,
    year: Option<string>,
    interests: seq<string>,
    resumeUrl: Option<string>,
    address: Option<string>,
    profileStatus: ProfileStatus,
    role: Role,
    location: Option<GeoPoint>,
    joinedClubs: set<ClubId>)

  type UserStore = map<UserId, User>

  /** The unique index on `email`. */
  ghost predicate EmailsUnique(users: UserStore)
  {
    forall a, b :: a in users && b in users && users[a].email == users[b].email ==> a == b
  }

  /** The `lowercase` option of `email`: stored addresses are lower case. */
  ghost predicate EmailsLower(users: UserStore)
  {
    forall a :: a in users ==> ToLower(users[a].email) == users[a].email
  }

  /** Some account is registered under `email` (queries are lower-cased like stored values). */
  predicate EmailTaken(users: UserStore, email: string)
  {
    exists id :: id in users && users[id].email == ToLower(email)
  }

  // ---------------------------------------------------------------- register

  datatype RegisterBody = RegisterBody(
    name: Option<string>,
    email: Option<string>,
    password: Option<string>,
    bio: Option<string>,
    avatarUrl: Option<string>,
    logoUrl: Option<string>,
    /** `None` when the field is absent or not an array. */
    vendorDocuments: Option<seq<string>>,
    location: JsValue)

  /** The sanitised `location`: kept only as a 'Point' with two numeric coordinates. */
  function PointOf(location: JsValue): Option<GeoPoint>
  {
    var coords := location.Get("coordinates");
    if location.Truthy() && location.Get("type") == Str("Point")
       && coords.Arr? && |coords.items| == 2
       && coords.items[0].Num? && coords.items[1].Num?
    then Some(GeoPoint(coords.items[0].n, coords.items[1].n))
    else None
  }

  /** How a client sends a point. */
  function PointJson(p: GeoPoint): JsValue
  {
    Obj(map["type" := Str("Point"), "coordinates" := Arr([Num(p.lng), Num(p.lat)])])
  }

  /** No point, or one the `2dsphere` index on `location` accepts. */
  predicate PointStorable(p: Option<GeoPoint>)
  {
    p.Some? ==> LngLatValid(p.value.lng, p.value.lat)
  }

  /** A well-formed point survives sanitising unchanged. */
  lemma PointRoundTrip(p: GeoPoint)
    ensures PointOf(PointJson(p)) == Some(p)
  {
  }

  /** Any deviation from a 'Point' with exactly two numbers drops the location. */
  lemma PointRejects(location: JsValue)
    ensures !location.Obj? ==> PointOf(location) == None
    ensures location.Get("type") != Str("Point") ==> PointOf(location) == None
    ensures !location.Get("coordinates").Arr? ==> PointOf(location) == None
    ensures location.Get("coordinates").Arr? && |location.Get("coordinates").items| != 2
      ==> PointOf(location) == None
    ensures (location.Get("coordinates").Arr? && |location.Get("coordinates").items| == 2
      && !(location.Get("coordinates").items[0].Num? && location.Get("coordinates").items[1].Num?))
      ==> PointOf(location) == None
    ensures PointOf(location).Some? ==> PointJson(PointOf(location).value).Get("coordinates") == location.Get("coordinates")
  {
  }

  /** A field that is stored only when it is truthy. */
  function IfGiven(s: Option<string>): (r: Option<string>)
    ensures r.Some? <==> Given(s)
    ensures r.Some? ==> r == s
  {
    if Given(s) then s else None
  }

  /**
   An account holds what `register` stores for `body` under `id`: the name,
   bio and sanitised location sent, the e-mail lower-cased, the password
   hashed, a URL exactly when it was truthy, the documents sent (none when
   absent), role 'user', profile 'INCOMPLETE', no clubs, and every other
   profile field empty.
   */
  predicate CreatedFrom(a: User, id: UserId, body: RegisterBody, hash: string -> string)
    requires body.name.Some? && body.email.Some? && body.password.Some?
  {
    && a.id == id && a.name == body.name.value && a.bio == body.bio
    && a.email == ToLower(body.email.value) && a.passwordHash == hash(body.password.value)
    && a.location == PointOf(body.location)
    && (a.avatarUrl.Some? <==> Given(body.avatarUrl)) && (Given(body.avatarUrl) ==> a.avatarUrl == body.avatarUrl)
    && (a.logoUrl.Some? <==> Given(body.logoUrl)) && (Given(body.logoUrl) ==> a.logoUrl == body.logoUrl)
    && (body.vendorDocuments.Some? ==> a.vendorDocuments == body.vendorDocuments.value)
    && (body.vendorDocuments.None? ==> a.vendorDocuments == [])
    && a.role == UserRole && a.profileStatus == Incomplete && a.joinedClubs == {}
    && a.phone.None? && a.gender.None? && a.college.None? && a.course.None? && a.year.None?
    && a.interests == [] && a.resumeUrl.None? && a.address.None?
  }

  /**
   The account `register` creates: role 'user' and profile 'INCOMPLETE' by
   default, no clubs, the e-mail lower-cased and the password hashed by the
   save hook.
   */
  function NewAccount(id: UserId, body: RegisterBody, hash: string -> string): (a: User)
    requires body.name.Some? && body.email.Some? && body.password.Some?
    ensures CreatedFrom(a, id, body, hash)
  {
    User(
      id := id, name := body.name.value, email := ToLower(body.email.value),
      passwordHash := hash(body.password.value), bio := body.bio,
      avatarUrl := IfGiven(body.avatarUrl), logoUrl := IfGiven(body.logoUrl),
      vendorDocuments := if body.vendorDocuments.Some? then body.vendorDocuments.value else [],
      phone := None, gender := None, college := None, course := None, year := None,
      interests := [], resumeUrl := None, address := None,
      profileStatus := Incomplete, role := UserRole,
      location := PointOf(body.location), joinedClubs := {})
  }

  /**
   The `2dsphere` index accepts the location of a NEW account. Without a
   sanitised point the document is not free of a location: Mongoose gives
   the array path `location.coordinates` its default empty array, so the
   document carries `location: {coordinates: []}`, which the sparse index
   does not skip and cannot read as a GeoJSON point.
   */
  predicate NewPointIndexed(p: Option<GeoPoint>)
  {
    p.Some? && LngLatValid(p.value.lng, p.value.lat)
  }

  /**
   The document `register` builds passes validation: the schema's required
   fields are present and the `2dsphere` index accepts its location.
   */
  predicate RegisterValid(body: RegisterBody)
  {
    && Given(body.name) && Given(body.email) && Given(body.password)
    && NewPointIndexed(PointOf(body.location))
  }

  /**
   `register`: 400 when the e-mail is taken; 500 when the schema's required
   fields (name, email, password; empty strings fail `required`) are missing
   or the geo index refuses the location, which it does for every body
   without a valid point; otherwise a new account
   under a fresh id. `referenced` holds the user ids
   other documents still carry; an ObjectId is never issued twice, so the new
   id is none of them either.
   */
  function Register(users: UserStore, body: RegisterBody, hash: string -> string, referenced: set<UserId>)
    : (r: Result<(UserStore, UserId)>)
    ensures body.email.Some? && EmailTaken(users, body.email.value)
      <==> r == Fail(BadRequest, "Email already in use")
    ensures r.Err? && r.error.status != BadRequest ==> r == Fail(ServerError, "Registration failed")
    ensures r.Err? ==> !RegisterValid(body) || EmailTaken(users, body.email.value)
    ensures r.Ok? ==> RegisterValid(body)
    ensures r.Ok? ==>
      var (users', id) := r.value;
      && id !in users && id !in referenced
      && users'.Keys == users.Keys + {id}
      && (forall other :: other in users ==> users'[other] == users[other])
      && CreatedFrom(users'[id], id, body, hash)
      && users'[id].location.Some?
  {
    if body.email.Some? && EmailTaken(users, body.email.value) then
      Fail(BadRequest, "Email already in use")
    else if !RegisterValid(body) then
      Fail(ServerError, "Registration failed")
    else
      Ok(InsertAccount(users, body, hash, referenced))
  }

  /** The insert of a valid registration under an id neither in use nor referenced. */
  function InsertAccount(users: UserStore, body: RegisterBody, hash: string -> string, referenced: set<UserId>)
    : (r: (UserStore, UserId))
    requires RegisterValid(body)
    ensures var (users', id) := r;
      && id !in users && id !in referenced
      && users'.Keys == users.Keys + {id}
      && (forall other :: other in users ==> users'[other] == users[other])
      && CreatedFrom(users'[id], id, body, hash)
      && users'[id].location.Some?
  {
    var id := FreshId(users.Keys + referenced);
    (users[id := NewAccount(id, body, hash)], id)
  }

  /** A body without a well-formed point, such as the sign-up form's, never creates an account. */
  lemma NoPointNoAccount(users: UserStore, body: RegisterBody, hash: string -> string, referenced: set<UserId>)
    requires PointOf(body.location).None?
    ensures Register(users, body, hash, referenced).Err?
  {
  }

  /** `register` keeps e-mail addresses unique and lower case. */
  lemma RegisterKeepsEmailsUnique(users: UserStore, body: RegisterBody, hash: string -> string,
                                   referenced: set<UserId>)
    requires EmailsUnique(users) && EmailsLower(users)
    ensures var r := Register(users, body, hash, referenced);
      r.Ok? ==> EmailsUnique(r.value.0) && EmailsLower(r.value.0)
  {
    var r := Register(users, body, hash, referenced);
    if r.Ok? {
      var id := r.value.1;
      var account := NewAccount(id, body, hash);
      assert r.value.0 == users[id := account];
      LowerIdempotent(body.email.value);
      AddAccountKeepsEmails(users, account);
    }
  }

  /** Adding an account under a fresh id with an unused lower-case address keeps the e-mail invariant. */
  lemma AddAccountKeepsEmails(users: UserStore, account: User)
    requires EmailsUnique(users) && EmailsLower(users)
    requires account.id !in users && ToLower(account.email) == account.email
    requires !EmailTaken(users, account.email)
    ensures EmailsUnique(users[account.id := account]) && EmailsLower(users[account.id := account])
  {
  }

  // ---------------------------------------------------------------- login

  /** The account registered under `email`, if any. */
  function FindByEmail(users: UserStore, email: string): (r: Option<UserId>)
    requires EmailsUnique(users)
    ensures r.Some? <==> EmailTaken(users, email)
    ensures r.Some? ==> r.value in users && users[r.value].email == ToLower(email)
  {
    if EmailTaken(users, email) then
      var id :| id in users && users[id].email == ToLower(email);
      Some(id)
    else None
  }

  /**
   `login`: an unknown e-mail and a wrong password give the same 400
   "Invalid credentials"; a missing password makes the hash comparison throw
   (500). `matches` stands for bcrypt's comparison.
   */
  function Login(users: UserStore, email: Option<string>, password: Option<string>,
                 matches: (string, string) -> bool): (r: Result<UserId>)
    requires EmailsUnique(users)
    ensures r.Ok? <==> (email.Some? && EmailTaken(users, email.value) && password.Some?
      && matches(password.value, users[FindByEmail(users, email.value).value].passwordHash))
    ensures r.Ok? ==> r.value in users && users[r.value].email == ToLower(email.value)
    ensures email.None? || !EmailTaken(users, email.value) ==> r == Fail(BadRequest, "Invalid credentials")
    ensures r.Err? ==> r == Fail(BadRequest, "Invalid credentials") || r == Fail(ServerError, "Login failed")
  {
    var found := if email.Some? then FindByEmail(users, email.value) else None;
    if found.None? then Fail(BadRequest, "Invalid credentials")
    else if password.None? then Fail(ServerError, "Login failed")
    else if !matches(password.value, users[found.value].passwordHash) then Fail(BadRequest, "Invalid credentials")
    else Ok(found.value)
  }

  /** The two credential failures cannot be told apart by the response. */
  lemma LoginHidesWhichCredentialFailed(users: UserStore, e1: string, e2: string, pw: string,
                                        matches: (string, string) -> bool)
    requires EmailsUnique(users)
    requires !EmailTaken(users, e1)
    requires EmailTaken(users, e2) && !matches(pw, users[FindByEmail(users, e2).value].passwordHash)
    ensures Login(users, Some(e1), Some(pw), matches) == Login(users, Some(e2), Some(pw), matches)
  {
  }

  // ---------------------------------------------------------------- updateProfile

  /**
   The body of `PUT /auth/me`. Fields absent from the JSON are `None`. The
   last three are not on the whitelist and are never written.
   */
  datatype ProfileBody = ProfileBody(
    name: Option<string>,
    bio: Option<string>,
    location: Option<GeoPoint>,
    phone: Option<string>,
    gender: Option<string>,
    college: Option<string>,
    course: Option<string>,
    year: Option<string>,
    interests: Option<seq<string>>,
    resumeUrl: Option<string>,
    address: Option<string>,
    profileStatus: Option<string>,
    role: Option<string>,
    avatarUrl: Option<string>,
    logoUrl: Option<string>,
    vendorDocuments: Option<seq<string>>,
    email: Option<string>,
    password: Option<string>,
    joinedClubs: Option<set<ClubId>>)

  /** A body with no fields. */
  const EmptyBody := ProfileBody(None, None, None, None, None, None, None, None, None, None,
                                 None, None, None, None, None, None, None, None, None)

  /** `role` is copied into the update only when given and the BODY says 'INCOMPLETE'. */
  predicate RoleGateOpen(body: ProfileBody)
  {
    body.role.Some? && body.profileStatus == Some("INCOMPLETE")
  }

  /**
   The update validators `runValidators` turns on pass for every path the
   `$set` writes: a written name satisfies `required` (an empty string does
   not), and every enumerated field written holds a listed value.
   */
  predicate UpdateValid(body: ProfileBody)
  {
    && (body.name.Some? ==> body.name.value != "")
    && (body.gender.Some? ==> ParseGender(body.gender.value).Some?)
    && (body.profileStatus.Some? ==> ParseStatus(body.profileStatus.value).Some?)
    && (RoleGateOpen(body) ==> ParseRole(body.role.value).Some?)
  }

  /**
   What the whitelist loop of `updateProfile` does to an account: each of
   the sixteen whitelisted fields is written when given and kept when absent
   (the enumerations hold the listed value the body names, the role only
   through its gate), and every field outside the whitelist is kept.
   */
  predicate WhitelistCopied(u: User, body: ProfileBody, u': User)
  {
    // fields outside the whitelist
    && u'.id == u.id && u'.email == u.email && u'.passwordHash == u.passwordHash
    && u'.joinedClubs == u.joinedClubs
    // plain whitelisted fields
    && SetField(body.name, u.name, u'.name)
    && SetOptField(body.bio, u.bio, u'.bio)
    && SetOptField(body.location, u.location, u'.location)
    && SetOptField(body.phone, u.phone, u'.phone)
    && SetOptField(body.college, u.college, u'.college)
    && SetOptField(body.course, u.course, u'.course)
    && SetOptField(body.year, u.year, u'.year)
    && SetField(body.interests, u.interests, u'.interests)
    && SetOptField(body.resumeUrl, u.resumeUrl, u'.resumeUrl)
    && SetOptField(body.address, u.address, u'.address)
    && SetOptField(body.avatarUrl, u.avatarUrl, u'.avatarUrl)
    && SetOptField(body.logoUrl, u.logoUrl, u'.logoUrl)
    && SetField(body.vendorDocuments, u.vendorDocuments, u'.vendorDocuments)
    // enumerated fields
    && (body.gender.None? ==> u'.gender == u.gender)
    && (body.gender.Some? ==> u'.gender.Some? && GenderName(u'.gender.value) == body.gender.value)
    && (body.profileStatus.None? ==> u'.profileStatus == u.profileStatus)
    && (body.profileStatus.Some? ==> StatusName(u'.profileStatus) == body.profileStatus.value)
    && (RoleGateOpen(body) ==> RoleName(u'.role) == body.role.value)
    && (!RoleGateOpen(body) ==> u'.role == u.role)
  }

  /** The `$set` of the whitelisted, defined fields. */
  function ApplyProfile(u: User, body: ProfileBody): (r: User)
    requires UpdateValid(body)
    ensures WhitelistCopied(u, body, r)
  {
    User(
      id := u.id, name := Keep(body.name, u.name), email := u.email, passwordHash := u.passwordHash,
      bio := KeepOpt(body.bio, u.bio), avatarUrl := KeepOpt(body.avatarUrl, u.avatarUrl),
      logoUrl := KeepOpt(body.logoUrl, u.logoUrl),
      vendorDocuments := Keep(body.vendorDocuments, u.vendorDocuments),
      phone := KeepOpt(body.phone, u.phone),
      gender := if body.gender.Some? then ParseGender(body.gender.value) else u.gender,
      college := KeepOpt(body.college, u.college), course := KeepOpt(body.course, u.course),
      year := KeepOpt(body.year, u.year), interests := Keep(body.interests, u.interests),
      resumeUrl := KeepOpt(body.resumeUrl, u.resumeUrl), address := KeepOpt(body.address, u.address),
      profileStatus := if body.profileStatus.Some? then ParseStatus(body.profileStatus.value).value else u.profileStatus,
      role := if RoleGateOpen(body) then ParseRole(body.role.value).value else u.role,
      location := KeepOpt(body.location, u.location), joinedClubs := u.joinedClubs)
  }


  /**
   `updateProfile` for the authenticated `caller`: a validator failure is a
   500 with nothing written; an unknown caller gets `null` and nothing is
   written; a point the `2dsphere` index refuses fails the write itself
   (500); otherwise the caller's document is updated and returned.
   */
  function UpdateProfile(users: UserStore, caller: UserId, body: ProfileBody): (r: Result<(UserStore, Option<User>)>)
    ensures r.Err? <==> !UpdateValid(body) || (caller in users && !PointStorable(body.location))
    ensures r.Err? ==> r == Fail(ServerError, "Update failed")
    ensures r.Ok? && caller !in users ==> r.value == (users, None)
    ensures r.Ok? && caller in users ==> r.value.0.Keys == users.Keys
    ensures r.Ok? && caller in users ==>
      var (users', reply) := r.value;
      var u, u' := users[caller], users'[caller];
      && users'.Keys == users.Keys
      && reply == Some(u')
      && (forall other :: other in users && other != caller ==> users'[other] == users[other])
      && WhitelistCopied(u, body, u')
  {
    if !UpdateValid(body) then Fail(ServerError, "Update failed")
    else if caller !in users then Ok((users, None))
    else if !PointStorable(body.location) then Fail(ServerError, "Update failed")
    else
      var u' := ApplyProfile(users[caller], body);
      Ok((users[caller := u'], Some(u')))
  }

  /** `updateProfile` leaves the unique, lower-case e-mail invariant intact. */
  lemma UpdateProfileKeepsEmails(users: UserStore, caller: UserId, body: ProfileBody)
    requires EmailsUnique(users) && EmailsLower(users)
    ensures UpdateProfile(users, caller, body).Ok? ==>
      EmailsUnique(UpdateProfile(users, caller, body).value.0)
      && EmailsLower(UpdateProfile(users, caller, body).value.0)
  {
    var r := UpdateProfile(users, caller, body);
    if r.Ok? && caller in users {
      var users' := r.value.0;
      assert forall a :: a in users' ==> users'[a].email == users[a].email;
    }
  }
}

=== FILE: volunteers.dfy ===
/**
 Volunteer applications: one per (user, event) pair under a unique compound
 index, written by an upsert that overwrites the role and puts the
 application back to `pending`, listed per event, and re-statused by id by
 any signed-in caller.
 */
module Volunteers {
  import opened Common

  /** The unique index `{ user: 1, event: 1 }`. */
  datatype Pair = Pair(user: UserId, event: EventId)

  /**
   An application. The schema lists `pending`, `approved` and `rejected`, but
   neither write runs validators, so the status is whatever string was sent.
   `role` is an optional free-text string.
   */
  datatype Application = Application(
    id: VolunteerId,
    user: UserId,
    event: EventId,
    status: string,
    role: Option<string>,
    createdAt: int,
    updatedAt: int)

  type VolunteerStore = map<Pair, Application>

  const PendingStatus: string := "pending"

  /** Every application sits under its own pair and no two share a document id. */
  predicate WellFormed(store: VolunteerStore)
  {
    && (forall p :: p in store ==> store[p].user == p.user && store[p].event == p.event)
    && (forall p, q :: p in store && q in store && store[p].id == store[q].id ==> p == q)
  }

  function Ids(store: VolunteerStore): (r: set<VolunteerId>)
    ensures forall p :: p in store ==> store[p].id in r
    ensures forall id :: id in r ==> exists p :: p in store && store[p].id == id
  {
    set p | p in store :: store[p].id
  }

  /**
   `applyVolunteer`: insert or overwrite the caller's application for the
   event with `{ role, status: 'pending' }`. A role left out of the body is
   dropped from the update, so an existing role stays. `stored` is false when
   the database refuses the write, which answers 400.
   */
  function Apply(store: VolunteerStore, caller: UserId, event: EventId, role: Option<string>, now: int,
                 stored: bool): (r: Result<(VolunteerStore, Application)>)
    ensures !stored <==> r.Err?
    ensures r.Err? ==> r == Fail(BadRequest, "Could not apply to volunteer")
    ensures r.Ok? ==> r.value.0.Keys == store.Keys + {Pair(caller, event)}
    ensures r.Ok? ==> r.value.0[Pair(caller, event)] == r.value.1
    ensures r.Ok? ==> var a := r.value.1;
      a.user == caller && a.event == event && a.status == PendingStatus && a.updatedAt == now
    ensures r.Ok? && role.Some? ==> r.value.1.role == role
    ensures r.Ok? && Pair(caller, event) in store ==>
      var prior := store[Pair(caller, event)];
      && r.value.1.id == prior.id
      && r.value.1.createdAt == prior.createdAt
      && (role.None? ==> r.value.1.role == prior.role)
    ensures r.Ok? && Pair(caller, event) !in store ==>
      r.value.1.id !in Ids(store) && r.value.1.createdAt == now && r.value.1.role == role
    ensures r.Ok? ==> forall p :: p in store && p != Pair(caller, event) ==> r.value.0[p] == store[p]
  {
    if !stored then Fail(BadRequest, "Could not apply to volunteer")
    else
      var key := Pair(caller, event);
      var a :=
        if key in store then
          var prev := store[key];
          Application(prev.id, caller, event, PendingStatus, if role.Some? then role else prev.role,
                      prev.createdAt, now)
        else
          Application(FreshId(Ids(store)), caller, event, PendingStatus, role, now, now);
      Ok((store[key := a], a))
  }

  /** The applications to list: those for `event` when one is given, every one otherwise. */
  function List(store: VolunteerStore, event: Option<EventId>): (r: set<Application>)
    ensures forall p :: p in store && (event.None? || p.event == event.value) ==> store[p] in r
    ensures forall a :: a in r ==> exists p :: p in store && store[p] == a && (event.None? || p.event == event.value)
  {
    set p | p in store && (event.None? || p.event == event.value) :: store[p]
  }

  /**
   `updateVolunteerStatus`: the application with document id `id` gets the
   status sent and is returned; with no such application nothing changes and
   the answer is `null`. A status left out of the body is dropped from the
   update. The handler has no caller parameter: nothing checks who asks.
   */
  method UpdateStatus(store: VolunteerStore, id: VolunteerId, status: Option<string>, now: int)
    returns (store': VolunteerStore, item: Option<Application>)
    ensures item.None? <==> id !in Ids(store)
    ensures item.None? ==> store' == store
    ensures item.Some? ==> exists p :: (p in store && store[p].id == id
      && store' == store[p := item.value]
      && item.value == store[p].(status := if status.Some? then status.value else store[p].status,
                                 updatedAt := now))
  {
    if id !in Ids(store) {
      return store, None;
    }
    var p :| p in store && store[p].id == id;
    var prev := store[p];
    var a := prev.(status := if status.Some? then status.value else prev.status, updatedAt := now);
    store', item := store[p := a], Some(a);
  }

  /** Applying keeps every application under its own pair and the document ids distinct. */
  lemma ApplyKeepsWellFormed(store: VolunteerStore, caller: UserId, event: EventId, role: Option<string>,
                             now: int)
    requires WellFormed(store)
    ensures WellFormed(Apply(store, caller, event, role, now, true).value.0)
  {
    var s' := Apply(store, caller, event, role, now, true).value.0;
    var key := Pair(caller, event);
    forall p, q | p in s' && q in s' && s'[p].id == s'[q].id
      ensures p == q
    {
      if p != key && q != key {
        assert s'[p] == store[p] && s'[q] == store[q];
      }
    }
  }

  /** A status update keeps every application under its own pair and the ids distinct. */
  lemma StatusUpdateKeepsWellFormed(store: VolunteerStore, p: Pair, a: Application)
    requires WellFormed(store)
    requires p in store
    requires a.id == store[p].id && a.user == store[p].user && a.event == store[p].event
    ensures WellFormed(store[p := a])
  {
  }

  /**
   Applying again, even after an approval, overwrites the earlier application
   in place: same document, status back to `pending`, no second record.
   */
  lemma ReapplyResetsApproval(store: VolunteerStore, caller: UserId, event: EventId, role: Option<string>,
                              now: int)
    requires Pair(caller, event) in store
    requires store[Pair(caller, event)].status == "approved"
    ensures var r := Apply(store, caller, event, role, now, true).value;
      && r.0.Keys == store.Keys
      && r.1.id == store[Pair(caller, event)].id
      && r.1.status == PendingStatus
  {
  }

  /** After applying, the application shows in the event's listing and in the full listing. */
  lemma AppliedIsListed(store: VolunteerStore, caller: UserId, event: EventId, role: Option<string>,
                        now: int)
    ensures var r := Apply(store, caller, event, role, now, true).value;
      r.1 in List(r.0, Some(event)) && r.1 in List(r.0, None)
  {
  }
}
